=== FILE: README.md ===
# NFA approval workflow — a Dafny model

This project models the core of an NFA ("note for approval") system. The backend is a FastAPI
application over a MongoDB store; the frontend is a React single-page application. A requestor
writes an NFA. Section 1 goes to a list of approvers. Once every section-1 approver has approved,
a coordinator fills in section 2 (vendor choice and commercial details) and submits it to a
second list of approvers. When section 2 is fully approved, the NFA is numbered `NFA/<year>/<nnnn>`
and finalised. Any approver can reject the NFA or send it back.

The model is functional:

- **Store.** The database is an immutable `Records.Db` holding one sequence per collection
  (users, NFAs, approval steps, attachments, vendors), in insertion order. `find_one`,
  `update_one` and `delete_one` act on the first matching document. `find` keeps the matches in
  order, and `sort`/`limit`/`skip` are a sort followed by a cut (`Seqs`, `Sorting`).
- **Operations.** Every service function and route handler is a pure function from the store and
  the request to a `Result`. The result holds either the new store and the answer, or an error.
  Route errors are `Http.HttpError` values with the status code and `detail` text of the
  `HTTPException` the handler raises.
- **Things supplied from outside.** The current time (`Records.Time`, whole seconds), generated
  UUIDs, the current year, password hashing and verification, token signing and the
  database/queue health probes are parameters. Queue tasks (`.delay(...)` calls) become `Effect`
  values returned by the operation.
- **Frontend.** The pages and components that hold logic are modelled as pure functions of
  their state: Approvals, MyNFAs, AdminUsers, AdminVendors, Header, Sidebar and StatusBadge.

Modules follow the program's files:

- `Schemas`: the enumerations.
- `Records`, `Seqs`, `Sorting`, `Grouping`, `Text`, `Wrappers`, `Http`: the store and shared helpers.
- `ApprovalSteps`, `NfaService`, `ApprovalService`: the workflow.
- `NfaRoutes`, `ApprovalRoutes`: the workflow endpoints.
- `AuthService`, `AuthRoutes`, `UserRoutes`: accounts.
- `VendorService`, `VendorRoutes`: vendors.
- `Reports`, `Admin`, `Notifications`, `Websocket`: the other endpoints.
- `ApprovalsPage`, `MyNfas`, `AdminUsers`, `AdminVendors`, `Header`, `Sidebar`, `StatusBadge`: the frontend.

Behaviour the model makes explicit because the code does it this way:

- Nothing orders the approvals inside a section. Any pending step can be acted on by its approver.
- Sending back sets the NFA to `sent_back`. Section 1 can only be submitted from `draft`, so a
  sent-back NFA cannot be resubmitted.
- Submitting section 2 does not look at the NFA's status.
- `section2_approved` is never assigned. `approved` is reached only through finalisation.
- The approval endpoint accepts a rejection without a comment. Only the Approvals page insists
  on one.
- Approver statistics count `sent_back` steps in the total, but in none of the named counts.
- `PUT /users/{id}` lets any user change their own roles, including making themselves
  superadmin (`UserRoutes.SelfServiceRoleChange`).
- A broadcast whose send fails removes the socket from the active list, but not from its
  user's list.
- A creation time 10 seconds in the future is shown as "23 hours ago", because a negative
  `timedelta` has `days == -1`.

## Model

| member | source | states |
|---|---|---|
| Schemas.ParseRole | backend/models/schemas.py:6-11 | a role string is accepted only as the stored value of the role it names |
| Schemas.RoleRoundTrip | backend/models/schemas.py:6-11 | every role's stored value parses back to that role |
| Schemas.ParseStatus | backend/models/schemas.py:13-21 | a status string is accepted only as the stored value of the status it names |
| Schemas.StatusesComplete | backend/models/schemas.py:13-21 | the eight NFA statuses are all listed, their stored values are distinct and each parses back to its status |
| Schemas.StepStatusAfter | backend/services/approval_service.py:68-72 | approve leaves a step approved, reject rejected and send back sent back; no action leaves it pending |
| Schemas.ActionsMatchStatuses | backend/services/approval_service.py:68-72 | the action-to-status table is a bijection between the three actions and the three decided statuses |
| Records.EmptySection1 | backend/models/schemas.py:86-121 | an empty section 1 has currency INR and no approvers |
| Records.EmptySection2 | backend/models/schemas.py:123-141 | an empty section 2 names no vendor and no approvers |
| Records.View | backend/services/auth_service.py:51-53 | the public view of an account keeps its id, username, e-mail, name, roles and active flag, without the password hash |
| Records.FindNfa | backend/services/nfa_service.py:110-114 | the NFA lookup finds a record exactly when one has the id, and returns a stored record with it |
| Records.FindStep | backend/services/approval_service.py:55 | the step lookup finds a step exactly when one has the id, and returns a stored step with it |
| Records.FindUserView | backend/services/auth_service.py:77-81 | the account lookup by id finds a view exactly when some account has the id, and the view is that of the first such account |
| Records.FoundViewIsThatAccount | backend/services/auth_service.py:77-81 | with unique ids, looking up an account's id gives exactly that account's view |
| ApprovalSteps.NewStep | backend/services/approval_service.py:22-35 | a new step is pending with no action, comment or action time; it carries the approver entry's user id and name, the given sequence or 0 when the key is absent, and the given designation or "" when absent |
| ApprovalSteps.CreateApprovalWorkflows | backend/services/approval_service.py:12-42 | steps are created exactly when every approver entry has both a user id and a name, otherwise the KeyError surfaces; when created, exactly one new pending step per approver, in the approvers' order, each built from its entry |
| ApprovalSteps.InsertSteps | backend/services/approval_service.py:38-39 | the new steps are appended to the step collection and no other collection changes |
| ApprovalSteps.AddWorkflows | backend/services/approval_service.py:20-39 | the step collection grows by the created steps, or the KeyError is raised and nothing is stored; NFAs, users and vendors are untouched |
| ApprovalService.SectionSteps | backend/services/approval_service.py:111-114 | at most 100 steps, each a stored step of that NFA and section, ordered by sequence |
| ApprovalService.SectionStepsMembers | backend/services/approval_service.py:111-114 | when the section has at most 100 steps, a step is listed exactly when it is stored and belongs to that NFA and section |
| ApprovalService.SectionCompleteIffAllApproved | backend/services/approval_service.py:111-117 | when the section has at most 100 steps, the completion test holds exactly when every stored step of the section is approved |
| ApprovalService.CheckSectionCompletion | backend/services/approval_service.py:106-143 | nothing happens unless every listed step is approved; a complete section 1 moves an existing NFA to section1_approved at stage "coordinator_processing", stamps the update time and keeps its number, requestor, sections, PDF link and creation time, and asks for the coordinator notification exactly when the coordinator field is non-empty; a complete section 2 only asks for PDF generation; any other section does nothing; no other NFA changes |
| ApprovalService.Decide | backend/services/approval_service.py:68-84 | the decided step has the status that matches the action, records the action, comment and time, and keeps its identity, section, sequence and approver |
| ApprovalService.Refusal | backend/services/approval_service.py:55-65 | the three refusals in order: unknown step, a different approver, a step no longer pending; no refusal for the designated approver of a pending step |
| ApprovalService.FollowUp | backend/services/approval_service.py:88-99 | approval runs the section-completion check; rejection and send-back set the NFA to rejected at stage "rejected" or to sent_back at stage "sent_back", keep its content and emit nothing; only the step's NFA can change |
| ApprovalService.ProcessApproval | backend/services/approval_service.py:45-103 | fails exactly when a refusal applies, with that refusal's message; otherwise only the acted step is replaced by its decision, the NFA follow-up is applied to the resulting store, and no NFA other than the step's changes |
| ApprovalService.OnlyTheActedStepChanges | backend/services/approval_service.py:74-84 | a successful action leaves every other step unchanged |
| ApprovalService.AnyPendingStepIsActionable | backend/services/approval_service.py:55-65 | with unique step ids, the designated approver of any pending step can act on it with any action |
| ApprovalService.AcceptanceIgnoresNfas | backend/services/approval_service.py:55-65 | whether an action is accepted depends only on the steps, not on the NFAs or other collections |
| ApprovalService.NoSecondDecision | backend/services/approval_service.py:63-65 | once a step has been decided, a second action on it is refused with "This approval has already been processed" |
| ApprovalService.PendingSteps | backend/services/approval_service.py:150-156 | at most 100 steps, each a stored pending step of that approver, newest first |
| ApprovalService.GetPendingApprovals | backend/services/approval_service.py:146-164 | at most 100 entries, each a stored pending step of the approver paired with the lookup of its NFA, newest first |
| ApprovalService.PendingIsComplete | backend/services/approval_service.py:146-164 | when the approver has at most 100 pending steps, every one of them appears in the list |
| ApprovalService.GetApprovalHistory | backend/services/approval_service.py:167-176 | at most 100 stored steps of that NFA, ordered by section and then by sequence |
| ApprovalService.HistoryIsComplete | backend/services/approval_service.py:167-176 | when the NFA has at most 100 steps, the history holds each of them, as often as it is stored |
| ApprovalService.HistoryKeepsEarliest | backend/services/approval_service.py:172-174 | beyond 100 steps, no step of the NFA left out comes before a listed one in section-then-sequence order |
| ApprovalService.CountsPartition | backend/services/approval_service.py:183-195 | an approver's steps split exactly into pending, approved, rejected and sent-back |
| ApprovalService.CountIsFilterLength | backend/services/approval_service.py:183-195 | each count equals the number of stored steps the count query's filter selects |
| ApprovalService.GetApproverStatistics | backend/services/approval_service.py:179-202 | the total counts all of the approver's steps and pending, approved and rejected count those with that status; what the total holds beyond them is exactly the sent-back steps |
| ApprovalService.PendingCountMatchesList | backend/services/approval_service.py:183-187 | the pending count equals the number of the approver's pending steps the pending query finds |
| ApprovalService.DecisionMovesCounts | backend/services/approval_service.py:68-84 | a decision keeps the approver's total, lowers the pending count by one and raises the approved or rejected count by one for approve or reject; send back raises neither |
| ApprovalService.LastApprovalCompletesSection | backend/services/approval_service.py:88-143 | approving the only undecided step of a section of at most 100 steps completes it: section 1 moves an existing NFA to section1_approved at stage "coordinator_processing", section 2 asks for PDF generation |
| ApprovalService.SubmittedStepsAreActionable | backend/services/nfa_service.py:40-64 | every step a successful submission stores is pending, in the submitted section, assigned to its approver entry's user, and with unique step ids that approver can act on it at once |
| NfaService.CreateNfa | backend/services/nfa_service.py:15-37 | a new NFA is a draft at stage "draft" with the requestor's id and name, the given section 1, no number key, no section 2 and no PDF; it is appended to the collection and nothing else in the store changes |
| NfaService.CreateNfaAsWritten | backend/services/nfa_service.py:19-33 | the insert as the code performs it, storing an explicit null number under the sparse unique index: it fails exactly when some stored NFA already holds a null number |
| NfaService.SecondCreateFailsAsWritten | backend/core/database.py:45 | starting from an empty store, the first as-written creation succeeds and the second is refused by the unique index |
| NfaService.CreateKeepsNumberIndex | backend/core/database.py:45 | the corrected creation keeps the invariant of the sparse unique index: no two NFAs share an assigned number |
| NfaService.UpdateNfaStatus | backend/services/nfa_service.py:140-158 | for an existing NFA the status and update time change, the stage changes only when a non-empty stage is given, every other field and every other NFA is kept; an unknown id changes nothing and yields no record |
| NfaService.UpdateStatusIdempotent | backend/services/nfa_service.py:140-158 | applying the same status update twice gives the same store and record as applying it once (at the later time) |
| NfaService.SubmitSection1 | backend/services/nfa_service.py:40-64 | the stored NFA, and no other, moves to section1_pending at stage "section1_approval" with its content untouched; the section-1 steps are then appended and the re-read NFA returned, or, when an approver entry lacks user_id or name, the error is raised after the status was written and no step is stored |
| NfaService.UpdateSection2 | backend/services/nfa_service.py:67-83 | section 2 is replaced and the update time set; status, stage, requestor id and name, creation time, section 1, number and PDF link are kept; no other NFA changes; an unknown id changes nothing |
| NfaService.UpdateSection2Idempotent | backend/services/nfa_service.py:67-83 | storing the same section 2 again changes nothing but the update time |
| NfaService.SubmitSection2 | backend/services/nfa_service.py:86-107 | the stored NFA, and no other, moves to section2_pending at stage "section2_approval" with its content untouched; the section-2 steps are then appended and the re-read NFA returned, or the KeyError is raised with the status already written |
| NfaService.GetAllNfas | backend/services/nfa_service.py:129-137 | at most `limit` records, each a stored NFA matching every given filter, newest first |
| NfaService.GetNfasByRequestor | backend/services/nfa_service.py:117-126 | the same listing as the general one filtered on the requestor id, so it is complete under the same conditions |
| NfaService.ListingIsComplete | backend/services/nfa_service.py:129-137 | when all matches fit in the page, the listing holds every matching NFA exactly as often as the store does |
| NfaService.SerialField | backend/services/nfa_service.py:171 | the third "/"-separated field of a number that starts with "NFA/<year>/" contains no separator |
| NfaService.YearSerials | backend/services/nfa_service.py:169-176 | the serials of this year's numbers: the integer conversion fails exactly when some number of the year has a non-numeric third field; otherwise every serial of the year is listed and every listed value is some NFA's serial |
| NfaService.NextSerial | backend/services/nfa_service.py:176-181 | the next serial exists exactly when the year's serials parse, and it is at least 1 |
| NfaService.NextSerialIsMaxPlusOne | backend/services/nfa_service.py:172-181 | the next serial exceeds every serial of the year, and it is 1 when the year has no numbers, otherwise one more than an existing serial |
| NfaService.GenerateNfaNumber | backend/services/nfa_service.py:161-185 | a generated number starts with "NFA/<year>/" and exists exactly when the year's serials parse |
| NfaService.FormatNumberRoundTrip | backend/services/nfa_service.py:171-183 | the zero-padded number "NFA/<year>/<n:04>" reads back, through split-and-convert, as n, with a serial field of at least four digits |
| NfaService.GeneratedNumberIsFresh | backend/services/nfa_service.py:161-185 | a generated number differs from every number already stored |
| NfaService.FinalizeNfa | backend/services/nfa_service.py:188-209 | fails exactly when number generation fails; otherwise an existing NFA gets the generated number, status approved, stage "completed" and the PDF link and the update time, with its sections, requestor id and name and creation time kept, and no other NFA changes; an unknown id changes nothing |
| NfaService.FinalizeKeepsNumberIndex | backend/services/nfa_service.py:188-209 | finalisation preserves the unique-number invariant |
| NfaService.DeleteNfa | backend/services/nfa_service.py:212-226 | reports deletion exactly when some NFA has the id, removes only the first such NFA, removes every step and attachment of that id and keeps every other step and attachment exactly as often as stored, and users and vendors |
| NfaService.DeleteRemovesTheNfa | backend/services/nfa_service.py:212-226 | with unique ids, the deleted NFA can no longer be found |
| NfaService.DeleteKeepsOtherNfas | backend/services/nfa_service.py:212-226 | with unique ids, deleting one NFA leaves the lookup of every other id unchanged |
| NfaRoutes.CreateNfaRoute | backend/api/routes/nfa.py:17-30 | creation fails with 500 exactly when the caller's account no longer exists; otherwise the new draft carries the caller's id and stored name and the given section 1, has no number key, and is appended to the store (the corrected creation of the first finding) |
| NfaRoutes.CreateNfaRouteAsWritten | backend/api/routes/nfa.py:17-30 | as written: a 500 exactly when the caller's account is gone or some stored NFA already holds a null number; otherwise the new draft stores a null number |
| NfaRoutes.SecondCreateRouteFailsAsWritten | backend/api/routes/nfa.py:25-29 | as written, a second creation through the endpoint answers 500 once one unnumbered NFA is stored |
| NfaRoutes.ListQuery | backend/api/routes/nfa.py:40-47 | the status filter is applied only when non-empty, and the requestor filter is added exactly for callers who are not superadmin |
| NfaRoutes.ListNfas | backend/api/routes/nfa.py:32-50 | a limit above 1000 is rejected; otherwise exactly the service listing for the role-dependent query: at most `limit` stored NFAs, all the caller's own unless they are superadmin, all with the requested status when one is given |
| NfaRoutes.MyNfasRoute | backend/api/routes/nfa.py:52-60 | a limit above 1000 is a validation error (422); otherwise exactly the service's listing of the caller's own NFAs |
| NfaRoutes.ListNfasIsComplete | backend/api/routes/nfa.py:40-49 | when the matches fit within the limit, every stored NFA the caller may list with the requested status is in the first page |
| NfaRoutes.MyNfasIsComplete | backend/api/routes/nfa.py:52-60 | when the caller's NFAs fit within the limit, every one of them is in the first page |
| NfaRoutes.GetNfa | backend/api/routes/nfa.py:62-85 | an unknown id is 404; the NFA is returned exactly when the caller is superadmin, its requestor, or an approver on one of its steps, and 403 "Access denied" otherwise |
| NfaRoutes.ApproverEmails | backend/api/routes/nfa.py:115-125 | exactly the approvers whose user record is found get an e-mail, in list order: one per such approver, to the first user record with the approver's id |
| NfaRoutes.FoundApprovers | backend/api/routes/nfa.py:115-117 | the approvers whose user record is found, at most as many as listed, every found one included |
| NfaRoutes.MailTo | backend/api/routes/nfa.py:116-125 | the approval e-mail goes to the address and name of a stored user with the approver's id |
| NfaRoutes.EmailsReachFoundApprovers | backend/api/routes/nfa.py:115-125 | mailing the found approvers in order sends at most one e-mail per approver, each to a stored user, and reaches every approver with an account |
| NfaRoutes.SubmitSection1Route | backend/api/routes/nfa.py:87-127 | in this order: unknown id 404, not the requestor 403, not a draft 400 "NFA already submitted", no approvers 400; otherwise the stored NFA, and no other, becomes section1_pending at stage "section1_approval"; then either the steps are appended, the re-read NFA returned and the approvers with accounts e-mailed, or a malformed approver entry gives a 500 with no steps and no e-mail |
| NfaRoutes.UpdateSection2Route | backend/api/routes/nfa.py:129-149 | only coordinators (403), only for an existing NFA (404) whose status is section1_approved (400); success stores the given section 2 on that NFA alone, keeps the status and touches no step |
| NfaRoutes.SubmitSection2Route | backend/api/routes/nfa.py:151-188 | only coordinators (403), only for an existing NFA (404) with section-2 approvers (400); otherwise the stored NFA, and no other, becomes section2_pending at stage "section2_approval"; then the steps are appended and the approvers with accounts e-mailed, or a malformed entry gives a 500 with no steps |
| NfaRoutes.MalformedApproverStrandsNfa | backend/api/routes/nfa.py:101-109 | an approver entry without a user id leaves the NFA section1_pending with no steps and a 500, and a retry is refused as already submitted |
| NfaRoutes.DeleteNfaRoute | backend/api/routes/nfa.py:243-257 | only a superadmin deletes (403 otherwise, store untouched); the store is the service's deletion result and the answer is 404 exactly when no NFA had the id |
| NfaRoutes.SentBackCannotBeResubmitted | backend/api/routes/nfa.py:101-102 | an NFA that was sent back cannot be submitted again by its requestor: the status guard refuses it as already submitted |
| NfaRoutes.Section2SubmissionIgnoresStatus | backend/api/routes/nfa.py:151-170 | a coordinator can submit section 2 of any NFA that has section-2 approvers, whatever its status |
| Http.RequireRole | backend/api/routes/vendors.py:12 | a caller passes the role gate exactly when they hold at least one of the allowed roles; otherwise the answer is 403 |
| ApprovalRoutes.ToHttp | backend/api/routes/approvals.py:60-63 | a service refusal becomes 400 and any other failure 500, each with the message as detail |
| ApprovalRoutes.ProcessApprovalRoute | backend/api/routes/approvals.py:34-63 | the endpoint fails exactly when the service refuses, with the translated error; on success it returns the service's store, step and effects, the step is the caller's own step with that id, and the broadcast event names the step, its NFA, the action value and the caller's username |
| ApprovalRoutes.RefusalsAreBadRequests | backend/api/routes/approvals.py:60-61 | every failure of the action endpoint is a 400 whose detail is one of the three service refusals |
| ApprovalRoutes.PendingRoute | backend/services/approval_service.py:146-164 | the corrected `GET /pending` of the fourth finding: the service's pending list for the caller, at most 100 entries, each a pending stored step of the caller together with the lookup of its NFA |
| ApprovalRoutes.PendingRouteAsWritten | backend/api/routes/approvals.py:9-15 | as declared, the answer has one entry per entry of the service's pending list, with the same step and no NFA, because the response schema has no `nfa` field |
| ApprovalRoutes.PendingRouteIsComplete | backend/api/routes/approvals.py:9-15 | when the caller has at most 100 pending steps, each of them is on the page |
| ApprovalRoutes.StatisticsRoute | backend/api/routes/approvals.py:17-23 | all four counts (total, pending, approved, rejected) are the caller's step counts for the matching status query |
| ApprovalRoutes.HistoryRoute | backend/api/routes/approvals.py:25-32 | any signed-in user gets the history of the NFA, whose entries are stored steps of that NFA |
| ApprovalsPage.HandleAction | frontend/src/pages/Approvals.js:40-45 | choosing an action selects that step and action, clears the comment and opens the dialog |
| ApprovalsPage.PayloadComment | frontend/src/pages/Approvals.js:59 | the comment sent is the trimmed text, or null exactly when the text is blank |
| ApprovalsPage.SubmitAction | frontend/src/pages/Approvals.js:47-60 | nothing happens exactly when no step is selected; the "comments are required" refusal happens exactly for a rejection with a blank comment; otherwise the request targets the selected step with the chosen action and the trimmed comment |
| ApprovalsPage.ConfirmDisabled | frontend/src/pages/Approvals.js:233-235 | for a rejection the confirm button is disabled exactly while submitting or while the comment is blank; other actions are enabled whenever nothing is being submitted |
| ApprovalsPage.EnabledConfirmSends | frontend/src/pages/Approvals.js:47-60 | pressing an enabled confirm button always sends a request |
| ApprovalsPage.SentCommentIsTrimmed | frontend/src/pages/Approvals.js:50-59 | a sent comment is non-empty and already trimmed, and every rejection sent from the page carries one |
| ApprovalsPage.PageRejectionsCarryComments | frontend/src/pages/Approvals.js:50-60 | a rejection made through the page and accepted by the server leaves the step rejected with a non-empty comment |
| ApprovalsPage.EndpointAcceptsBareRejection | backend/api/routes/approvals.py:34-47 | the server itself accepts a rejection without a comment from the designated approver of a pending step; the comment requirement lives only in the page |
| ApprovalsPage.Position | frontend/src/pages/Approvals.js:123 | the position shown is one more than the stored sequence |
| ApprovalsPage.UnnumberedApproversShareFirstPosition | backend/services/approval_service.py:26 | every approver entered without a sequence is shown at position 1 |
| ApprovalsPage.CardTitle | frontend/src/pages/Approvals.js:109-120 | a card is titled "NFA " followed by the NFA's non-empty number, or "#" and the first 8 characters of its id, or "#undefined" when the entry carries no NFA |
| ApprovalsPage.CardLink | frontend/src/pages/Approvals.js:160-161 | "View Details" leads to `/nfa/` and the NFA's id, or to `/nfa/undefined` when the entry carries no NFA |
| ApprovalsPage.CardRequestor | frontend/src/pages/Approvals.js:132-135 | a requestor is shown exactly when the entry carries an NFA, and it is that NFA's requestor |
| ApprovalsPage.PendingCardsBlankAsWritten | frontend/src/pages/Approvals.js:109-161 | with the endpoint as declared, every card is titled "NFA #undefined", shows no requestor and links to `/nfa/undefined` |
| ApprovalsPage.PendingCardsShowTheirNfa | frontend/src/pages/Approvals.js:109-161 | with the corrected endpoint, a card whose NFA is stored links to the step's NFA, shows its requestor and, when it has one, its number |
| AuthService.NewUser | backend/services/auth_service.py:32-46 | a new account stores the hash of the password and never the password itself, the given identity fields, the given roles or [requestor] when the form omits them, is active, and is stamped with the creation time |
| AuthService.CreateUser | backend/services/auth_service.py:14-54 | a taken username is refused first, then a taken e-mail; creation succeeds exactly when both are free, appends the new account and returns its public view |
| AuthService.CreateKeepsUsernamesUnique | backend/services/auth_service.py:18-21 | creation keeps usernames unique, and registering the same username again is refused |
| AuthService.UserByName | backend/services/auth_service.py:61 | the account lookup by username finds an account exactly when one has that username, and returns a stored account with it |
| AuthService.AuthenticationOutcome | backend/services/auth_service.py:57-74 | the three rejections in order (unknown username, wrong password, deactivated account, where a missing flag counts as active), each exactly when its condition holds, and success only for the found account whose password verifies |
| AuthService.AuthenticateUser | backend/services/auth_service.py:57-74 | sign-in yields the public view of the account exactly when authentication succeeds, with the requested username |
| AuthService.RegisteredUserCanSignIn | backend/services/auth_service.py:14-74 | right after registration the new account can sign in with its password and gets the view registration returned |
| AuthService.CreateSuperadmin | backend/services/auth_service.py:84-112 | nothing changes when the configured username exists; otherwise one superadmin account named "Super Administrator" with the configured username, e-mail and hashed password is appended; either way the username is then taken |
| AuthService.CreateSuperadminIdempotent | backend/services/auth_service.py:88-91 | running the start-up bootstrap a second time changes nothing |
| AuthRoutes.RegisterError | backend/api/routes/auth.py:12-18 | a service refusal becomes 400 with its message; any other failure 500 "Registration failed" |
| AuthRoutes.Register | backend/api/routes/auth.py:9-18 | registration fails, with 400, exactly when the username or the e-mail is taken, and a taken username is reported as such; success is the service's result |
| AuthRoutes.Login | backend/api/routes/auth.py:20-43 | login fails with 401 "Incorrect username or password" exactly when authentication fails; otherwise the token signs the user's id, username and roles, the type is "bearer" and the user view is returned |
| AuthRoutes.LoginFailuresLookAlike | backend/api/routes/auth.py:25-29 | unknown usernames, wrong passwords and deactivated accounts all get the same 401 answer |
| AuthRoutes.Me | backend/api/routes/auth.py:45-51 | 404 "User not found" exactly when no account has the caller's id; otherwise the view of the first account with that id |
| UserRoutes.Views | backend/api/routes/users.py:19 | one public view per account, in order, without the password hash |
| UserRoutes.ListUsers | backend/api/routes/users.py:11-20 | only superadmins and approvers may list (403); for them a limit above 1000 is the only failure; the answer holds the views of the accounts from position `skip` on, in order, and exactly `limit` of them or all that remain |
| UserRoutes.ListUsersIsComplete | backend/api/routes/users.py:11-20 | for an allowed caller, entry `k` of the page is the view of account `skip + k` whenever that account exists and `k` is below the limit |
| UserRoutes.GetUser | backend/api/routes/users.py:22-31 | 404 "User not found" exactly when no account has the id; otherwise the view of the first account with that id |
| UserRoutes.ApplyUserUpdate | backend/api/routes/users.py:46-57 | each given field (e-mail, name, designation, department, location, function, roles) overwrites the stored one and each absent one is kept; a non-empty password replaces the hash, an empty password leaves the hash and is stored as an empty "password" field; id, username, active flag and creation time are kept and the update time set |
| UserRoutes.UpdateStoresNoClearPassword | backend/api/routes/users.py:48-51 | an update never leaves a non-empty clear-text password in an account that had none |
| UserRoutes.UpdateWithoutPasswordKeepsSecret | backend/api/routes/users.py:46-51 | an update without a password keeps the stored hash and the stored password field |
| UserRoutes.UpdateUserRoute | backend/api/routes/users.py:33-65 | only the account itself or a superadmin may update (403 "Insufficient permissions"); a missing account fails with 500; otherwise the first account with the id is replaced by its update and its view returned |
| UserRoutes.UpdateKeepsNoClearPasswords | backend/api/routes/users.py:33-65 | a successful update keeps the store free of non-empty clear-text passwords |
| UserRoutes.SelfServiceRoleChange | backend/api/routes/users.py:41-55 | any user can give their own account the superadmin role through the update endpoint, since roles are not guarded |
| UserRoutes.DeleteUserRoute | backend/api/routes/users.py:67-79 | only superadmins may delete (403); for them 404 exactly when no account has the id; success removes exactly the first such account |
| UserRoutes.DeleteRemovesTheUser | backend/api/routes/users.py:67-79 | with unique ids, a deleted account can no longer be looked up |
| UserRoutes.DeleteKeepsOtherUsers | backend/api/routes/users.py:67-79 | with unique ids, deleting one account leaves the lookup of every other id unchanged |
| UserRoutes.SearchUsers | backend/api/routes/users.py:81-101 | a query shorter than 2 characters or a limit above 100 is a validation error; otherwise at most `limit` views, each of a stored account whose name, e-mail or username contains the query regardless of case, and when fewer than `limit` come back, every matching account is among them |
| VendorService.CreateVendor | backend/services/vendor_service.py:12-38 | creation is refused with "Vendor with this name already exists" exactly when the name is taken; otherwise an active vendor with the given fields and creation time is appended and nothing else changes |
| VendorService.CreateKeepsNamesUnique | backend/services/vendor_service.py:16-19 | creation keeps vendor names unique |
| VendorService.GetVendorById | backend/services/vendor_service.py:41-45 | the lookup finds a vendor exactly when one has the id, and returns a stored vendor with that id |
| VendorService.Matching | backend/services/vendor_service.py:52-55 | the stored vendors with the status when a non-empty one is given (all vendors otherwise), each as often as stored |
| VendorService.GetAllVendors | backend/services/vendor_service.py:48-57 | stored vendors, all with the requested status when a non-empty one is given, in ascending name order; as many as the matches left after `skip`, at most `limit` |
| VendorService.ListingIsComplete | backend/services/vendor_service.py:48-57 | for any status and any limit not below the number of matches, the listing holds every matching vendor exactly as often as the store and no other |
| VendorService.DefaultListingIsEveryVendor | backend/services/vendor_service.py:48-57 | with no status and at most 100 vendors, the default listing is every vendor, as often as stored |
| VendorService.ApplyUpdate | backend/services/vendor_service.py:64-65 | each of name, category, contact person, e-mail, phone, address and status is overwritten exactly when given and kept otherwise; the id and creation time are kept and the update time is set |
| VendorService.EmptyUpdateOnlyTouchesTime | backend/services/vendor_service.py:64-65 | an update with no fields changes only the update time |
| VendorService.UpdateIdempotent | backend/services/vendor_service.py:64-70 | applying the same update twice is the same as applying it once |
| VendorService.UpdateNeverClears | backend/services/vendor_service.py:64 | an update cannot clear category, contact person, e-mail, phone or address once it has a value, because null fields are dropped |
| VendorService.UpdateVendor | backend/services/vendor_service.py:60-74 | an unknown id changes nothing and yields no vendor; otherwise the first vendor with the id is replaced by its update, which the re-read returns |
| VendorService.DeleteVendor | backend/services/vendor_service.py:77-83 | reports deletion exactly when some vendor has the id, and removes exactly the first such vendor |
| VendorService.DeleteRemovesTheVendor | backend/services/vendor_service.py:77-83 | with unique ids, a deleted vendor can no longer be found |
| VendorService.DeleteKeepsOtherVendors | backend/services/vendor_service.py:77-83 | with unique ids, deleting one vendor leaves the lookup of every other id unchanged |
| VendorService.SearchVendors | backend/services/vendor_service.py:86-98 | at most `limit` stored vendors, each active with a name containing the term regardless of case |
| VendorService.SearchIsComplete | backend/services/vendor_service.py:86-98 | when all matches fit in the limit, every active vendor whose name contains the term is found |
| VendorRoutes.CreateVendorRoute | backend/api/routes/vendors.py:9-19 | only superadmins and coordinators may create (403); for them an e-mail that fails validation is 422 and a taken name 400 with the service message; success exactly when the caller may create, the e-mail is absent or valid and the name is free |
| VendorRoutes.ListVendorsRoute | backend/api/routes/vendors.py:21-30 | any signed-in user may list; a limit above 1000 is a validation error; otherwise the service listing |
| VendorRoutes.SearchVendorsRoute | backend/api/routes/vendors.py:32-40 | a query shorter than 2 characters or a limit above 100 is a validation error; otherwise exactly the service search: at most `limit` active vendors whose names contain the query |
| VendorRoutes.GetVendorRoute | backend/api/routes/vendors.py:42-51 | 404 "Vendor not found" exactly when no vendor has the id; otherwise a stored vendor with that id |
| VendorRoutes.UpdateVendorRoute | backend/api/routes/vendors.py:53-63 | only superadmins and coordinators may update (403); for them an e-mail that fails validation is 422, and otherwise 404 exactly when no vendor has the id; success stores and returns the first vendor with that id with the update applied, and leaves users and NFAs alone |
| VendorRoutes.DeleteVendorRoute | backend/api/routes/vendors.py:65-74 | only superadmins may delete; for them 404 exactly when no vendor has the id; success is the store after the service deletion, one vendor shorter, users untouched |
| VendorRoutes.CoordinatorsCannotDelete | backend/api/routes/vendors.py:57-68 | a coordinator, who may create and update vendors, is refused deletion with 403 |
| Grouping.Keys | backend/api/routes/reports.py:77 | the group keys are distinct, every element's key is among them and every key comes from some element |
| Grouping.CountKey | backend/api/routes/reports.py:77 | a key's count is at most the number of elements, and zero exactly when no element carries the key |
| Grouping.GroupsPartition | backend/api/routes/reports.py:75-79 | the group counts over all keys add up to the number of elements grouped |
| Reports.RequestorCounts | backend/api/routes/reports.py:27-42 | the total counts the caller's own NFAs, pending those of them in section1_pending or section2_pending, approved those finally approved; the two never exceed the total |
| Reports.GetDashboard | backend/api/routes/reports.py:10-62 | the dashboard always carries the username and roles; the requestor block appears exactly for requestors and superadmins, the approver block exactly for approvers and superadmins (with the approver statistics), the admin block exactly for superadmins (with the three collection sizes) |
| Reports.CoordinatorDashboardIsEmpty | backend/api/routes/reports.py:27-51 | a user who is only a coordinator gets a dashboard with no statistics block at all |
| Reports.AnalyticsDays | backend/api/routes/reports.py:66 | the period defaults to 30 days and must lie between 1 and 365, otherwise the request is a validation error |
| Reports.Window | backend/api/routes/reports.py:72-76 | the analysed NFAs are exactly the stored ones created no earlier than the start of the period |
| Reports.WindowCounts | backend/api/routes/reports.py:72-76 | the window holds each NFA created in the period as often as the store does, and no older one |
| Reports.StatusBreakdown | backend/api/routes/reports.py:72-79 | one entry per distinct status in the window, each with the positive number of NFAs in that status, and every status of the window has an entry |
| Reports.BreakdownCoversWindow | backend/api/routes/reports.py:75-79 | the status counts add up to the number of NFAs in the window |
| Reports.DepartmentBreakdown | backend/api/routes/reports.py:81-86 | at most 100 entries, one per distinct section 1 department of the window (a missing one counts as null), each with the positive number of NFAs naming it |
| Reports.DepartmentsCoverWindow | backend/api/routes/reports.py:81-86 | while the window names at most 100 departments, every department of the window is listed and the counts add up to the number of NFAs in the window |
| Reports.GetNfaAnalytics | backend/api/routes/reports.py:64-117 | only superadmins get analytics (403); for them it succeeds exactly when the period is valid, and reports that period and the status and department breakdowns of its window |
| Reports.FirstName | backend/api/routes/reports.py:131 | the name reported for an approver is the name recorded on one of their steps |
| Reports.RowFor | backend/api/routes/reports.py:129-142 | an approver's row counts all of their steps, and those approved, rejected and pending |
| Reports.RowMatchesStatistics | backend/api/routes/reports.py:129-142 | an approver's performance row agrees with that approver's own statistics in all four counts |
| Reports.CountStepsIsGroupCount | backend/api/routes/reports.py:130-132 | the row total is the same count the approver statistics use |
| Reports.AllRows | backend/api/routes/reports.py:127-143 | one row per distinct approver, each that approver's row |
| Reports.RowsCoverAllSteps | backend/api/routes/reports.py:127-143 | the row totals add up to the number of steps |
| Reports.TopApprovers | backend/api/routes/reports.py:144-148 | the first 20 of the rows sorted by decreasing total, each the row of an approver who has steps |
| Reports.TopApproversAreBusiest | backend/api/routes/reports.py:144-148 | an approver left out of the table holds no more steps than any approver listed |
| Reports.EveryApproverListed | backend/api/routes/reports.py:144-148 | when there are at most 20 approvers, every approver with a step is in the list |
| Reports.GetApprovalPerformance | backend/api/routes/reports.py:119-149 | only superadmins (403 otherwise); exactly the top-20 table: rows by decreasing total, each the correct row of an approver who has steps |
| Reports.VendorName | backend/api/routes/reports.py:169-171 | the name of the first vendor with the id, or "Unknown" when there is none |
| Reports.AllUsages | backend/api/routes/reports.py:159-161 | one usage per distinct vendor chosen in some section 2, each with the number of NFAs choosing it and the looked-up name, and none missing |
| Reports.TopVendors | backend/api/routes/reports.py:162-166 | the first 10 usages sorted by decreasing count |
| Reports.TopVendorsAreMostUsed | backend/api/routes/reports.py:162-166 | a vendor left out of the list is chosen by no more NFAs than any vendor listed |
| Reports.EveryUsedVendorListed | backend/api/routes/reports.py:159-166 | with at most ten vendors in use, every vendor some NFA chooses is listed |
| Reports.GetVendorAnalytics | backend/api/routes/reports.py:151-173 | only superadmins and coordinators get vendor analytics; the answer is exactly the top-10 list: usages by decreasing count, each with its correct count and name |
| Admin.Recent | backend/api/routes/admin.py:31 | the recent-activity projection keeps the NFA's id, status and creation time |
| Admin.Newest | backend/api/routes/admin.py:29-32 | all NFAs reordered newest first, none lost or added |
| Admin.RecentNfas | backend/api/routes/admin.py:29-32 | the ten newest NFAs (all of them when there are fewer), newest first |
| Admin.RecentAreNewest | backend/api/routes/admin.py:29-32 | an NFA left out of the recent list is no newer than any NFA in it |
| Admin.GetAdminStats | backend/api/routes/admin.py:9-46 | only superadmins (403 otherwise); the four collection totals, the pending-step count, the count of NFAs pending in either section (each no larger than its total) and the recent list |
| Admin.ClearDatabase | backend/api/routes/admin.py:48-71 | only superadmins; NFAs, steps and attachments are emptied, users and vendors kept, and the three deleted counts are the former sizes |
| Admin.ClearTwice | backend/api/routes/admin.py:48-71 | clearing a cleared store changes nothing and reports zero deletions |
| Admin.SystemHealth | backend/api/routes/admin.py:73-99 | only superadmins; the database is healthy exactly when its ping raises nothing, the queue exactly when at least one worker answers, and overall is "healthy" exactly when both are, "degraded" otherwise |
| Admin.HealthyIffProbesPass | backend/api/routes/admin.py:95-99 | the system reports healthy exactly when the database ping succeeds and some worker answers |
| Notifications.NumberLabelAsWritten | backend/api/routes/notifications.py:30 | the NFA label as written: a stored null number prints as "None", and the first 8 characters of the id are used only when the number key is absent altogether |
| Notifications.NumberLabel | backend/api/routes/notifications.py:30 | the intended label: the assigned number when there is one, otherwise the first 8 characters of the NFA id |
| Notifications.NullNumberPrintsNone | backend/api/routes/notifications.py:68-74 | the as-written and intended labels differ exactly for a stored null number (for ids whose prefix is not itself "None"), and the intended label treats null like an absent key |
| Notifications.CreatedNfaLabelledNoneAsWritten | backend/services/nfa_service.py:21 | every NFA created by the application, whose number is stored as null, is labelled "None" by the as-written notifications |
| Notifications.CreatedNfaLabelledById | backend/services/nfa_service.py:21 | with the intended label, a newly created NFA is labelled by the first 8 characters of its id |
| Notifications.ElapsedSince | backend/api/routes/notifications.py:77-90 | a relative time is "just now" exactly when the timedelta has no positive days and at most 60 seconds, and any other answer counts at least one unit |
| Notifications.ElapsedCountsWholeUnits | backend/api/routes/notifications.py:81-88 | a day or more is counted in whole days; otherwise the count of hours or minutes is the number of whole units in the seconds part of the timedelta |
| Notifications.TimeText | backend/api/routes/notifications.py:81-90 | "Just now", or "<count> <unit> ago" with the unit pluralised exactly when the count exceeds one |
| Notifications.TimeTextCountReadsBack | backend/api/routes/notifications.py:82-88 | the number at the start of a relative time text reads back as the count it was made from |
| Notifications.BoundaryCases | backend/api/routes/notifications.py:79-90 | exactly one hour shows "60 minutes ago" and exactly one minute "Just now" (the comparisons are strict), and a creation time 10 seconds in the future shows "23 hours ago" because the negative timedelta has days -1 |
| Notifications.Live | backend/api/routes/notifications.py:26-27 | only steps whose NFA still exists are kept, and all of them are |
| Notifications.UnreadFor | backend/api/routes/notifications.py:28-34 | an unread notice names the step's NFA, is titled "Approval Required", timed "Just now" and of type "approval", and its message says the NFA, by its label, needs approval (the label of the second finding) |
| Notifications.FirstPending | backend/api/routes/notifications.py:18-21 | at most 10 stored pending steps of the user; when fewer than 10 are returned, every pending step of the user is among them |
| Notifications.GetUnread | backend/api/routes/notifications.py:9-36 | at most 10 notices, each of kind "approval", titled "Approval Required", timed "Just now" and naming an NFA that exists |
| Notifications.UnreadComesFromPending | backend/api/routes/notifications.py:18-34 | every unread notice is the notice of a stored pending step of the user whose NFA exists, worded for that NFA |
| Notifications.UnreadIsComplete | backend/api/routes/notifications.py:18-34 | when the user has fewer than 10 pending steps, every one whose NFA exists yields its unread notice, worded for its NFA |
| Notifications.Title | backend/api/routes/notifications.py:66-74 | "Approval Required" exactly for pending steps, "Approval Completed" exactly for approved ones, "Approval Action" exactly for the rest |
| Notifications.Message | backend/api/routes/notifications.py:66-74 | a pending step's message opens "NFA <label>", a decided step's message ends with the label |
| Notifications.NoticeFor | backend/api/routes/notifications.py:66-100 | a notice carries the step's id and NFA, type "approval", the title and message of its status with the NFA's label (the label of the second finding), the relative time since the step was created, and is read exactly when the step is no longer pending |
| Notifications.UnreadMatchesNotice | backend/api/routes/notifications.py:28-34 | a pending step gets the same title and message on the unread list and the full list, and is shown unread |
| Notifications.RecentSteps | backend/api/routes/notifications.py:57-59 | at most `limit` stored steps of the user, newest first |
| Notifications.RecentAreNewest | backend/api/routes/notifications.py:57-59 | a step of the user left out of the list is no newer than any step kept |
| Notifications.GetAll | backend/api/routes/notifications.py:47-102 | at most `limit` notices, each read exactly when it is not an "Approval Required" notice |
| Notifications.GetAllIsComplete | backend/api/routes/notifications.py:57-100 | when the user has at most `limit` steps, every one whose NFA exists has its notice in the list |
| Notifications.EntriesComeFromOwnSteps | backend/api/routes/notifications.py:57-100 | every notice in the full list is the notice of one of the user's own stored steps whose NFA exists |
| Notifications.LiveRecent | backend/api/routes/notifications.py:57-65 | the steps that yield notices are stored steps of the user |
| Notifications.MarkRead | backend/api/routes/notifications.py:38-45 | marking a notification read stores nothing and always answers "success" |
| Websocket.Connect | backend/api/routes/websocket.py:15-24 | the socket is appended to the active list, and to its user's list only when a non-empty user id is given; every other user's list is kept; no user is left with an empty list |
| Websocket.DropSocket | backend/api/routes/websocket.py:30-34 | the first occurrence of the socket leaves the user's list, and the user's entry disappears exactly when the list becomes empty; other users are untouched |
| Websocket.Disconnect | backend/api/routes/websocket.py:26-36 | the socket leaves the active list once (nothing happens when absent) and, for a named user, that user's list once; other users keep their lists and no new user appears |
| Websocket.ConnectThenDisconnect | backend/api/routes/websocket.py:15-36 | disconnecting a freshly connected socket restores the registry exactly |
| Websocket.RemoveEach | backend/api/routes/websocket.py:58-60 | removing the collected sockets one by one never lengthens the list |
| Websocket.RemoveFailed | backend/api/routes/websocket.py:49-60 | removing, one by one, the sockets whose send failed leaves exactly the sockets whose send succeeded, in order |
| Websocket.Broadcast | backend/api/routes/websocket.py:47-60 | a send is attempted to every active socket in order, the failed ones leave the active list, and the per-user lists are left as they were |
| Websocket.BroadcastKeepsExactlyReachable | backend/api/routes/websocket.py:47-60 | after a broadcast an active socket is still active exactly when its send succeeded |
| Websocket.BroadcastRoute | backend/api/routes/websocket.py:115-119 | the broadcast endpoint answers "broadcasted" with the number of active sockets left, which is the number before minus the failed ones |
| Websocket.SurvivorsCount | backend/api/routes/websocket.py:58-60 | the surviving and the failed sockets together are all the sockets |
| Websocket.Answer | backend/api/routes/websocket.py:98-106 | a message of type "ping" is answered with a pong and any other message is echoed back unchanged |
| Websocket.PersonalRecipients | backend/api/routes/websocket.py:38-41 | a socket is a recipient exactly when it is registered under the user, in connection order; a user without an entry gets nothing, one with an entry at least one socket |
| Websocket.OtherUsersLeaveRecipients | backend/api/routes/websocket.py:15-41 | connecting or disconnecting another user's socket does not change a user's recipients |
| Websocket.DisconnectStopsDelivery | backend/api/routes/websocket.py:26-41 | a socket registered once under a user is no longer a recipient after that user's disconnect |
| Websocket.Receive | backend/api/routes/websocket.py:94-113 | an object is answered and the loop goes on; a close, an unreadable message or a reply that cannot be sent ends the loop through disconnect, with no reply to anything but an object |
| Websocket.UnreadableMessageDisconnects | backend/api/routes/websocket.py:94-113 | after an unreadable message, a socket registered once is neither open nor a recipient of its user |
| Websocket.ConnectRegistersNamedUser | backend/api/routes/websocket.py:19-22 | after connecting, the socket receives the user's personal messages exactly when the user id is non-empty (or it already did) |
| AdminUsers.ResetForm | frontend/src/pages/admin/AdminUsers.js:151-164 | resetting empties the form, including password and roles, and deselects the user |
| AdminUsers.OpenEdit | frontend/src/pages/admin/AdminUsers.js:130-144 | opening the editor selects the user and fills the form from the account, with missing optional fields as "" and an empty password |
| AdminUsers.ResetAfterEditIsInitial | frontend/src/pages/admin/AdminUsers.js:63-73 | cancelling an edit returns the page to its initial form state |
| AdminUsers.ToggleRole | frontend/src/pages/admin/AdminUsers.js:166-173 | toggling a role flips its membership, appends it at the end when added, and leaves every other role as it was |
| AdminUsers.ToggleTwiceRestores | frontend/src/pages/admin/AdminUsers.js:166-173 | toggling the same role twice restores the same set of roles |
| AdminUsers.FilterUsers | frontend/src/pages/admin/AdminUsers.js:175-179 | the page shows exactly the loaded accounts whose name, e-mail or username contains the search text regardless of case, and all of them for an empty search |
| AdminUsers.EmptySearchKeepsAll | frontend/src/pages/admin/AdminUsers.js:175-179 | an empty search keeps every account, in order |
| AdminUsers.SameFilterAsServer | frontend/src/pages/admin/AdminUsers.js:175-179 | the page's filter accepts an account exactly when the server's user search does |
| AdminUsers.BadgeColour | frontend/src/pages/admin/AdminUsers.js:181-190 | unknown roles get the requestor colour, superadmin its purple colour, and no other known role shares the requestor colour |
| AdminUsers.BadgeColoursDistinct | frontend/src/pages/admin/AdminUsers.js:181-190 | two roles share a badge colour exactly when they are the same role |
| AdminUsers.UpdateBody | frontend/src/pages/admin/AdminUsers.js:102-108 | the update request omits the password exactly when the field is empty and otherwise sends the form fields as they are |
| AdminUsers.PageNeverStoresEmptyPassword | frontend/src/pages/admin/AdminUsers.js:102-108 | an update sent from the page never stores a clear-text password field, keeps the hash when the password is left empty and replaces it otherwise |
| AdminUsers.UntouchedEditKeepsAccount | frontend/src/pages/admin/AdminUsers.js:130-144 | opening an account and saving it unchanged keeps its identity, roles and password |
| AdminUsers.CreateBody | frontend/src/pages/admin/AdminUsers.js:90-92 | the create request carries the form's username, e-mail, password, roles and designation |
| AdminUsers.CreateFromPageAsWritten | frontend/src/pages/admin/AdminUsers.js:90-100 | the create button as written posts to the user collection path, where only listing is routed, so every attempt fails with 405 |
| AdminUsers.CreateNeverSucceedsAsWritten | backend/api/routes/users.py:11-16 | even for a free username and e-mail, which registration would accept, the page's create request fails |
| AdminUsers.CreateFromPage | backend/api/routes/auth.py:9-18 | the corrected create posts to registration: it succeeds exactly when the username and e-mail are free (400 otherwise) and adds one account with the chosen roles |
| AdminUsers.CreatedAccountCanSignIn | backend/services/auth_service.py:57-74 | an account created through the corrected page can sign in with the password typed into the form |
| AdminVendors.ResetForm | frontend/src/pages/admin/AdminVendors.js:143-153 | resetting empties the form and deselects the vendor |
| AdminVendors.OpenEdit | frontend/src/pages/admin/AdminVendors.js:125-136 | opening the editor selects the vendor and fills the form from it, with missing optional fields as "" |
| AdminVendors.ResetAfterEditIsInitial | frontend/src/pages/admin/AdminVendors.js:65-72 | cancelling an edit returns the page to its initial form state |
| AdminVendors.FilterVendors | frontend/src/pages/admin/AdminVendors.js:155-164 | the page shows exactly the loaded vendors whose name, non-empty category or non-empty contact person contains the search text regardless of case and whose status matches the filter; all of them with no search and "all" |
| AdminVendors.NoFilterKeepsAll | frontend/src/pages/admin/AdminVendors.js:155-164 | with an empty search and "all" statuses, every vendor is shown in order |
| AdminVendors.SameStatusFilterAsServer | frontend/src/pages/admin/AdminVendors.js:161 | the page's status filter agrees with the server's status filter for every vendor |
| AdminVendors.PageSearchCoversServerSearch | frontend/src/pages/admin/AdminVendors.js:155-164 | every vendor the server search returns for a term is also shown by the page for that term with the "active" filter |
| AdminVendors.EmptyStateTitle | frontend/src/pages/admin/AdminVendors.js:228-247 | "No vendors found" exactly when a search or status filter is set, "No vendors added yet" exactly when neither is |
| AdminVendors.EmptyWithoutFilterMeansNoVendors | frontend/src/pages/admin/AdminVendors.js:228-247 | an empty grid with no search or filter means no vendor exists, and then the page offers the add button under "No vendors added yet" |
| AdminVendors.CreateBodyAsWritten | frontend/src/pages/admin/AdminVendors.js:89-91 | as written, the create request sends every form field, empty ones as "" |
| AdminVendors.UpdateBodyAsWritten | frontend/src/pages/admin/AdminVendors.js:101-103 | as written, the update request sends every form field, empty ones as "", and never a status |
| AdminVendors.EmailField | frontend/src/pages/admin/AdminVendors.js:65-72 | the e-mail box is sent as no e-mail exactly when it is blank, and otherwise as typed |
| AdminVendors.CreateBody | frontend/src/pages/admin/AdminVendors.js:89-91 | the corrected create request of the fifth finding: every form field, except that a blank e-mail is left out, so the e-mail passes validation exactly when it is blank or holds an `@` |
| AdminVendors.UpdateBody | frontend/src/pages/admin/AdminVendors.js:101-103 | the corrected update request: every form field and never a status, with a blank e-mail left out, so the e-mail passes validation exactly when it is blank or holds an `@` |
| AdminVendors.UntouchedEditKeepsVendor | frontend/src/pages/admin/AdminVendors.js:101-136 | with the corrected body, saving an unchanged edit of a stored vendor whose e-mail is absent or valid succeeds and keeps the vendor's id, name, status and e-mail, turning a missing optional text field into "" |
| AdminVendors.CreateWithoutEmailRefusedAsWritten | frontend/src/pages/admin/AdminVendors.js:65-91 | as written, creating a vendor with the e-mail box left blank is answered 422 |
| AdminVendors.UntouchedEditRefusedAsWritten | frontend/src/pages/admin/AdminVendors.js:101-136 | as written, saving an unchanged edit of a vendor without an e-mail is answered 422 |
| AdminVendors.BlankEmailCreatesVendor | frontend/src/pages/admin/AdminVendors.js:89-91 | with the corrected body, an editor creates a vendor with a blank e-mail box whenever the name is free, and it is stored without an e-mail |
| AdminVendors.CreatedVendorIsFound | frontend/src/pages/admin/AdminVendors.js:89-164 | a vendor the create endpoint accepted from the corrected page is shown when the page searches for its name among active vendors |
| MyNfas.DisplayName | frontend/src/pages/MyNFAs.js:166 | a card is titled by the NFA number when it is non-empty, otherwise "NFA-" followed by the first 8 characters of the id |
| MyNfas.UnnumberedTitlesFollowIds | frontend/src/pages/MyNFAs.js:166 | two NFAs without numbers get the same title exactly when their ids share the first 8 characters |
| MyNfas.FilterNfas | frontend/src/pages/MyNFAs.js:49-58 | the page shows exactly the loaded NFAs whose number, subject or id contains the search text regardless of case and whose status matches the choice |
| MyNfas.EmptySearchMatches | frontend/src/pages/MyNFAs.js:49-53 | with an empty search every NFA with a non-empty id matches |
| MyNfas.SomeStatusesNotOffered | frontend/src/pages/MyNFAs.js:115-121 | a sent-back or section-2-approved NFA is shown only under "All Status", since no other choice offered matches it |
| MyNfas.ResultsCount | frontend/src/pages/MyNFAs.js:211-214 | the "Showing x of y" line appears exactly when something is shown, with x the number of NFAs passing the search and filter, and y the number loaded |
| MyNfas.EmptyStateTitle | frontend/src/pages/MyNFAs.js:129-148 | "No NFAs found" exactly when a search or status filter is set, "No NFAs created yet" exactly when neither is |
| MyNfas.EmptyWithoutFilterMeansNoNfas | frontend/src/pages/MyNFAs.js:129-148 | with no search and "All Status", the list is empty exactly when the user has no NFAs |
| Header.FirstLetters | frontend/src/components/layout/Header.js:51-52 | each word contributes at most one letter |
| Header.Initials | frontend/src/components/layout/Header.js:47-55 | an empty name shows "U"; any name shows at most two characters (which ones is stated by the three lemmas below) |
| Header.TwoWordInitials | frontend/src/components/layout/Header.js:47-55 | a two-word name shows the upper-cased first letter of each word |
| Header.ThirdWordIgnored | frontend/src/components/layout/Header.js:54 | a third word does not change the initials |
| Header.BlankNameHasNoInitials | frontend/src/components/layout/Header.js:47-55 | a name of one space is not empty, so it does not fall back to "U", and it shows no initials at all |
| Header.Trail | frontend/src/components/layout/Header.js:67-86 | the breadcrumb trail alternates crumbs and slashes, crumb i at position 2i, and only the last crumb is marked current |
| Header.TrailShape | frontend/src/components/layout/Header.js:69-85 | a trail of n crumbs has n-1 slashes and exactly one current crumb |
| Header.HeaderLeft | frontend/src/components/layout/Header.js:66-89 | the title is shown exactly when there are no breadcrumbs, and otherwise the trail |
| Header.UnreadBadge | frontend/src/components/layout/Header.js:37-45 | the bell badge appears exactly when some unread notification was fetched, and shows how many |
| Header.BadgeAtMostTen | frontend/src/components/layout/Header.js:109-113 | the badge never shows more than 10, because the server sends at most 10 unread notifications |
| Sidebar.VisibleOf | frontend/src/components/layout/Sidebar.js:87-90 | exactly the entries the user may access are kept, and none when they may access none |
| Sidebar.Visible | frontend/src/components/layout/Sidebar.js:123-124 | the menu shows exactly the entries one of whose roles the user holds |
| Sidebar.AdminPartOnlyForSuperadmin | frontend/src/components/layout/Sidebar.js:63-77 | the divider and the admin entry are shown exactly to superadmins |
| Sidebar.EveryRoleSeesDashboard | frontend/src/components/layout/Sidebar.js:26-38 | any user holding any role sees the dashboard and "My NFAs" |
| Sidebar.NoRoleNoMenu | frontend/src/components/layout/Sidebar.js:87-90 | a user without roles sees no menu entry |
| Sidebar.OnlyAdminOpensSubMenu | frontend/src/components/layout/Sidebar.js:153 | sub-items are shown only for the admin entry, when the sidebar is expanded and the path starts with "/admin" |
| Sidebar.AtMostOneActive | frontend/src/components/layout/Sidebar.js:80-85 | at most one menu entry is highlighted for any path |
| Sidebar.PathsUnnested | frontend/src/components/layout/Sidebar.js:26-78 | no menu path other than "/" is a prefix of another, which is why highlighting by prefix is unambiguous |
| Sidebar.PrefixesNest | frontend/src/components/layout/Sidebar.js:84 | two prefixes of the same path nest, the shorter in the longer |
| StatusBadge.LookFor | frontend/src/components/common/StatusBadge.js:4-40 | a known status string gets its own table entry and any other string the draft entry |
| StatusBadge.EveryStatusHasEntry | frontend/src/components/common/StatusBadge.js:4-37 | every status the backend stores has its own entry |
| StatusBadge.CaptionReadsBack | frontend/src/components/common/StatusBadge.js:4-37 | each caption names its status unambiguously: reading the caption back gives the status |
| StatusBadge.CaptionsDistinct | frontend/src/components/common/StatusBadge.js:4-37 | two statuses share a caption exactly when they are the same status |
| StatusBadge.UnknownLooksLikeDraft | frontend/src/components/common/StatusBadge.js:40 | a string that is no status's value looks exactly like a draft |
| StatusBadge.Render | frontend/src/components/common/StatusBadge.js:39-53 | the pill shows the caption, carries the base classes and the status colour first, and one more class exactly when a non-empty extra class is given |

## Left out

- Database access (Motor calls, connections, index creation in backend/core/database.py): the store is an in-memory value. The unique index on `username` is enforced by the registration check. The sparse unique index on `nfa_number` appears only in the first finding below.
- PDF generation (backend/tasks/pdf_tasks.py) and e-mail and queue dispatch (backend/tasks/email_tasks.py, backend/tasks/celery_app.py): these are foreign libraries and I/O. Each `.delay(...)` call is an `Effect` value.
- Password hashing and verification, and JWT creation and decoding: `core.security` is not part of this model. They are parameters. `require_role` is assumed to answer 403 to a caller without the role; its detail text is unknown.
- The attachment upload and listing endpoints (backend/api/routes/nfa.py:190-241): they do filesystem I/O.
- WebSocket transport (accept, send, receive, JSON decoding, token decoding, close code 1008): only the registry bookkeeping, the reply rule and the outcome of each received message are modelled. Whether the text decodes to an object is an input of `Websocket.Receive`. A failed personal send is only logged by the code and changes nothing, so it is not modelled.
- Wall-clock time, UUID generation and ISO timestamps: they are parameters. Times are whole seconds, which order the same way as the ISO strings do.
- Float amounts, the average approval time and their formatting: there are no floats in the model.
- Reports.DepartmentBreakdown: groups in order of first appearance; the database returns `$group` results in no promised order. The status breakdown is not cut at 100 groups, since there are only eight statuses.
- Regular-expression search (`$regex` with `$options: "i"`): the search term is treated as a literal substring. Case folding covers the ASCII letters only.
- JavaScript prototype keys (for example `"constructor"`) in the frontend's lookup tables: a status or role string is treated as plain data.
- A `limit` of zero or less: the model takes limits as natural numbers. Request validation refuses the out-of-range values of the search endpoints.
- Ties among equal sort keys: the store promises no order for them. The model's insertion sort puts them in reverse store order, and no contract depends on the order of ties.
- The order of `$group` results: the model lists groups in order of first appearance, and every contract about them is order-independent.
- NfaService.YearSerials: only a serial made of decimal digits converts. Any other serial (a sign, spaces, letters) is an error result, where `$toInt` would accept a signed number and fail the aggregation on the rest. Numbers the application writes are always digits.
- AuthService.AuthenticationOutcome: a stored explicit `is_active: null` is refused by the code as deactivated, but `Option` reads `None` as a missing key, which counts as active. No code path of the application stores a null flag.
- VendorRoutes.EmailAccepted: of the EmailStr checks only the `@` is modelled; other malformed addresses are accepted, and user e-mail addresses are not validated at all.
- Logging, application wiring and configuration (backend/server.py, backend/core/config.py) and the seed scripts (backend/seed_data.py, backend/seed_data_complete.py).
- Presentation-only frontend code (Dashboard.js with its fixed zeros, Login.js, Register.js, App.js routing, MainLayout.js, StatCard.js, and the placeholder pages CreateNFA.js and NFADetails.js): these pages hold no logic beyond markup.
- The `created_at` default of the notification schema and the `mark-read` persistence: the endpoint stores nothing.
- ApprovalSteps.NewStep: an approver entry key that is present but holds null is not represented. `ApproverEntry` has one `None` per field, read as "key absent", so a missing `sequence` or `designation` falls back to 0 or "". In the code an explicit null is stored as null, and a null `user_id` or `name` is stored rather than raising the KeyError that a missing key raises.
- CreateNfaRoute: composes the corrected creation of the first finding, so it does not show the as-written 500 on a second unnumbered NFA. `NfaRoutes.CreateNfaRouteAsWritten` and `SecondCreateRouteFailsAsWritten` model the endpoint as written.
- Notifications.UnreadFor: the message uses the corrected label of the second finding. The two labels differ only on an NFA whose stored number is null, where the code as written prints "NFA None"; `NullNumberPrintsNone` states the difference. The corrected creation stores no null number.
- Notifications.NoticeFor: the message uses the corrected label of the second finding, for the same reason as `UnreadFor`.

## Findings

| source | as written | input that shows it | evidently intended | confidence | as-written member | corrected member |
|---|---|---|---|---|---|---|
| backend/services/nfa_service.py:21 | a new NFA is stored with `nfa_number: None`, and backend/core/database.py:45 declares a unique sparse index on `nfa_number`; a sparse index still indexes an explicit null | creating a second draft NFA while another draft has not been numbered | drafts carry no number until finalisation, so any number of them can exist | high; not executed | NfaService.SecondCreateFailsAsWritten | NfaService.CreateKeepsNumberIndex |
| backend/api/routes/notifications.py:30 | `nfa.get('nfa_number', nfa_id[:8])` falls back only when the key is absent, but every NFA the application creates stores the key with a null value | any pending step of a draft or in-approval NFA: the message reads "… NFA None" | label the NFA by the first 8 characters of its id until it has a number | high; not executed | Notifications.CreatedNfaLabelledNoneAsWritten | Notifications.CreatedNfaLabelledById |
| frontend/src/pages/admin/AdminUsers.js:92 | the create-user dialog posts to `/users`, but backend/api/routes/users.py declares no POST route | any account created from the admin page: the request is redirected to `/users/` and answered 405 | create the account through the registration endpoint, after which it can sign in | medium; not executed | AdminUsers.CreateNeverSucceedsAsWritten | AdminUsers.CreatedAccountCanSignIn |
| backend/api/routes/approvals.py:9 | `GET /pending` declares `response_model=List[ApprovalWorkflowResponse]`; that schema (backend/models/schemas.py:179-193) has no `nfa` field and ignores extra keys, so the NFA the service attaches to each entry is dropped from the answer | any pending approval: frontend/src/pages/Approvals.js:109 falls back to `{}`, so the card reads "NFA #undefined", shows no requestor and links to `/nfa/undefined` | each card shows and links to the NFA the step belongs to | high; not executed | ApprovalsPage.PendingCardsBlankAsWritten | ApprovalsPage.PendingCardsShowTheirNfa |
| frontend/src/pages/admin/AdminVendors.js:89-91 | the form starts with `email: ''` and is posted whole, and `Optional[EmailStr]` (backend/models/schemas.py:200) refuses the empty text | creating a vendor with the e-mail box left blank: 422 | a vendor without an e-mail can be created by leaving the box blank | high; not executed | AdminVendors.CreateWithoutEmailRefusedAsWritten | AdminVendors.BlankEmailCreatesVendor |
| frontend/src/pages/admin/AdminVendors.js:101-103 | the edit dialog fills a missing e-mail as `''` (line 131) and puts the whole form, and `Optional[EmailStr]` (backend/models/schemas.py:208) refuses the empty text | opening a vendor without an e-mail and saving it unchanged: 422 | saving an unchanged vendor succeeds and keeps it as it was | high; not executed | AdminVendors.UntouchedEditRefusedAsWritten | AdminVendors.UntouchedEditKeepsVendor |

=== FILE: admin.dfy ===
/** The superadmin console (backend/api/routes/admin.py): collection totals, what is waiting for
    approval, the newest NFAs, clearing the workflow data, and the health summary. */
module Admin {
  import opened Wrappers
  import opened Schemas
  import opened Records
  import opened Http
  import Seqs
  import Sorting
  import NfaService

  /** The projection of an NFA that the activity list shows. */
  datatype RecentNfa = RecentNfa(id: string, nfaNumber: NfaNumber, status: NfaStatus, requestorName: string, createdAt: Time)

  function Recent(n: Nfa): (r: RecentNfa)
    ensures r.id == n.id && r.createdAt == n.createdAt && r.status == n.status
  {
    RecentNfa(n.id, n.nfaNumber, n.status, n.requestorName, n.createdAt)
  }

  datatype AdminStats = AdminStats(
    users: nat, nfas: nat, vendors: nat, approvals: nat,
    pendingApprovals: nat, pendingNfas: nat,
    recent: seq<RecentNfa>)

  predicate StepPending(s: Step) {
    s.status == Pending
  }

  /** An NFA waiting on either section's approvers. */
  predicate NfaPending(n: Nfa) {
    n.status == Section1Pending || n.status == Section2Pending
  }

  /** All NFAs, newest first. */
  function Newest(db: Db): (r: seq<Nfa>)
    ensures Sorting.SortedBy(r, NfaService.NewerOrSame)
    ensures |r| == |db.nfas| && multiset(r) == multiset(db.nfas)
  {
    Sorting.Sort(db.nfas, NfaService.NewerOrSame)
  }

  /** The ten newest NFAs. */
  function RecentNfas(db: Db): (r: seq<RecentNfa>)
    ensures |r| == Seqs.Min(10, |db.nfas|)
    ensures forall k :: 0 <= k < |r| ==> r[k] == Recent(Newest(db)[k])
    ensures forall j, k :: 0 <= j < k < |r| ==> r[j].createdAt >= r[k].createdAt
  {
    var top := Seqs.Take(Newest(db), 10);
    seq(|top|, k requires 0 <= k < |top| => Recent(top[k]))
  }

  /** No NFA left out of the activity list is newer than one on it. */
  lemma RecentAreNewest(db: Db, n: Nfa, k: nat)
    requires n in db.nfas
    requires k < |RecentNfas(db)|
    requires forall j :: 0 <= j < |RecentNfas(db)| ==> RecentNfas(db)[j] != Recent(n)
    ensures n.createdAt <= RecentNfas(db)[k].createdAt
  {
    var sorted := Newest(db);
    assert n in multiset(db.nfas);
    var i :| 0 <= i < |sorted| && sorted[i] == n;
    assert i >= |RecentNfas(db)|;
    assert NfaService.NewerOrSame(sorted[k], sorted[i]);
  }

  /** `GET /stats`: superadmins only. */
  function GetAdminStats(db: Db, u: CurrentUser): (r: Result<AdminStats, HttpError>)
    ensures r.Failure? <==> !HasRole(u, Superadmin)
    ensures r.Failure? ==> r.error.code == Forbidden
    ensures r.Success? ==>
      && r.value.users == |db.users| && r.value.nfas == |db.nfas|
      && r.value.vendors == |db.vendors| && r.value.approvals == |db.steps|
      && r.value.pendingApprovals == |Seqs.Filter(db.steps, StepPending)|
      && r.value.pendingNfas == |Seqs.Filter(db.nfas, NfaPending)|
      && r.value.recent == RecentNfas(db)
    ensures r.Success? ==> r.value.pendingApprovals <= r.value.approvals && r.value.pendingNfas <= r.value.nfas
  {
    match RequireRole(u, [Superadmin])
    case Some(e) => Failure(e)
    case None =>
      Success(AdminStats(|db.users|, |db.nfas|, |db.vendors|, |db.steps|,
                         |Seqs.Filter(db.steps, StepPending)|, |Seqs.Filter(db.nfas, NfaPending)|,
                         RecentNfas(db)))
  }

  datatype Cleared = Cleared(db: Db, nfas: nat, approvals: nat, attachments: nat)

  /** `POST /clear-database`: superadmins only; empties the NFAs, steps and attachments and
      reports how many of each went. Users and vendors stay. */
  function ClearDatabase(db: Db, u: CurrentUser): (r: Result<Cleared, HttpError>)
    ensures r.Failure? <==> !HasRole(u, Superadmin)
    ensures r.Success? ==>
      && r.value.db.nfas == [] && r.value.db.steps == [] && r.value.db.attachments == []
      && r.value.db.users == db.users && r.value.db.vendors == db.vendors
      && r.value.nfas == |db.nfas| && r.value.approvals == |db.steps| && r.value.attachments == |db.attachments|
  {
    match RequireRole(u, [Superadmin])
    case Some(e) => Failure(e)
    case None =>
      Success(Cleared(db.(nfas := [], steps := [], attachments := []), |db.nfas|, |db.steps|, |db.attachments|))
  }

  /** Clearing twice deletes nothing the second time and leaves the same store. */
  lemma ClearTwice(db: Db, u: CurrentUser)
    requires HasRole(u, Superadmin)
    ensures var once := ClearDatabase(db, u).value;
      var twice := ClearDatabase(once.db, u).value;
      twice.db == once.db && twice.nfas == 0 && twice.approvals == 0 && twice.attachments == 0
  {
  }

  /** What the connectivity probes reported: the ping's error, if any, and the Celery workers'
      replies to a ping (an error, or the number of workers that answered). */
  datatype Probes = Probes(dbPing: Option<string>, workers: Result<nat, string>)

  datatype Health = Health(database: string, redis: string, overall: string)

  /** `GET /system-health`: superadmins only; healthy overall only when both parts are. */
  function SystemHealth(u: CurrentUser, p: Probes): (r: Result<Health, HttpError>)
    ensures r.Failure? <==> !HasRole(u, Superadmin)
    ensures r.Success? ==> (r.value.database == "healthy" <==> p.dbPing.None?)
    ensures r.Success? ==> (r.value.redis == "healthy" <==> p.workers.Success? && p.workers.value > 0)
    ensures r.Success? ==> (r.value.overall == "healthy" || r.value.overall == "degraded")
    ensures r.Success? ==> (r.value.overall == "healthy" <==> r.value.database == "healthy" && r.value.redis == "healthy")
  {
    match RequireRole(u, [Superadmin])
    case Some(e) => Failure(e)
    case None =>
      var database := if p.dbPing.None? then "healthy" else "unhealthy: " + p.dbPing.value;
      var redis := match p.workers
        case Failure(m) => "unhealthy: " + m
        case Success(n) => if n > 0 then "healthy" else "unhealthy";
      assert p.dbPing.Some? ==> database[..2] == "un";
      assert (p.workers.Failure? || p.workers.value == 0) ==> redis[..2] == "un";
      Success(Health(database, redis, if database == "healthy" && redis == "healthy" then "healthy" else "degraded"))
  }

  /** The summary is healthy exactly when the database answered its ping and some worker answered. */
  lemma HealthyIffProbesPass(u: CurrentUser, p: Probes)
    requires HasRole(u, Superadmin)
    ensures SystemHealth(u, p).value.overall == "healthy" <==>
      p.dbPing.None? && p.workers.Success? && p.workers.value > 0
  {
  }
}

=== FILE: admin_users.dfy ===
/** The user administration page (frontend/src/pages/admin/AdminUsers.js): the account form, the
    role toggles, the client-side filter, the badge colours, and what the page sends to the server. */
module AdminUsers {
  import opened Wrappers
  import opened Schemas
  import opened Records
  import opened Http
  import Seqs
  import Text
  import AuthService
  import AuthRoutes
  import UserRoutes

  /** The form behind both the create and the edit dialog. */
  datatype UserForm = UserForm(
    username: string,
    email: string,
    name: string,
    password: string,
    designation: string,
    department: string,
    location: string,
    userFunction: string,
    roles: seq<UserRole>)

  const BlankForm := UserForm("", "", "", "", "", "", "", "", [])

  /** The form and the account the dialogs act on. */
  datatype Editor = Editor(form: UserForm, selected: Option<UserView>)

  /** `resetForm`: every field emptied, no role, nothing selected. */
  function ResetForm(e: Editor): (r: Editor)
    ensures r.form.roles == [] && r.selected.None?
    ensures r.form.password == "" && r.form.username == "" && r.form.email == ""
  {
    Editor(BlankForm, None)
  }

  /** `openEditDialog`: the form is filled from the account; a missing optional field becomes
      empty text and the password starts empty. */
  function OpenEdit(e: Editor, u: UserView): (r: Editor)
    ensures r.selected == Some(u)
    ensures r.form.username == u.username && r.form.email == u.email && r.form.name == u.name
    ensures r.form.roles == u.roles && r.form.password == ""
    ensures r.form.designation == u.designation.GetOr("")
  {
    Editor(UserForm(u.username, u.email, u.name, "", u.designation.GetOr(""), u.department.GetOr(""),
                    u.location.GetOr(""), u.userFunction.GetOr(""), u.roles),
           Some(u))
  }

  /** Cancelling a dialog always returns to the same state, whatever was being edited. */
  lemma ResetAfterEditIsInitial(e: Editor, u: UserView)
    ensures ResetForm(OpenEdit(e, u)) == Editor(BlankForm, None)
  {
  }

  /** `handleRoleToggle`: a held role is removed (every occurrence), a missing one is appended. */
  function ToggleRole(roles: seq<UserRole>, role: UserRole): (r: seq<UserRole>)
    ensures role in r <==> role !in roles
    ensures forall x :: x != role ==> (x in r <==> x in roles)
    ensures role !in roles ==> r == roles + [role]
  {
    if role in roles then
      var kept := Seqs.Filter(roles, (x: UserRole) => x != role);
      assert forall k :: 0 <= k < |kept| ==> kept[k] in multiset(roles);
      kept
    else roles + [role]
  }

  /** Toggling the same role twice gives back the same set of roles. */
  lemma ToggleTwiceRestores(roles: seq<UserRole>, role: UserRole)
    ensures forall x :: x in ToggleRole(ToggleRole(roles, role), role) <==> x in roles
  {
  }

  /** The page's search box: name, e-mail or username contains the text, ignoring case. */
  predicate Shown(u: UserView, term: string) {
    Text.ContainsIgnoreCase(u.name, term) || Text.ContainsIgnoreCase(u.email, term) ||
    Text.ContainsIgnoreCase(u.username, term)
  }

  /** `filteredUsers`: the loaded accounts the search keeps, in the order loaded; an empty
      search keeps them all. */
  function FilterUsers(users: seq<UserView>, term: string): (r: seq<UserView>)
    ensures forall k :: 0 <= k < |r| ==> Shown(r[k], term) && r[k] in users
    ensures forall k :: 0 <= k < |users| && Shown(users[k], term) ==> users[k] in r
    ensures term == "" ==> r == users
  {
    var r := Seqs.Filter(users, (u: UserView) => Shown(u, term));
    assert forall k :: 0 <= k < |r| ==> r[k] in multiset(users);
    if term == "" then
      EmptySearchKeepsAll(users);
      r
    else r
  }

  lemma EmptySearchKeepsAll(users: seq<UserView>)
    ensures Seqs.Filter(users, (u: UserView) => Shown(u, "")) == users
  {
    forall k | 0 <= k < |users| ensures Shown(users[k], "") {
      Text.ContainsIgnoreCaseEmpty(users[k].name);
    }
    Seqs.FilterAll(users, (u: UserView) => Shown(u, ""));
  }

  /** The page filters loaded accounts exactly as the server's search filters stored ones. */
  lemma SameFilterAsServer(u: User, term: string)
    ensures Shown(View(u), term) <==> UserRoutes.SearchMatch(term, u)
  {
  }

  const SuperadminColour := "bg-purple-100 text-purple-800 border-purple-200"
  const CentralReviewerColour := "bg-indigo-100 text-indigo-800 border-indigo-200"
  const CoordinatorColour := "bg-blue-100 text-blue-800 border-blue-200"
  const ApproverColour := "bg-green-100 text-green-800 border-green-200"
  const RequestorColour := "bg-gray-100 text-gray-800 border-gray-200"

  /** `getRoleBadgeColor`: one colour per role; any other text gets the requestor's. */
  function BadgeColour(role: string): (c: string)
    ensures ParseRole(role).None? ==> c == RequestorColour
    ensures ParseRole(role) == Some(Superadmin) ==> c == SuperadminColour
    ensures ParseRole(role).Some? && ParseRole(role) != Some(Requestor) ==> c != RequestorColour
  {
    if role == "superadmin" then SuperadminColour
    else if role == "central_reviewer" then CentralReviewerColour
    else if role == "coordinator" then CoordinatorColour
    else if role == "approver" then ApproverColour
    else RequestorColour
  }

  /** Distinct roles get distinct badges. */
  lemma BadgeColoursDistinct(a: UserRole, b: UserRole)
    ensures BadgeColour(RoleValue(a)) == BadgeColour(RoleValue(b)) <==> a == b
  {
  }

  /** `handleUpdateUser`: the form as it stands; an empty password is deleted from the body. */
  function UpdateBody(f: UserForm): (d: UserRoutes.UserUpdate)
    ensures d.password.None? <==> f.password == ""
    ensures d.password.Some? ==> d.password.value == f.password
    ensures d.email == Some(f.email) && d.name == Some(f.name) && d.roles == Some(f.roles)
    ensures d.designation == Some(f.designation)
  {
    UserRoutes.UserUpdate(Some(f.email), Some(f.name), Some(f.designation), Some(f.department),
                          Some(f.location), Some(f.userFunction), Some(f.roles),
                          if f.password == "" then None else Some(f.password))
  }

  /** An edit from this page never reaches the server's empty-password branch: leaving the
      password empty keeps the sign-in secret, and typing one stores only its hash. */
  lemma PageNeverStoresEmptyPassword(u: User, f: UserForm, hash: string -> string, now: Time)
    ensures var r := UserRoutes.ApplyUserUpdate(u, UpdateBody(f), hash, now);
      r.plainPassword == u.plainPassword &&
      (f.password == "" ==> r.passwordHash == u.passwordHash) &&
      (f.password != "" ==> r.passwordHash == hash(f.password))
  {
  }

  /** Saving an edit dialog without touching it keeps the account's sign-in name, address, name,
      roles and secret; only absent optional fields turn into empty text. */
  lemma UntouchedEditKeepsAccount(e: Editor, u: User, hash: string -> string, now: Time)
    ensures var f := OpenEdit(e, View(u)).form;
      var r := UserRoutes.ApplyUserUpdate(u, UpdateBody(f), hash, now);
      && r.username == u.username && r.email == u.email && r.name == u.name && r.roles == u.roles
      && r.passwordHash == u.passwordHash && r.plainPassword == u.plainPassword
      && r.designation == Some(u.designation.GetOr(""))
  {
  }

  /** The body of `handleCreateUser`: the whole form, empty optional fields included. */
  function CreateBody(f: UserForm): (d: AuthService.UserCreate)
    ensures d.username == f.username && d.email == f.email && d.password == f.password
    ensures d.roles == Some(f.roles) && d.designation == Some(f.designation)
  {
    AuthService.UserCreate(f.username, f.email, f.password, f.name, Some(f.designation), Some(f.department),
                           Some(f.location), Some(f.userFunction), Some(f.roles))
  }

  const MethodNotAllowed := 405

  /** As written the create dialog posts to the users collection, which only answers `GET`: the
      request is refused before any handler runs and nothing is created. */
  function CreateFromPageAsWritten(db: Db, f: UserForm): (r: Result<Db, HttpError>)
    ensures r.Failure? && r.error.code == MethodNotAllowed
  {
    Failure(HttpError(MethodNotAllowed, "Method Not Allowed"))
  }

  /** However fresh the username and address, the dialog as written creates no account. */
  lemma CreateNeverSucceedsAsWritten(db: Db, f: UserForm)
    requires !AuthService.UsernameTaken(db, f.username) && !AuthService.EmailTaken(db, f.email)
    ensures CreateFromPageAsWritten(db, f).Failure?
    ensures AuthRoutes.Register(db, CreateBody(f), (s: string) => s, "id", 0).Success?
  {
  }

  /** The create dialog sent to the account-creating endpoint: the same duplicate checks as
      registration, and an account with the form's roles. */
  function CreateFromPage(db: Db, f: UserForm, hash: string -> string, id: string, now: Time)
    : (r: Result<Db, HttpError>)
    ensures r.Success? <==> !AuthService.UsernameTaken(db, f.username) && !AuthService.EmailTaken(db, f.email)
    ensures r.Failure? ==> r.error.code == BadRequest
    ensures r.Success? ==> |r.value.users| == |db.users| + 1 && r.value.users[|db.users|].roles == f.roles
  {
    match AuthRoutes.Register(db, CreateBody(f), hash, id, now)
    case Failure(e) => Failure(e)
    case Success(c) => Success(c.db)
  }

  /** A created account can sign in with the password typed into the form. */
  lemma CreatedAccountCanSignIn(db: Db, f: UserForm, hash: string -> string, verify: (string, string) -> bool,
                                id: string, now: Time)
    requires CreateFromPage(db, f, hash, id, now).Success?
    requires verify(f.password, hash(f.password))
    ensures AuthService.AuthenticateUser(CreateFromPage(db, f, hash, id, now).value, f.username, f.password, verify).Some?
  {
    AuthService.RegisteredUserCanSignIn(db, CreateBody(f), hash, verify, id, now);
  }
}

=== FILE: admin_vendors.dfy ===
/** The vendor administration page (frontend/src/pages/admin/AdminVendors.js): the vendor form, the
    client-side search and status filter, the empty-state text, and the bodies sent to the server. */
module AdminVendors {
  import opened Wrappers
  import opened Schemas
  import opened Records
  import Seqs
  import opened Http
  import Text
  import VendorService
  import VendorRoutes

  /** The form behind the create and the edit dialog. */
  datatype VendorForm = VendorForm(
    name: string,
    category: string,
    contactPerson: string,
    email: string,
    phone: string,
    address: string)

  const BlankForm := VendorForm("", "", "", "", "", "")

  datatype Editor = Editor(form: VendorForm, selected: Option<Vendor>)

  /** `resetForm`: every field emptied and nothing selected. */
  function ResetForm(e: Editor): (r: Editor)
    ensures r.selected.None? && r.form.name == "" && r.form.category == ""
  {
    Editor(BlankForm, None)
  }

  /** `openEditDialog`: the form is filled from the vendor, a missing optional field as empty text. */
  function OpenEdit(e: Editor, v: Vendor): (r: Editor)
    ensures r.selected == Some(v) && r.form.name == v.name
    ensures r.form.category == v.category.GetOr("") && r.form.contactPerson == v.contactPerson.GetOr("")
    ensures r.form.email == v.email.GetOr("") && r.form.phone == v.phone.GetOr("")
    ensures r.form.address == v.address.GetOr("")
  {
    Editor(VendorForm(v.name, v.category.GetOr(""), v.contactPerson.GetOr(""), v.email.GetOr(""),
                      v.phone.GetOr(""), v.address.GetOr("")),
           Some(v))
  }

  /** Cancelling returns to the same state, whatever was being edited. */
  lemma ResetAfterEditIsInitial(e: Editor, v: Vendor)
    ensures ResetForm(OpenEdit(e, v)) == Editor(BlankForm, None)
  {
  }

  /** The status drop-down: every status, or one of them. */
  datatype StatusFilter = AnyStatus | Only(status: VendorStatus)

  /** An optional field takes part in the search only when it holds non-empty text. */
  predicate FieldMatches(field: Option<string>, term: string) {
    field.Some? && field.value != "" && Text.ContainsIgnoreCase(field.value, term)
  }

  /** The search box: name, category or contact person contains the text, ignoring case. */
  predicate MatchesSearch(v: Vendor, term: string) {
    Text.ContainsIgnoreCase(v.name, term) || FieldMatches(v.category, term) || FieldMatches(v.contactPerson, term)
  }

  predicate MatchesStatus(v: Vendor, f: StatusFilter) {
    f.AnyStatus? || v.status == f.status
  }

  /** `filteredVendors`: the loaded vendors that pass both the search and the status filter, in the
      order loaded; with no search and every status, all of them. */
  function FilterVendors(vs: seq<Vendor>, term: string, f: StatusFilter): (r: seq<Vendor>)
    ensures forall k :: 0 <= k < |r| ==> MatchesSearch(r[k], term) && MatchesStatus(r[k], f) && r[k] in vs
    ensures forall k :: 0 <= k < |vs| && MatchesSearch(vs[k], term) && MatchesStatus(vs[k], f) ==> vs[k] in r
    ensures term == "" && f == AnyStatus ==> r == vs
  {
    var r := Seqs.Filter(vs, (v: Vendor) => MatchesSearch(v, term) && MatchesStatus(v, f));
    assert forall k :: 0 <= k < |r| ==> r[k] in multiset(vs);
    if term == "" && f == AnyStatus then
      NoFilterKeepsAll(vs);
      r
    else r
  }

  lemma NoFilterKeepsAll(vs: seq<Vendor>)
    ensures Seqs.Filter(vs, (v: Vendor) => MatchesSearch(v, "") && MatchesStatus(v, AnyStatus)) == vs
  {
    forall k | 0 <= k < |vs| ensures MatchesSearch(vs[k], "") {
      Text.ContainsIgnoreCaseEmpty(vs[k].name);
    }
    Seqs.FilterAll(vs, (v: Vendor) => MatchesSearch(v, "") && MatchesStatus(v, AnyStatus));
  }

  /** The page's status filter agrees with the server's `status` query parameter. */
  lemma SameStatusFilterAsServer(v: Vendor, s: VendorStatus)
    ensures MatchesStatus(v, Only(s)) <==> VendorService.InStatus(Some(VendorStatusValue(s)), v)
  {
  }

  /** Everything the server's vendor search returns, the page's search box also keeps. */
  lemma PageSearchCoversServerSearch(v: Vendor, term: string)
    requires VendorService.SearchMatch(term, v)
    ensures MatchesSearch(v, term) && MatchesStatus(v, Only(Active))
  {
  }

  /** An active search or filter is reported as "nothing found"; otherwise the list is empty
      because nothing was added yet. */
  function EmptyStateTitle(term: string, f: StatusFilter): (t: string)
    ensures t == "No vendors found" <==> term != "" || f != AnyStatus
    ensures t == "No vendors added yet" <==> term == "" && f == AnyStatus
  {
    if term != "" || f != AnyStatus then "No vendors found" else "No vendors added yet"
  }

  /** The empty state offers the add button exactly when it says nothing was added yet. */
  predicate OffersAddButton(term: string, f: StatusFilter) {
    term == "" && f == AnyStatus
  }

  /** With neither search nor filter, an empty list means no vendor was loaded at all. */
  lemma EmptyWithoutFilterMeansNoVendors(vs: seq<Vendor>)
    requires FilterVendors(vs, "", AnyStatus) == []
    ensures vs == []
    ensures OffersAddButton("", AnyStatus) && EmptyStateTitle("", AnyStatus) == "No vendors added yet"
  {
  }

  /** `handleCreateVendor` as written: the whole form, empty fields sent as empty text. */
  function CreateBodyAsWritten(f: VendorForm): (d: VendorService.VendorCreate)
    ensures d.name == f.name && d.category == Some(f.category) && d.contactPerson == Some(f.contactPerson)
    ensures d.email == Some(f.email) && d.phone == Some(f.phone) && d.address == Some(f.address)
  {
    VendorService.VendorCreate(f.name, Some(f.category), Some(f.contactPerson), Some(f.email), Some(f.phone),
                               Some(f.address))
  }

  /** `handleUpdateVendor` as written: the whole form; the form has no status, so the status is never sent. */
  function UpdateBodyAsWritten(f: VendorForm): (d: VendorService.VendorUpdate)
    ensures d.status.None? && d.name == Some(f.name)
    ensures d.category == Some(f.category) && d.contactPerson == Some(f.contactPerson)
    ensures d.email == Some(f.email) && d.phone == Some(f.phone) && d.address == Some(f.address)
  {
    VendorService.VendorUpdate(Some(f.name), Some(f.category), Some(f.contactPerson), Some(f.email),
                               Some(f.phone), Some(f.address), None)
  }

  /** A blank e-mail box sent as no e-mail at all, which the e-mail validation lets through. */
  function EmailField(email: string): (e: Option<string>)
    ensures e.None? <==> email == ""
    ensures e.Some? ==> e.value == email
  {
    if email == "" then None else Some(email)
  }

  /** The create request with a blank e-mail left out; every other field as the form holds it. */
  function CreateBody(f: VendorForm): (d: VendorService.VendorCreate)
    ensures d.name == f.name && d.category == Some(f.category) && d.contactPerson == Some(f.contactPerson)
    ensures d.phone == Some(f.phone) && d.address == Some(f.address)
    ensures d.email.None? <==> f.email == ""
    ensures d.email.Some? ==> d.email.value == f.email
    ensures VendorRoutes.EmailAccepted(d.email) <==> f.email == "" || '@' in f.email
  {
    CreateBodyAsWritten(f).(email := EmailField(f.email))
  }

  /** The update request with a blank e-mail left out, which keeps the stored e-mail as it is. */
  function UpdateBody(f: VendorForm): (d: VendorService.VendorUpdate)
    ensures d.status.None? && d.name == Some(f.name)
    ensures d.category == Some(f.category) && d.contactPerson == Some(f.contactPerson)
    ensures d.phone == Some(f.phone) && d.address == Some(f.address)
    ensures d.email.None? <==> f.email == ""
    ensures d.email.Some? ==> d.email.value == f.email
    ensures VendorRoutes.EmailAccepted(d.email) <==> f.email == "" || '@' in f.email
  {
    UpdateBodyAsWritten(f).(email := EmailField(f.email))
  }

  /** As written, no vendor without an e-mail can be created from the page: the empty e-mail box
      is sent as "" and the e-mail validation answers 422. */
  lemma CreateWithoutEmailRefusedAsWritten(db: Db, u: CurrentUser, f: VendorForm, id: string, now: Time)
    requires HasAnyRole(u, VendorRoutes.Editors) && f.email == ""
    ensures VendorRoutes.CreateVendorRoute(db, u, CreateBodyAsWritten(f), id, now) == Failure(ValidationError())
  {
  }

  /** As written, saving an untouched edit of a vendor without an e-mail is refused the same way. */
  lemma UntouchedEditRefusedAsWritten(db: Db, u: CurrentUser, e: Editor, v: Vendor, now: Time)
    requires HasAnyRole(u, VendorRoutes.Editors) && v.email.None?
    ensures VendorRoutes.UpdateVendorRoute(db, u, v.id, UpdateBodyAsWritten(OpenEdit(e, v).form), now)
      == Failure(ValidationError())
  {
  }

  /** With the blank e-mail left out, an editor creates a vendor without an e-mail whenever the
      name is free, and the vendor is stored with none. */
  lemma BlankEmailCreatesVendor(db: Db, u: CurrentUser, f: VendorForm, id: string, now: Time)
    requires HasAnyRole(u, VendorRoutes.Editors) && f.email == ""
    requires !VendorService.NameTaken(db, f.name)
    ensures var r := VendorRoutes.CreateVendorRoute(db, u, CreateBody(f), id, now);
      r.Success? && r.value.vendor.email.None? && r.value.vendor.name == f.name
  {
  }

  /** Saving an untouched edit dialog of a stored vendor with a valid or no e-mail succeeds and keeps
      the vendor's id, name, status and e-mail; absent optional text fields come back as empty text. */
  lemma UntouchedEditKeepsVendor(db: Db, u: CurrentUser, e: Editor, v: Vendor, now: Time)
    requires HasAnyRole(u, VendorRoutes.Editors)
    requires VendorIndex(db.vendors, v.id).Some? && db.vendors[VendorIndex(db.vendors, v.id).value] == v
    requires VendorRoutes.EmailAccepted(v.email)
    ensures var r := VendorRoutes.UpdateVendorRoute(db, u, v.id, UpdateBody(OpenEdit(e, v).form), now);
      && r.Success?
      && r.value.vendor.id == v.id && r.value.vendor.name == v.name && r.value.vendor.status == v.status
      && r.value.vendor.email == v.email
      && r.value.vendor.category == Some(v.category.GetOr("")) && r.value.vendor.address == Some(v.address.GetOr(""))
  {
    assert v.email.Some? ==> v.email.value != "";
  }

  /** A vendor created from the page is found by its own name in the page's search. */
  lemma CreatedVendorIsFound(db: Db, u: CurrentUser, f: VendorForm, id: string, now: Time)
    requires VendorRoutes.CreateVendorRoute(db, u, CreateBody(f), id, now).Success?
    ensures var v := VendorRoutes.CreateVendorRoute(db, u, CreateBody(f), id, now).value.vendor;
      v in FilterVendors([v], f.name, Only(Active))
  {
    var v := VendorRoutes.CreateVendorRoute(db, u, CreateBody(f), id, now).value.vendor;
    SelfMatch(v.name);
  }

  /** Every text contains itself, ignoring case. */
  lemma SelfMatch(s: string)
    ensures Text.ContainsIgnoreCase(s, s)
  {
    assert Text.MatchAt(Text.Lower(s), Text.Lower(s), 0);
  }
}

=== FILE: approval_routes.dfy ===
/** The approval endpoints (backend/api/routes/approvals.py): every view and action is
    bound to the authenticated caller, and service errors become HTTP answers. */
module ApprovalRoutes {
  import opened Wrappers
  import opened Schemas
  import opened Records
  import opened Http
  import ApprovalService
  import Seqs

  /** The body of `POST /{workflow_id}/action`: an action and an optional comment. */
  datatype ActionRequest = ActionRequest(action: ApprovalAction, comments: Option<string>)

  /** The message broadcast to every open connection after a successful action. */
  datatype ApprovalEvent = ApprovalEvent(workflowId: string, nfaId: string, action: string, approver: Option<string>)

  /** A successful action: the new store, the step as re-read, the queued tasks and the broadcast event. */
  datatype ActionAnswer = ActionAnswer(db: Db, step: Step, effects: seq<Effect>, event: ApprovalEvent)

  /** A rule the caller broke is a 400 and anything else a 500; both carry the error's message. */
  function ToHttp(e: ServiceError): (h: HttpError)
    ensures e.ValueError? ==> h == HttpError(BadRequest, e.message)
    ensures e.InternalError? ==> h == HttpError(InternalServerError, e.message)
  {
    match e
    case ValueError(m) => HttpError(BadRequest, m)
    case InternalError(m) => HttpError(InternalServerError, m)
  }

  /** `POST /{workflow_id}/action`: acts as the authenticated caller, whatever the body says. */
  function ProcessApprovalRoute(db: Db, u: CurrentUser, workflowId: string, req: ActionRequest, now: Time): (r: Result<ActionAnswer, HttpError>)
    ensures var s := ApprovalService.ProcessApproval(db, workflowId, u.userId, req.action, req.comments, now);
      && (r.Failure? <==> s.Failure?)
      && (s.Failure? ==> r.error == ToHttp(s.error))
      && (s.Success? ==> r.value.db == s.value.db && r.value.step == s.value.step && r.value.effects == s.value.effects)
    ensures r.Success? ==> r.value.step.approverId == u.userId && r.value.step.id == workflowId
    ensures r.Success? ==>
      r.value.event == ApprovalEvent(workflowId, r.value.step.nfaId, ActionValue(req.action), u.username)
  {
    match ApprovalService.ProcessApproval(db, workflowId, u.userId, req.action, req.comments, now)
    case Failure(e) => Failure(ToHttp(e))
    case Success(p) =>
      Success(ActionAnswer(p.db, p.step, p.effects,
                           ApprovalEvent(workflowId, p.step.nfaId, ActionValue(req.action), u.username)))
  }

  /** Every refusal of the action endpoint is a 400 with the service's message. */
  lemma RefusalsAreBadRequests(db: Db, u: CurrentUser, workflowId: string, req: ActionRequest, now: Time)
    requires ProcessApprovalRoute(db, u, workflowId, req, now).Failure?
    ensures ProcessApprovalRoute(db, u, workflowId, req, now).error.code == BadRequest
    ensures ProcessApprovalRoute(db, u, workflowId, req, now).error.detail in
      ["Approval workflow not found", "Unauthorized: You are not the designated approver",
       "This approval has already been processed"]
  {
  }

  /** `GET /pending` as declared: the answer is validated against the step schema, which has no
      `nfa` field and ignores extra keys, so the NFA the service attached never reaches the client.
      Each entry is shown as the client reads it: the step, with no NFA. */
  function PendingRouteAsWritten(db: Db, u: CurrentUser): (r: seq<ApprovalService.PendingItem>)
    ensures |r| == |ApprovalService.GetPendingApprovals(db, u.userId)|
    ensures forall k :: 0 <= k < |r| ==>
      r[k].step == ApprovalService.GetPendingApprovals(db, u.userId)[k].step && r[k].nfa.None?
  {
    var items := ApprovalService.GetPendingApprovals(db, u.userId);
    seq(|items|, k requires 0 <= k < |items| => ApprovalService.PendingItem(items[k].step, None))
  }

  /** `GET /pending` with a response schema that keeps the attached NFA: the caller's own pending
      steps, each with the NFA it belongs to. */
  function PendingRoute(db: Db, u: CurrentUser): (r: seq<ApprovalService.PendingItem>)
    ensures |r| <= 100
    ensures forall k :: 0 <= k < |r| ==> r[k].step.approverId == u.userId && r[k].step.status == Pending
    ensures forall k :: 0 <= k < |r| ==> r[k].step in db.steps && r[k].nfa == FindNfa(db, r[k].step.nfaId)
    ensures r == ApprovalService.GetPendingApprovals(db, u.userId)
  {
    ApprovalService.GetPendingApprovals(db, u.userId)
  }

  /** Up to 100 pending steps, the caller's pending page lists every step waiting for them. */
  lemma PendingRouteIsComplete(db: Db, u: CurrentUser, k: nat)
    requires |Seqs.Filter(db.steps, (s: Step) => ApprovalService.PendingFor(s, u.userId))| <= 100
    requires k < |db.steps| && ApprovalService.PendingFor(db.steps[k], u.userId)
    ensures exists j :: 0 <= j < |PendingRoute(db, u)| && PendingRoute(db, u)[j].step == db.steps[k]
  {
    var listed := ApprovalService.GetPendingApprovals(db, u.userId);
    ApprovalService.PendingIsComplete(db, u.userId, k);
    var j :| 0 <= j < |listed| && listed[j].step == db.steps[k];
    assert PendingRoute(db, u)[j].step == db.steps[k];
  }

  /** `GET /statistics`: the caller's own counts. */
  function StatisticsRoute(db: Db, u: CurrentUser): (r: ApprovalService.Statistics)
    ensures r.total == ApprovalService.CountSteps(db.steps, u.userId, None)
    ensures r.pending == ApprovalService.CountSteps(db.steps, u.userId, Some(Pending))
    ensures r.approved == ApprovalService.CountSteps(db.steps, u.userId, Some(ApprovalStatus.Approved))
    ensures r.rejected == ApprovalService.CountSteps(db.steps, u.userId, Some(ApprovalStatus.Rejected))
    ensures r.total >= r.pending + r.approved + r.rejected
  {
    ApprovalService.GetApproverStatistics(db, u.userId)
  }

  /** `GET /nfa/{nfa_id}/history`: any authenticated caller may read any NFA's steps. */
  function HistoryRoute(db: Db, u: CurrentUser, nfaId: string): (r: seq<Step>)
    ensures forall k :: 0 <= k < |r| ==> r[k].nfaId == nfaId && r[k] in db.steps
    ensures r == ApprovalService.GetApprovalHistory(db, nfaId)
  {
    ApprovalService.GetApprovalHistory(db, nfaId)
  }
}

=== FILE: approval_service.dfy ===
/** Acting on approval steps and what follows from it
    (backend/services/approval_service.py): the three actions, section completion,
    and the approver's views of the steps. */
module ApprovalService {
  import opened Wrappers
  import opened Schemas
  import opened Records
  import opened Http
  import Seqs
  import Sorting
  import NfaService
  import ApprovalSteps

  /** The store after an action, the acted-on step as it is re-read, and the queued tasks. */
  datatype Processed = Processed(db: Db, step: Step, effects: seq<Effect>)

  /** The store after a completion check, and the queued tasks. */
  datatype Completion = Completion(db: Db, effects: seq<Effect>)

  predicate InSection(s: Step, nfaId: string, section: int) {
    s.nfaId == nfaId && s.section == section
  }

  /** Ascending by `sequence`. */
  predicate BySequence(a: Step, b: Step) {
    a.sequence <= b.sequence
  }

  /** `find({"nfa_id", "section"}).sort("sequence", 1).to_list(100)`: the steps the completion check reads. */
  function SectionSteps(steps: seq<Step>, nfaId: string, section: int): (r: seq<Step>)
    ensures |r| <= 100
    ensures forall k :: 0 <= k < |r| ==> InSection(r[k], nfaId, section) && r[k] in steps
    ensures Sorting.SortedBy(r, BySequence)
  {
    var p := (s: Step) => InSection(s, nfaId, section);
    var matching := Seqs.Filter(steps, p);
    BySequenceRanks();
    var r := Sorting.SortTake(matching, BySequence, 100);
    forall k | 0 <= k < |r| ensures InSection(r[k], nfaId, section) && r[k] in steps {
      Seqs.FilterMember(steps, p, r[k]);
    }
    r
  }

  lemma BySequenceRanks()
    ensures Sorting.TotalPreorder(BySequence)
  {
  }

  predicate AllApproved(ws: seq<Step>) {
    forall k :: 0 <= k < |ws| ==> ws[k].status == ApprovalStatus.Approved
  }

  /** When a section has at most 100 steps, the check sees all of them: it passes exactly when every step of the section is approved. */
  lemma SectionCompleteIffAllApproved(steps: seq<Step>, nfaId: string, section: int)
    requires |Seqs.Filter(steps, (s: Step) => InSection(s, nfaId, section))| <= 100
    ensures AllApproved(SectionSteps(steps, nfaId, section)) <==>
      forall k :: 0 <= k < |steps| && InSection(steps[k], nfaId, section) ==> steps[k].status == ApprovalStatus.Approved
  {
    var r := SectionSteps(steps, nfaId, section);
    if AllApproved(r) {
      forall k | 0 <= k < |steps| && InSection(steps[k], nfaId, section)
        ensures steps[k].status == ApprovalStatus.Approved
      {
        SectionStepsMembers(steps, nfaId, section, steps[k]);
        var j :| 0 <= j < |r| && r[j] == steps[k];
      }
    }
  }

  /** Up to 100 steps, the check reads exactly the section's steps. */
  lemma SectionStepsMembers(steps: seq<Step>, nfaId: string, section: int, x: Step)
    requires |Seqs.Filter(steps, (s: Step) => InSection(s, nfaId, section))| <= 100
    ensures x in SectionSteps(steps, nfaId, section) <==> x in steps && InSection(x, nfaId, section)
  {
    var p := (s: Step) => InSection(s, nfaId, section);
    var matching := Seqs.Filter(steps, p);
    BySequenceRanks();
    assert SectionSteps(steps, nfaId, section) == Sorting.Sort(matching, BySequence);
    Sorting.SortKeepsMembers(matching, BySequence, x);
    if x in matching {
      Seqs.FilterMember(steps, p, x);
    }
  }

  /** `check_section_completion`: once every step the check reads is approved, section 1 moves the NFA
      to `section1_approved` at stage `coordinator_processing` and notifies the coordinator, if the form
      names one; section 2 queues the PDF generation, which finalises the NFA. Any other section does nothing. */
  function CheckSectionCompletion(db: Db, nfaId: string, section: int, now: Time): (r: Completion)
    ensures !AllApproved(SectionSteps(db.steps, nfaId, section)) ==> r == Completion(db, [])
    ensures section != 1 && section != 2 ==> r == Completion(db, [])
    ensures AllApproved(SectionSteps(db.steps, nfaId, section)) && section == 2 ==>
      r == Completion(db, [GeneratePdf(nfaId)])
    ensures AllApproved(SectionSteps(db.steps, nfaId, section)) && section == 1 ==>
      && r.db.steps == db.steps
      && (FindNfa(db, nfaId).None? ==> r == Completion(db, []))
      && (FindNfa(db, nfaId).Some? ==>
            var n := FindNfa(r.db, nfaId);
            && n.Some? && n.value.status == Section1Approved && n.value.currentStage == "coordinator_processing"
            && NfaService.SameContent(FindNfa(db, nfaId).value, n.value) && n.value.updatedAt == now
            && (Truthy(n.value.section1.ibmCoordinator) ==>
                  r.effects == [NotifyCoordinator(nfaId, n.value.section1.ibmCoordinator.value)])
            && (!Truthy(n.value.section1.ibmCoordinator) ==> r.effects == []))
    ensures OnlyNfaTouched(db.nfas, r.db.nfas, nfaId)
    ensures OthersUnchanged(r.db, db)
  {
    if !AllApproved(SectionSteps(db.steps, nfaId, section)) then Completion(db, [])
    else if section == 1 then
      var saved := NfaService.UpdateNfaStatus(db, nfaId, Section1Approved, Some("coordinator_processing"), now);
      match FindNfa(saved.db, nfaId)
      case Some(n) =>
        if Truthy(n.section1.ibmCoordinator) then
          Completion(saved.db, [NotifyCoordinator(nfaId, n.section1.ibmCoordinator.value)])
        else Completion(saved.db, [])
      case None => Completion(saved.db, [])
    else if section == 2 then Completion(db, [GeneratePdf(nfaId)])
    else Completion(db, [])
  }

  /** The step at `i` with the decision recorded on it. */
  function Decide(w: Step, action: ApprovalAction, comments: Option<string>, now: Time): (d: Step)
    ensures d.status == StepStatusAfter(action) && d.action == Some(action)
    ensures d.comments == comments && d.actionTimestamp == Some(now)
    ensures d.id == w.id && d.nfaId == w.nfaId && d.section == w.section && d.sequence == w.sequence
    ensures d.approverId == w.approverId && d.approverName == w.approverName && d.createdAt == w.createdAt
  {
    w.(status := StepStatusAfter(action), action := Some(action), comments := comments, actionTimestamp := Some(now))
  }

  /** The checks `process_approval` makes before it writes anything, in order. */
  function Refusal(db: Db, workflowId: string, approverId: string): (e: Option<ServiceError>)
    ensures StepIndex(db.steps, workflowId).None? ==> e == Some(ValueError("Approval workflow not found"))
    ensures StepIndex(db.steps, workflowId).Some? ==>
      var w := db.steps[StepIndex(db.steps, workflowId).value];
      && (w.approverId != approverId ==> e == Some(ValueError("Unauthorized: You are not the designated approver")))
      && (w.approverId == approverId && w.status != Pending ==> e == Some(ValueError("This approval has already been processed")))
      && (w.approverId == approverId && w.status == Pending ==> e.None?)
  {
    match StepIndex(db.steps, workflowId)
    case None => Some(ValueError("Approval workflow not found"))
    case Some(i) =>
      if db.steps[i].approverId != approverId then Some(ValueError("Unauthorized: You are not the designated approver"))
      else if db.steps[i].status != Pending then Some(ValueError("This approval has already been processed"))
      else None
  }

  /** Writes `d` back at position `i`, where the first step with its id sits. */
  function SetStep(db: Db, i: nat, d: Step): (r: Db)
    requires StepIndex(db.steps, d.id) == Some(i)
    ensures r.steps == db.steps[i := d]
    ensures StepIndex(r.steps, d.id) == Some(i)
    ensures FindStep(r, d.id) == Some(d)
    ensures r.nfas == db.nfas && OthersUnchanged(r, db)
  {
    var r := db.(steps := db.steps[i := d]);
    assert r.steps[i].id == d.id;
    assert forall j :: 0 <= j < i ==> r.steps[j].id != d.id;
    r
  }

  /** What a recorded decision does to the NFA: a reject or send back sets its status and stage,
      an approve runs the completion check of the step's section. Steps are not touched. */
  function FollowUp(db: Db, d: Step, action: ApprovalAction, now: Time): (r: Completion)
    ensures r.db.steps == db.steps && OthersUnchanged(r.db, db)
    ensures OnlyNfaTouched(db.nfas, r.db.nfas, d.nfaId)
    ensures action == Approve ==> r == CheckSectionCompletion(db, d.nfaId, d.section, now)
    ensures action != Approve ==>
      && r.effects == []
      && (FindNfa(db, d.nfaId).None? ==> r.db.nfas == db.nfas)
      && (FindNfa(db, d.nfaId).Some? ==>
            var n := FindNfa(r.db, d.nfaId);
            && n.Some? && NfaService.SameContent(FindNfa(db, d.nfaId).value, n.value)
            && (action == Reject ==> n.value.status == NfaStatus.Rejected && n.value.currentStage == "rejected")
            && (action == SendBack ==> n.value.status == NfaStatus.SentBack && n.value.currentStage == "sent_back"))
  {
    match action
    case Reject => Completion(NfaService.UpdateNfaStatus(db, d.nfaId, NfaStatus.Rejected, Some("rejected"), now).db, [])
    case SendBack => Completion(NfaService.UpdateNfaStatus(db, d.nfaId, NfaStatus.SentBack, Some("sent_back"), now).db, [])
    case Approve => CheckSectionCompletion(db, d.nfaId, d.section, now)
  }

  /** `process_approval`. The step must exist, belong to the acting approver and still be pending;
      otherwise nothing changes. The decision is recorded on that step alone, and then followed up
      on the NFA. Neither the NFA's status nor the other steps' order is consulted. */
  function ProcessApproval(db: Db, workflowId: string, approverId: string, action: ApprovalAction,
                           comments: Option<string>, now: Time): (r: Result<Processed, ServiceError>)
    ensures r.Failure? <==> Refusal(db, workflowId, approverId).Some?
    ensures r.Failure? ==> r.error == Refusal(db, workflowId, approverId).value
    ensures r.Success? ==>
      var i := StepIndex(db.steps, workflowId).value;
      && r.value.step == Decide(db.steps[i], action, comments, now)
      && StepIndex(r.value.db.steps, workflowId) == Some(i)
      && Some(r.value.step) == FindStep(r.value.db, workflowId)
      && r.value.db.steps == db.steps[i := r.value.step]
      && OnlyNfaTouched(db.nfas, r.value.db.nfas, db.steps[i].nfaId)
      && OthersUnchanged(r.value.db, db)
    ensures r.Success? ==>
      var c := FollowUp(db.(steps := r.value.db.steps), r.value.step, action, now);
      r.value.db == c.db && r.value.effects == c.effects
  {
    var refusal := Refusal(db, workflowId, approverId);
    if refusal.Some? then Failure(refusal.value)
    else
      var i := StepIndex(db.steps, workflowId).value;
      var d := Decide(db.steps[i], action, comments, now);
      var db1 := SetStep(db, i, d);
      var c := FollowUp(db1, d, action, now);
      Success(Processed(c.db, d, c.effects))
  }

  /** A decision changes only its own step: every other step keeps its status, so reject and
      send back leave the section's other steps as they were. */
  lemma OnlyTheActedStepChanges(db: Db, workflowId: string, approverId: string, action: ApprovalAction,
                                comments: Option<string>, now: Time, j: nat)
    requires ProcessApproval(db, workflowId, approverId, action, comments, now).Success?
    requires j < |db.steps| && j != StepIndex(db.steps, workflowId).value
    ensures ProcessApproval(db, workflowId, approverId, action, comments, now).value.db.steps[j] == db.steps[j]
  {
  }

  /** Step ids are unique in the store. */
  predicate UniqueStepIds(steps: seq<Step>) {
    forall i, j :: 0 <= i < j < |steps| ==> steps[i].id != steps[j].id
  }

  /** Any pending step can be acted on by its approver, with any action, whatever the NFA's status
      and whatever the state of the section's other steps. */
  lemma AnyPendingStepIsActionable(db: Db, i: nat, action: ApprovalAction, comments: Option<string>, now: Time)
    requires UniqueStepIds(db.steps)
    requires i < |db.steps| && db.steps[i].status == Pending
    ensures ProcessApproval(db, db.steps[i].id, db.steps[i].approverId, action, comments, now).Success?
  {
    assert forall j :: 0 <= j < i ==> db.steps[j].id != db.steps[i].id;
    assert StepIndex(db.steps, db.steps[i].id) == Some(i);
  }

  /** Whether an action is accepted depends on the steps alone: two stores with the same steps
      accept or refuse the same request. */
  lemma AcceptanceIgnoresNfas(db: Db, other: Db, workflowId: string, approverId: string,
                              action: ApprovalAction, comments: Option<string>, now: Time)
    requires other.steps == db.steps
    ensures ProcessApproval(db, workflowId, approverId, action, comments, now).Success? <==>
            ProcessApproval(other, workflowId, approverId, action, comments, now).Success?
  {
    assert Refusal(db, workflowId, approverId) == Refusal(other, workflowId, approverId);
  }

  /** A decided step cannot be decided again: a second action on it is refused. */
  lemma NoSecondDecision(db: Db, workflowId: string, approverId: string, a1: ApprovalAction, a2: ApprovalAction,
                         c1: Option<string>, c2: Option<string>, t1: Time, t2: Time)
    requires ProcessApproval(db, workflowId, approverId, a1, c1, t1).Success?
    ensures ProcessApproval(ProcessApproval(db, workflowId, approverId, a1, c1, t1).value.db, workflowId, approverId, a2, c2, t2)
            == Failure(ValueError("This approval has already been processed"))
  {
    var r := ProcessApproval(db, workflowId, approverId, a1, c1, t1).value;
    var i := StepIndex(db.steps, workflowId).value;
    assert r.db.steps[i] == r.step;
    assert Refusal(r.db, workflowId, approverId) == Some(ValueError("This approval has already been processed"));
  }

  // --------------------------------------------------------------- queries

  /** Newest first by `created_at`. */
  predicate StepNewerOrSame(a: Step, b: Step) {
    a.createdAt >= b.createdAt
  }

  /** A pending step with the NFA it belongs to, when that NFA still exists. */
  datatype PendingItem = PendingItem(step: Step, nfa: Option<Nfa>)

  predicate PendingFor(s: Step, approverId: string) {
    s.approverId == approverId && s.status == Pending
  }

  /** The approver's pending steps, newest first, at most 100. */
  function PendingSteps(db: Db, approverId: string): (r: seq<Step>)
    ensures |r| <= 100
    ensures forall k :: 0 <= k < |r| ==> PendingFor(r[k], approverId) && r[k] in db.steps
    ensures Sorting.SortedBy(r, StepNewerOrSame)
  {
    var p := (s: Step) => PendingFor(s, approverId);
    var matching := Seqs.Filter(db.steps, p);
    NewerRanks();
    var r := Sorting.SortTake(matching, StepNewerOrSame, 100);
    forall k | 0 <= k < |r| ensures PendingFor(r[k], approverId) && r[k] in db.steps {
      Seqs.FilterMember(db.steps, p, r[k]);
    }
    r
  }

  lemma NewerRanks()
    ensures Sorting.TotalPreorder(StepNewerOrSame)
  {
  }

  /** `get_pending_approvals`: the approver's pending steps, newest first, at most 100, each with its NFA. */
  function GetPendingApprovals(db: Db, approverId: string): (r: seq<PendingItem>)
    ensures |r| <= 100
    ensures forall k :: 0 <= k < |r| ==> PendingFor(r[k].step, approverId) && r[k].step in db.steps
    ensures forall k :: 0 <= k < |r| ==> r[k].nfa == FindNfa(db, r[k].step.nfaId)
    ensures forall j, k :: 0 <= j < k < |r| ==> r[j].step.createdAt >= r[k].step.createdAt
  {
    var steps := PendingSteps(db, approverId);
    seq(|steps|, k requires 0 <= k < |steps| => PendingItem(steps[k], FindNfa(db, steps[k].nfaId)))
  }

  /** Up to 100 pending steps, the list holds every pending step of the approver. */
  lemma {:induction false} PendingIsComplete(db: Db, approverId: string, k: nat)
    requires |Seqs.Filter(db.steps, (s: Step) => PendingFor(s, approverId))| <= 100
    requires k < |db.steps| && PendingFor(db.steps[k], approverId)
    ensures exists j :: 0 <= j < |GetPendingApprovals(db, approverId)| && GetPendingApprovals(db, approverId)[j].step == db.steps[k]
  {
    var matching := Seqs.Filter(db.steps, (s: Step) => PendingFor(s, approverId));
    NewerRanks();
    var sorted := Sorting.Sort(matching, StepNewerOrSame);
    assert PendingSteps(db, approverId) == sorted;
    assert db.steps[k] in matching;
    assert db.steps[k] in multiset(sorted);
    var j :| 0 <= j < |sorted| && sorted[j] == db.steps[k];
    assert GetPendingApprovals(db, approverId)[j].step == sorted[j];
  }

  /** By section, then by sequence. */
  predicate BySectionThenSequence(a: Step, b: Step) {
    a.section < b.section || (a.section == b.section && a.sequence <= b.sequence)
  }

  /** `get_approval_history`: the NFA's steps of both sections, section by section in sequence order, at most 100. */
  function GetApprovalHistory(db: Db, nfaId: string): (r: seq<Step>)
    ensures |r| <= 100
    ensures forall k :: 0 <= k < |r| ==> r[k].nfaId == nfaId && r[k] in db.steps
    ensures Sorting.SortedBy(r, BySectionThenSequence)
  {
    var p := (s: Step) => s.nfaId == nfaId;
    var matching := Seqs.Filter(db.steps, p);
    SectionOrderRanks();
    var r := Sorting.SortTake(matching, BySectionThenSequence, 100);
    forall k | 0 <= k < |r| ensures r[k].nfaId == nfaId && r[k] in db.steps {
      Seqs.FilterMember(db.steps, p, r[k]);
    }
    r
  }

  lemma SectionOrderRanks()
    ensures Sorting.TotalPreorder(BySectionThenSequence)
  {
  }

  /** Up to 100 steps, the history holds every step of the NFA, each as often as it is stored. */
  lemma {:induction false} HistoryIsComplete(db: Db, nfaId: string)
    requires |Seqs.Filter(db.steps, (s: Step) => s.nfaId == nfaId)| <= 100
    ensures multiset(GetApprovalHistory(db, nfaId)) == multiset(Seqs.Filter(db.steps, (s: Step) => s.nfaId == nfaId))
    ensures forall k :: 0 <= k < |db.steps| && db.steps[k].nfaId == nfaId ==> db.steps[k] in GetApprovalHistory(db, nfaId)
  {
    var matching := Seqs.Filter(db.steps, (s: Step) => s.nfaId == nfaId);
    SectionOrderRanks();
    assert GetApprovalHistory(db, nfaId) == Sorting.Sort(matching, BySectionThenSequence);
    forall k | 0 <= k < |db.steps| && db.steps[k].nfaId == nfaId
      ensures db.steps[k] in GetApprovalHistory(db, nfaId)
    {
      assert db.steps[k] in multiset(matching);
    }
  }

  /** Beyond 100 steps, the history keeps the earliest: no step of the NFA left out comes before one it shows. */
  lemma HistoryKeepsEarliest(db: Db, nfaId: string, x: Step, k: nat)
    requires x in db.steps && x.nfaId == nfaId && x !in GetApprovalHistory(db, nfaId)
    requires k < |GetApprovalHistory(db, nfaId)|
    ensures BySectionThenSequence(GetApprovalHistory(db, nfaId)[k], x)
  {
    var matching := Seqs.Filter(db.steps, (s: Step) => s.nfaId == nfaId);
    SectionOrderRanks();
    Sorting.TakeKeepsTop(matching, BySectionThenSequence, 100, x, k);
  }

  /** The `count_documents` filter: the approver's steps, with the given status when one is asked for. */
  predicate Counted(s: Step, approverId: string, status: Option<ApprovalStatus>) {
    s.approverId == approverId && (status.None? || s.status == status.value)
  }

  /** `count_documents` over the approver's steps, optionally restricted to one status. */
  function CountSteps(steps: seq<Step>, approverId: string, status: Option<ApprovalStatus>): nat {
    if |steps| == 0 then 0
    else (if Counted(steps[0], approverId, status) then 1 else 0) + CountSteps(steps[1..], approverId, status)
  }

  /** The count is the number of stored steps the filter selects. */
  lemma {:induction false} CountIsFilterLength(steps: seq<Step>, approverId: string, status: Option<ApprovalStatus>)
    ensures CountSteps(steps, approverId, status) == |Seqs.Filter(steps, (s: Step) => Counted(s, approverId, status))|
  {
    if |steps| > 0 {
      CountIsFilterLength(steps[1..], approverId, status);
    }
  }

  /** Rewriting one step moves it from the count of its old status to the count of its new one. */
  lemma {:induction false} CountAfterUpdate(steps: seq<Step>, i: nat, d: Step, approverId: string, status: Option<ApprovalStatus>)
    requires i < |steps|
    ensures CountSteps(steps[i := d], approverId, status) + (if Counted(steps[i], approverId, status) then 1 else 0)
         == CountSteps(steps, approverId, status) + (if Counted(d, approverId, status) then 1 else 0)
  {
    if i == 0 {
      assert steps[i := d][1..] == steps[1..];
    } else {
      CountAfterUpdate(steps[1..], i - 1, d, approverId, status);
      assert steps[i := d][1..] == steps[1..][i - 1 := d];
    }
  }

  datatype Statistics = Statistics(total: nat, pending: nat, approved: nat, rejected: nat)

  /** Every step of the approver has exactly one of the four statuses, so the total splits into them. */
  lemma {:induction false} CountsPartition(steps: seq<Step>, approverId: string)
    ensures CountSteps(steps, approverId, None) ==
      CountSteps(steps, approverId, Some(Pending)) + CountSteps(steps, approverId, Some(ApprovalStatus.Approved))
      + CountSteps(steps, approverId, Some(ApprovalStatus.Rejected)) + CountSteps(steps, approverId, Some(ApprovalStatus.SentBack))
  {
    if |steps| > 0 {
      CountsPartition(steps[1..], approverId);
    }
  }

  /** `get_approver_statistics`: sent-back steps are counted in the total only. */
  function GetApproverStatistics(db: Db, approverId: string): (r: Statistics)
    ensures r.total == CountSteps(db.steps, approverId, None)
    ensures r.pending == CountSteps(db.steps, approverId, Some(Pending))
    ensures r.approved == CountSteps(db.steps, approverId, Some(ApprovalStatus.Approved))
    ensures r.rejected == CountSteps(db.steps, approverId, Some(ApprovalStatus.Rejected))
    ensures r.total >= r.pending + r.approved + r.rejected
    ensures r.total - (r.pending + r.approved + r.rejected) == CountSteps(db.steps, approverId, Some(ApprovalStatus.SentBack))
  {
    CountsPartition(db.steps, approverId);
    Statistics(CountSteps(db.steps, approverId, None), CountSteps(db.steps, approverId, Some(Pending)),
               CountSteps(db.steps, approverId, Some(ApprovalStatus.Approved)),
               CountSteps(db.steps, approverId, Some(ApprovalStatus.Rejected)))
  }

  /** The pending count of the statistics is the number of steps the pending list would show without its cut-off. */
  lemma {:induction false} PendingCountMatchesList(steps: seq<Step>, approverId: string)
    ensures CountSteps(steps, approverId, Some(Pending)) == |Seqs.Filter(steps, (s: Step) => PendingFor(s, approverId))|
  {
    if |steps| > 0 {
      PendingCountMatchesList(steps[1..], approverId);
    }
  }

  /** A decision moves one of the approver's steps out of the pending count and into the count of
      its new status; the total stays. */
  lemma DecisionMovesCounts(db: Db, workflowId: string, approverId: string, action: ApprovalAction,
                            comments: Option<string>, now: Time)
    requires ProcessApproval(db, workflowId, approverId, action, comments, now).Success?
    ensures
      var before := GetApproverStatistics(db, approverId);
      var after := GetApproverStatistics(ProcessApproval(db, workflowId, approverId, action, comments, now).value.db, approverId);
      && after.total == before.total
      && after.pending + 1 == before.pending
      && (action == Approve ==> after.approved == before.approved + 1 && after.rejected == before.rejected)
      && (action == Reject ==> after.rejected == before.rejected + 1 && after.approved == before.approved)
      && (action == SendBack ==> after.approved == before.approved && after.rejected == before.rejected)
  {
    var r := ProcessApproval(db, workflowId, approverId, action, comments, now).value;
    var i := StepIndex(db.steps, workflowId).value;
    CountAfterUpdate(db.steps, i, r.step, approverId, None);
    CountAfterUpdate(db.steps, i, r.step, approverId, Some(Pending));
    CountAfterUpdate(db.steps, i, r.step, approverId, Some(ApprovalStatus.Approved));
    CountAfterUpdate(db.steps, i, r.step, approverId, Some(ApprovalStatus.Rejected));
  }

  /** Approving the last undecided step of a section completes it: section 1 moves the NFA to
      `section1_approved`, section 2 queues the PDF generation. */
  lemma LastApprovalCompletesSection(db: Db, workflowId: string, approverId: string, comments: Option<string>, now: Time)
    requires ProcessApproval(db, workflowId, approverId, Approve, comments, now).Success?
    requires
      var i := StepIndex(db.steps, workflowId).value;
      var w := db.steps[i];
      && |Seqs.Filter(db.steps, (s: Step) => InSection(s, w.nfaId, w.section))| <= 100
      && forall k :: 0 <= k < |db.steps| && k != i && InSection(db.steps[k], w.nfaId, w.section) ==>
           db.steps[k].status == ApprovalStatus.Approved
    ensures
      var w := db.steps[StepIndex(db.steps, workflowId).value];
      var r := ProcessApproval(db, workflowId, approverId, Approve, comments, now).value;
      && (w.section == 1 && FindNfa(db, w.nfaId).Some? ==>
            FindNfa(r.db, w.nfaId).value.status == Section1Approved
            && FindNfa(r.db, w.nfaId).value.currentStage == "coordinator_processing")
      && (w.section == 2 ==> r.effects == [GeneratePdf(w.nfaId)])
  {
    var i := StepIndex(db.steps, workflowId).value;
    var w := db.steps[i];
    var r := ProcessApproval(db, workflowId, approverId, Approve, comments, now).value;
    SectionApprovedAfter(db.steps, i, r.step, w.nfaId, w.section);
    var c := CheckSectionCompletion(db.(steps := db.steps[i := r.step]), w.nfaId, w.section, now);
    assert r.db == c.db && r.effects == c.effects;
  }

  /** Recording an approval on the one step of a section still undecided leaves the section complete. */
  lemma SectionApprovedAfter(steps: seq<Step>, i: nat, d: Step, nfaId: string, section: int)
    requires i < |steps| && InSection(steps[i], nfaId, section) && InSection(d, nfaId, section)
    requires d.status == ApprovalStatus.Approved
    requires |Seqs.Filter(steps, (s: Step) => InSection(s, nfaId, section))| <= 100
    requires forall k :: 0 <= k < |steps| && k != i && InSection(steps[k], nfaId, section) ==>
               steps[k].status == ApprovalStatus.Approved
    ensures AllApproved(SectionSteps(steps[i := d], nfaId, section))
  {
    Seqs.FilterUpdateLength(steps, (s: Step) => InSection(s, nfaId, section), i, d);
    SectionCompleteIffAllApproved(steps[i := d], nfaId, section);
  }

  /** Every step a submission stores is pending, belongs to its approver and to the submitted
      section, and that approver can act on it at once. */
  lemma SubmittedStepsAreActionable(db: Db, r: NfaService.Submission, nfaId: string, section: int, status: NfaStatus,
                                    stage: string, approvers: seq<ApproverEntry>, ids: nat -> string, now: Time,
                                    k: nat, action: ApprovalAction, comments: Option<string>, t: Time)
    requires NfaService.SubmittedAs(db, r, nfaId, section, status, stage, approvers, ids, now)
    requires r.outcome.Success? && UniqueStepIds(r.db.steps)
    requires k < |approvers|
    ensures |db.steps| + k < |r.db.steps| && approvers[k].userId.Some?
    ensures
      var s := r.db.steps[|db.steps| + k];
      && s.status == Pending && InSection(s, nfaId, section) && s.approverId == approvers[k].userId.value
      && ProcessApproval(r.db, s.id, s.approverId, action, comments, t).Success?
  {
    var created := ApprovalSteps.CreateApprovalWorkflows(nfaId, section, approvers, ids, now);
    assert created.Success?;
    assert ApprovalSteps.Complete(approvers[k]);
    assert r.db.steps[|db.steps| + k] == created.value[k];
    AnyPendingStepIsActionable(r.db, |db.steps| + k, action, comments, t);
  }
}

=== FILE: approval_steps.dfy ===
/** Creation of the approval steps of one section
    (backend/services/approval_service.py, `create_approval_workflows`). */
module ApprovalSteps {
  import opened Wrappers
  import opened Schemas
  import opened Records
  import opened Http

  /** The entry carries the two keys that are read with `approver[...]`. */
  predicate Complete(a: ApproverEntry) {
    a.userId.Some? && a.name.Some?
  }

  /** The step one approver entry turns into: pending and undecided, with the
      entry's sequence (0 when it has none) and designation ("" when it has none). */
  function NewStep(id: string, nfaId: string, section: int, a: ApproverEntry, now: Time): (s: Step)
    requires Complete(a)
    ensures s.id == id && s.nfaId == nfaId && s.section == section && s.createdAt == now
    ensures s.approverId == a.userId.value && s.approverName == a.name.value
    ensures a.sequence.Some? ==> s.sequence == a.sequence.value
    ensures a.sequence.None? ==> s.sequence == 0
    ensures a.designation.Some? ==> s.approverDesignation == a.designation.value
    ensures a.designation.None? ==> s.approverDesignation == ""
    ensures s.status == Pending && s.action.None? && s.comments.None? && s.actionTimestamp.None?
  {
    Step(id, nfaId, section, a.sequence.GetOr(0), a.userId.value, a.name.value, a.designation.GetOr(""),
         Pending, None, None, None, now)
  }

  /** The `KeyError` a missing `user_id` or `name` raises. It escapes every handler. */
  const MissingKey: ServiceError := InternalError("KeyError")

  /** One pending step per approver, in list order; `ids(k)` is the identifier drawn for the k-th.
      An entry without `user_id` or `name` raises before anything is inserted. */
  function CreateApprovalWorkflows(nfaId: string, section: int, approvers: seq<ApproverEntry>,
                                   ids: nat -> string, now: Time): (r: Result<seq<Step>, ServiceError>)
    ensures r.Success? <==> forall k :: 0 <= k < |approvers| ==> Complete(approvers[k])
    ensures r.Failure? ==> r.error == MissingKey
    ensures r.Success? ==> |r.value| == |approvers|
    ensures r.Success? ==> forall k :: 0 <= k < |r.value| ==> r.value[k] == NewStep(ids(k), nfaId, section, approvers[k], now)
  {
    if forall k :: 0 <= k < |approvers| ==> Complete(approvers[k]) then
      Success(seq(|approvers|, k requires 0 <= k < |approvers| => NewStep(ids(k), nfaId, section, approvers[k], now)))
    else Failure(MissingKey)
  }

  /** `insert_many`, skipped when there is nothing to insert (which leaves the store as it is either way). */
  function InsertSteps(db: Db, steps: seq<Step>): (r: Db)
    ensures r.steps == db.steps + steps
    ensures r.nfas == db.nfas && r.users == db.users && r.attachments == db.attachments && r.vendors == db.vendors
  {
    if |steps| > 0 then db.(steps := db.steps + steps) else db
  }

  /** `create_approval_workflows` against the store: the new steps are appended, or, when an entry
      lacks a key, nothing is written and the error is raised. */
  function AddWorkflows(db: Db, nfaId: string, section: int, approvers: seq<ApproverEntry>,
                        ids: nat -> string, now: Time): (r: Result<Db, ServiceError>)
    ensures r.Success? <==> CreateApprovalWorkflows(nfaId, section, approvers, ids, now).Success?
    ensures r.Failure? ==> r.error == MissingKey
    ensures r.Success? ==>
      && r.value.steps == db.steps + CreateApprovalWorkflows(nfaId, section, approvers, ids, now).value
      && r.value.nfas == db.nfas && OthersUnchanged(r.value, db)
  {
    var steps :- CreateApprovalWorkflows(nfaId, section, approvers, ids, now);
    Success(InsertSteps(db, steps))
  }
}

=== FILE: approvals_page.dfy ===
/** The client-side half of an approval action (frontend/src/pages/Approvals.js): the dialog
    state, the rule that a rejection needs a comment, and the request body the page sends. */
module ApprovalsPage {
  import opened Wrappers
  import opened Schemas
  import opened Records
  import opened Http
  import Text
  import ApprovalService
  import ApprovalRoutes
  import ApprovalSteps

  /** The approval the dialog was opened for, with the action its button chose. */
  datatype Selection = Selection(item: ApprovalService.PendingItem, action: ApprovalAction)

  /** The page state the action dialog reads and writes. Closing the dialog keeps the selection. */
  datatype PageState = PageState(selection: Option<Selection>, dialogOpen: bool, comments: string, submitting: bool)

  const Initial := PageState(None, false, "", false)

  /** What pressing confirm leads to. */
  datatype Outcome =
    | NoOp                                                   // nothing selected
    | CommentRequired                                        // the "Comments are required for rejection" toast
    | Send(workflowId: string, body: ApprovalRoutes.ActionRequest)

  /** `handleAction`: opens the dialog for one approval and action with an empty comment box. */
  function HandleAction(st: PageState, item: ApprovalService.PendingItem, action: ApprovalAction): (r: PageState)
    ensures r.selection == Some(Selection(item, action)) && r.dialogOpen
    ensures r.comments == ""
    ensures r.submitting == st.submitting
  {
    st.(selection := Some(Selection(item, action)), comments := "", dialogOpen := true)
  }

  /** The comment the request carries: the trimmed text, or null when nothing but white space was typed. */
  function PayloadComment(comments: string): (c: Option<string>)
    ensures c.None? <==> Text.IsBlank(comments)
    ensures c.Some? ==> c.value == Text.Trim(comments) && c.value != ""
  {
    Text.TrimEmptyIffBlank(comments);
    if Text.Trim(comments) == "" then None else Some(Text.Trim(comments))
  }

  /** Whether the action needs a comment before the page will send it. */
  predicate NeedsComment(action: ApprovalAction, comments: string) {
    action == Reject && Text.Trim(comments) == ""
  }

  /** `submitAction`: nothing without a selection, a toast for a rejection with a blank comment,
      and otherwise a request for the selected step. */
  function SubmitAction(st: PageState): (o: Outcome)
    ensures st.selection.None? <==> o.NoOp?
    ensures o.CommentRequired? <==>
      st.selection.Some? && st.selection.value.action == Reject && Text.IsBlank(st.comments)
    ensures o.Send? ==>
      && o.workflowId == st.selection.value.item.step.id
      && o.body.action == st.selection.value.action
      && o.body.comments == PayloadComment(st.comments)
  {
    Text.TrimEmptyIffBlank(st.comments);
    match st.selection
    case None => NoOp
    case Some(sel) =>
      if NeedsComment(sel.action, st.comments) then CommentRequired
      else Send(sel.item.step.id, ApprovalRoutes.ActionRequest(sel.action, PayloadComment(st.comments)))
  }

  /** The confirm button is greyed out while a request is in flight or while a rejection lacks a comment. */
  function ConfirmDisabled(st: PageState): (d: bool)
    ensures !st.submitting && st.selection.Some? && st.selection.value.action != Reject ==> !d
    ensures st.selection.Some? && st.selection.value.action == Reject ==>
      (d <==> st.submitting || Text.IsBlank(st.comments))
  {
    Text.TrimEmptyIffBlank(st.comments);
    st.submitting || (st.selection.Some? && NeedsComment(st.selection.value.action, st.comments))
  }

  /** An enabled confirm button, with an approval selected, always sends a request. */
  lemma EnabledConfirmSends(st: PageState)
    requires st.selection.Some? && !ConfirmDisabled(st)
    ensures SubmitAction(st).Send?
  {
  }

  /** A request the page sends never carries an empty or padded comment, and a rejection always carries one. */
  lemma SentCommentIsTrimmed(st: PageState)
    requires SubmitAction(st).Send?
    ensures var b := SubmitAction(st).body;
      && (b.comments.Some? ==> b.comments.value != "" && Text.Trim(b.comments.value) == b.comments.value)
      && (b.action == Reject ==> b.comments.Some?)
  {
    if SubmitAction(st).body.comments.Some? {
      Text.TrimIdempotent(st.comments);
    }
  }

  /** A rejection made through the page is recorded on the step with a non-empty comment. */
  lemma PageRejectionsCarryComments(st: PageState, db: Db, u: CurrentUser, now: Time)
    requires SubmitAction(st).Send? && SubmitAction(st).body.action == Reject
    requires ApprovalRoutes.ProcessApprovalRoute(db, u, SubmitAction(st).workflowId, SubmitAction(st).body, now).Success?
    ensures var a := ApprovalRoutes.ProcessApprovalRoute(db, u, SubmitAction(st).workflowId, SubmitAction(st).body, now).value;
      a.step.status == ApprovalStatus.Rejected && a.step.comments.Some? && a.step.comments.value != ""
  {
    Text.TrimEmptyIffBlank(st.comments);
  }

  /** The comment rule is the page's alone: the endpoint records a rejection without any comment. */
  lemma EndpointAcceptsBareRejection(db: Db, u: CurrentUser, workflowId: string, now: Time)
    requires ApprovalService.Refusal(db, workflowId, u.userId).None?
    ensures var r := ApprovalRoutes.ProcessApprovalRoute(db, u, workflowId, ApprovalRoutes.ActionRequest(Reject, None), now);
      r.Success? && r.value.step.status == ApprovalStatus.Rejected && r.value.step.comments.None?
  {
  }

  /** The position a card shows is the step's stored sequence counted from one. */
  function Position(step: Step): (p: int)
    ensures p - 1 == step.sequence
  {
    step.sequence + 1
  }

  /** Steps created from approver entries without a sequence are all shown at position 1
      (when the entries carry the keys the creation reads, so that steps are created at all). */
  lemma UnnumberedApproversShareFirstPosition(nfaId: string, section: int, approvers: seq<ApproverEntry>,
                                              ids: nat -> string, now: Time, k: nat)
    requires k < |approvers| && approvers[k].sequence.None?
    ensures var steps := ApprovalSteps.CreateApprovalWorkflows(nfaId, section, approvers, ids, now);
      steps.Success? ==> k < |steps.value| && Position(steps.value[k]) == 1
  {
  }

  /** The title of a pending card, `NFA {nfa.nfa_number || #{nfa.id?.substring(0, 8)}}`. A card
      whose entry carries no NFA reads `approval.nfa || {}`, so the id is undefined and prints so. */
  function CardTitle(item: ApprovalService.PendingItem): (t: string)
    ensures |t| >= 4 && t[..4] == "NFA "
    ensures item.nfa.None? ==> t == "NFA #undefined"
    ensures item.nfa.Some? && item.nfa.value.nfaNumber.Assigned? && item.nfa.value.nfaNumber.value != "" ==>
      t[4..] == item.nfa.value.nfaNumber.value
    ensures item.nfa.Some? && !(item.nfa.value.nfaNumber.Assigned? && item.nfa.value.nfaNumber.value != "") ==>
      t[4..] == "#" + Text.Prefix(item.nfa.value.id, 8)
  {
    if item.nfa.None? then "NFA #undefined"
    else
      var n := item.nfa.value;
      "NFA " + (if n.nfaNumber.Assigned? && n.nfaNumber.value != "" then n.nfaNumber.value else "#" + Text.Prefix(n.id, 8))
  }

  /** Where "View Details" leads: `/nfa/${nfa.id}`, with "undefined" for a card without an NFA. */
  function CardLink(item: ApprovalService.PendingItem): (t: string)
    ensures |t| >= 5 && t[..5] == "/nfa/"
    ensures item.nfa.None? ==> t[5..] == "undefined"
    ensures item.nfa.Some? ==> t[5..] == item.nfa.value.id
  {
    "/nfa/" + (if item.nfa.Some? then item.nfa.value.id else "undefined")
  }

  /** The requestor a card shows; nothing when the entry carries no NFA. */
  function CardRequestor(item: ApprovalService.PendingItem): (r: Option<string>)
    ensures r.Some? <==> item.nfa.Some?
    ensures r.Some? ==> r.value == item.nfa.value.requestorName
  {
    if item.nfa.Some? then Some(item.nfa.value.requestorName) else None
  }

  /** As declared, the pending endpoint strips the NFA from every entry, so every card of the page
      is titled "NFA #undefined", names no requestor and links to `/nfa/undefined`, whatever the
      store holds. */
  lemma PendingCardsBlankAsWritten(db: Db, u: CurrentUser, k: nat)
    requires k < |ApprovalRoutes.PendingRouteAsWritten(db, u)|
    ensures var item := ApprovalRoutes.PendingRouteAsWritten(db, u)[k];
      && CardTitle(item) == "NFA #undefined"
      && CardRequestor(item).None?
      && CardLink(item) == "/nfa/undefined"
  {
  }

  /** With the NFA kept in the answer, a card whose NFA is stored names that NFA's requestor and
      links to the NFA the step belongs to. */
  lemma PendingCardsShowTheirNfa(db: Db, u: CurrentUser, k: nat)
    requires k < |ApprovalRoutes.PendingRoute(db, u)|
    requires FindNfa(db, ApprovalRoutes.PendingRoute(db, u)[k].step.nfaId).Some?
    ensures var item := ApprovalRoutes.PendingRoute(db, u)[k];
      var n := FindNfa(db, item.step.nfaId).value;
      && CardLink(item) == "/nfa/" + item.step.nfaId
      && CardRequestor(item) == Some(n.requestorName)
      && (n.nfaNumber.Assigned? && n.nfaNumber.value != "" ==> CardTitle(item) == "NFA " + n.nfaNumber.value)
  {
    var item := ApprovalRoutes.PendingRoute(db, u)[k];
    assert item.nfa == FindNfa(db, item.step.nfaId);
  }
}

=== FILE: auth_routes.dfy ===
/** The sign-in endpoints (backend/api/routes/auth.py): registration, login with its token
    payload, and the caller's own profile. Token signing lives in `core.security`, which is not
    part of this model: the signer is a parameter. */
module AuthRoutes {
  import opened Wrappers
  import opened Schemas
  import opened Records
  import opened Http
  import AuthService

  /** `POST /register`: a rule violation is a 400 with its message, anything else a 500. */
  function RegisterError(e: ServiceError): (h: HttpError)
    ensures e.ValueError? ==> h == HttpError(BadRequest, e.message)
    ensures e.InternalError? ==> h == HttpError(InternalServerError, "Registration failed")
  {
    match e
    case ValueError(m) => HttpError(BadRequest, m)
    case InternalError(_) => HttpError(InternalServerError, "Registration failed")
  }

  function Register(db: Db, data: AuthService.UserCreate, hash: string -> string, id: string, now: Time)
    : (r: Result<AuthService.UserCreated, HttpError>)
    ensures r.Failure? <==> AuthService.UsernameTaken(db, data.username) || AuthService.EmailTaken(db, data.email)
    ensures r.Failure? ==> r.error.code == BadRequest
    ensures AuthService.UsernameTaken(db, data.username) ==> r == Failure(HttpError(BadRequest, "Username already exists"))
    ensures r.Success? ==> r.value == AuthService.CreateUser(db, data, hash, id, now).value
  {
    match AuthService.CreateUser(db, data, hash, id, now)
    case Failure(e) => Failure(RegisterError(e))
    case Success(c) => Success(c)
  }

  /** What the access token carries. */
  datatype TokenPayload = TokenPayload(userId: string, username: string, roles: seq<UserRole>)

  datatype LoginResponse = LoginResponse(accessToken: string, tokenType: string, user: UserView)

  /** `POST /login`: a failed sign-in of any kind is the same 401; otherwise a bearer token
      for exactly the account's id, username and roles. */
  function Login(db: Db, username: string, password: string, verify: (string, string) -> bool,
                 sign: TokenPayload -> string): (r: Result<LoginResponse, HttpError>)
    ensures r.Failure? <==> AuthService.AuthenticateUser(db, username, password, verify).None?
    ensures r.Failure? ==> r.error == HttpError(Unauthorized, "Incorrect username or password")
    ensures r.Success? ==>
      var u := AuthService.AuthenticateUser(db, username, password, verify).value;
      && r.value.user == u
      && r.value.accessToken == sign(TokenPayload(u.id, u.username, u.roles))
      && r.value.tokenType == "bearer"
  {
    match AuthService.AuthenticateUser(db, username, password, verify)
    case None => Failure(HttpError(Unauthorized, "Incorrect username or password"))
    case Some(u) => Success(LoginResponse(sign(TokenPayload(u.id, u.username, u.roles)), "bearer", u))
  }

  /** The three reasons a sign-in fails cannot be told apart from the answer. */
  lemma LoginFailuresLookAlike(db: Db, username: string, password: string, verify: (string, string) -> bool,
                               sign: TokenPayload -> string)
    requires AuthService.AuthenticationOutcome(db, username, password, verify).Failure?
    ensures Login(db, username, password, verify, sign) == Failure(HttpError(Unauthorized, "Incorrect username or password"))
  {
  }

  /** `GET /me`: the caller's own account, or 404 once it is gone. */
  function Me(db: Db, u: CurrentUser): (r: Result<UserView, HttpError>)
    ensures r.Failure? <==> forall k :: 0 <= k < |db.users| ==> db.users[k].id != u.userId
    ensures r.Failure? ==> r.error == HttpError(NotFound, "User not found")
    ensures r.Success? ==> r.value.id == u.userId && r.value == FindUserView(db, u.userId).value
  {
    match FindUserView(db, u.userId)
    case None => Failure(HttpError(NotFound, "User not found"))
    case Some(v) => Success(v)
  }
}

=== FILE: auth_service.dfy ===
/** Accounts (backend/services/auth_service.py): registration with unique usernames and e-mail
    addresses, password authentication, and the start-up superadmin. Password hashing and
    verification live in `core.security`, which is not part of this model: they are parameters. */
module AuthService {
  import opened Wrappers
  import opened Schemas
  import opened Records
  import opened Http

  /** A registration form; `roles` is `None` when the form leaves the key out. */
  datatype UserCreate = UserCreate(
    username: string,
    email: string,
    password: string,
    name: string,
    designation: Option<string>,
    department: Option<string>,
    location: Option<string>,
    userFunction: Option<string>,
    roles: Option<seq<UserRole>>)

  datatype UserCreated = UserCreated(db: Db, user: UserView)

  predicate UsernameTaken(db: Db, username: string) {
    exists k :: 0 <= k < |db.users| && db.users[k].username == username
  }

  predicate EmailTaken(db: Db, email: string) {
    exists k :: 0 <= k < |db.users| && db.users[k].email == email
  }

  /** The stored document for a new account: active, with the hash and never the password itself. */
  function NewUser(data: UserCreate, hash: string -> string, id: string, now: Time): (u: User)
    ensures u.id == id && u.username == data.username && u.email == data.email && u.name == data.name
    ensures u.passwordHash == hash(data.password) && u.plainPassword.None?
    ensures data.roles.Some? ==> u.roles == data.roles.value
    ensures data.roles.None? ==> u.roles == DefaultRoles && u.roles == [Requestor]
    ensures u.isActive == Some(true)
    ensures u.createdAt == now && u.updatedAt == now
  {
    User(id, data.username, data.email, hash(data.password), data.name, data.designation, data.department,
         data.location, data.userFunction, data.roles.GetOr(DefaultRoles), Some(true), None, now, now)
  }

  /** `create_user`: the username is checked before the e-mail address; the answer omits the hash. */
  function CreateUser(db: Db, data: UserCreate, hash: string -> string, id: string, now: Time)
    : (r: Result<UserCreated, ServiceError>)
    ensures UsernameTaken(db, data.username) ==> r == Failure(ValueError("Username already exists"))
    ensures !UsernameTaken(db, data.username) && EmailTaken(db, data.email) ==>
      r == Failure(ValueError("Email already exists"))
    ensures r.Success? <==> !UsernameTaken(db, data.username) && !EmailTaken(db, data.email)
    ensures r.Success? ==>
      && r.value.db == db.(users := db.users + [NewUser(data, hash, id, now)])
      && r.value.user == View(NewUser(data, hash, id, now))
  {
    if exists k :: 0 <= k < |db.users| && db.users[k].username == data.username then
      Failure(ValueError("Username already exists"))
    else if exists k :: 0 <= k < |db.users| && db.users[k].email == data.email then
      Failure(ValueError("Email already exists"))
    else
      var u := NewUser(data, hash, id, now);
      Success(UserCreated(db.(users := db.users + [u]), View(u)))
  }

  /** No two accounts share a username (the store also holds a unique index on it). */
  predicate UniqueUsernames(users: seq<User>) {
    forall i, j :: 0 <= i < j < |users| ==> users[i].username != users[j].username
  }

  /** Registration keeps usernames unique, and a registered username is then refused. */
  lemma CreateKeepsUsernamesUnique(db: Db, data: UserCreate, hash: string -> string, id: string, now: Time,
                                   again: UserCreate, id2: string, later: Time)
    requires UniqueUsernames(db.users)
    requires CreateUser(db, data, hash, id, now).Success?
    requires again.username == data.username
    ensures UniqueUsernames(CreateUser(db, data, hash, id, now).value.db.users)
    ensures CreateUser(CreateUser(db, data, hash, id, now).value.db, again, hash, id2, later)
            == Failure(ValueError("Username already exists"))
  {
    var us := CreateUser(db, data, hash, id, now).value.db.users;
    forall i, j | 0 <= i < j < |us| ensures us[i].username != us[j].username {
      if j == |db.users| {
        assert us[i] == db.users[i];
      }
    }
    assert us[|db.users|].username == again.username;
  }

  /** Why a sign-in attempt yields no user. */
  datatype Rejection = UnknownUsername | WrongPassword | Deactivated

  /** The first account with that username, as `find_one` returns it. */
  function UserByName(users: seq<User>, username: string): (r: Option<User>)
    ensures r.Some? <==> exists k :: 0 <= k < |users| && users[k].username == username
    ensures r.Some? ==> r.value in users && r.value.username == username
  {
    if |users| == 0 then None
    else if users[0].username == username then Some(users[0])
    else UserByName(users[1..], username)
  }

  /** The checks of `authenticate_user`, in order: a missing `is_active` counts as active. A stored
      explicit null would also be refused by `not user.get("is_active", True)`; no code path of the
      application writes one, and `Option` cannot tell a null from a missing key, so it is not
      represented. */
  function AuthenticationOutcome(db: Db, username: string, password: string,
                                 verify: (string, string) -> bool): (r: Result<User, Rejection>)
    ensures r.Success? ==> Some(r.value) == UserByName(db.users, username)
    ensures r.Success? ==> verify(password, r.value.passwordHash) && r.value.isActive != Some(false)
    ensures r == Failure(UnknownUsername) <==> UserByName(db.users, username).None?
    ensures r == Failure(WrongPassword) <==>
      UserByName(db.users, username).Some? && !verify(password, UserByName(db.users, username).value.passwordHash)
    ensures r == Failure(Deactivated) <==>
      && UserByName(db.users, username).Some?
      && verify(password, UserByName(db.users, username).value.passwordHash)
      && UserByName(db.users, username).value.isActive == Some(false)
  {
    match UserByName(db.users, username)
    case None => Failure(UnknownUsername)
    case Some(u) =>
      if !verify(password, u.passwordHash) then Failure(WrongPassword)
      else if u.isActive == Some(false) then Failure(Deactivated)
      else Success(u)
  }

  /** `authenticate_user`: the account without its hash, or nothing. */
  function AuthenticateUser(db: Db, username: string, password: string, verify: (string, string) -> bool)
    : (r: Option<UserView>)
    ensures r.Some? <==> AuthenticationOutcome(db, username, password, verify).Success?
    ensures r.Some? ==> r.value == View(AuthenticationOutcome(db, username, password, verify).value)
    ensures r.Some? ==> r.value.username == username
  {
    match AuthenticationOutcome(db, username, password, verify)
    case Failure(_) => None
    case Success(u) => Some(View(u))
  }

  /** An account registered without a clash signs in with its own password. */
  lemma RegisteredUserCanSignIn(db: Db, data: UserCreate, hash: string -> string, verify: (string, string) -> bool,
                                id: string, now: Time)
    requires CreateUser(db, data, hash, id, now).Success?
    requires verify(data.password, hash(data.password))
    ensures AuthenticateUser(CreateUser(db, data, hash, id, now).value.db, data.username, data.password, verify)
            == Some(CreateUser(db, data, hash, id, now).value.user)
  {
    UserByNameAppend(db.users, NewUser(data, hash, id, now));
  }

  lemma {:induction false} UserByNameAppend(users: seq<User>, u: User)
    requires forall k :: 0 <= k < |users| ==> users[k].username != u.username
    ensures UserByName(users + [u], u.username) == Some(u)
  {
    if |users| > 0 {
      assert (users + [u])[1..] == users[1..] + [u];
      UserByNameAppend(users[1..], u);
    }
  }

  /** The start-up account settings. */
  datatype SuperadminConfig = SuperadminConfig(username: string, password: string, email: string)

  /** `create_superadmin`: nothing when the username exists, otherwise a fixed superadmin profile. */
  function CreateSuperadmin(db: Db, cfg: SuperadminConfig, hash: string -> string, id: string, now: Time): (r: Db)
    ensures UsernameTaken(db, cfg.username) ==> r == db
    ensures !UsernameTaken(db, cfg.username) ==>
      && |r.users| == |db.users| + 1 && r.users[..|db.users|] == db.users
      && r.nfas == db.nfas && r.steps == db.steps && r.vendors == db.vendors && r.attachments == db.attachments
    ensures !UsernameTaken(db, cfg.username) ==>
      var s := r.users[|db.users|];
      && s.username == cfg.username && s.email == cfg.email && s.roles == [Superadmin]
      && s.passwordHash == hash(cfg.password) && s.isActive == Some(true) && s.name == "Super Administrator"
    ensures UsernameTaken(r, cfg.username)
  {
    if exists k :: 0 <= k < |db.users| && db.users[k].username == cfg.username then db
    else
      var s := User(id, cfg.username, cfg.email, hash(cfg.password), "Super Administrator",
                    Some("System Administrator"), Some("IT"), Some("HQ"), Some("Administration"),
                    [Superadmin], Some(true), None, now, now);
      var r := db.(users := db.users + [s]);
      assert r.users[|db.users|].username == cfg.username;
      r
  }

  /** Running the start-up step again changes nothing, whatever id and time it is given. */
  lemma CreateSuperadminIdempotent(db: Db, cfg: SuperadminConfig, hash: string -> string,
                                   id: string, now: Time, id2: string, later: Time)
    ensures var once := CreateSuperadmin(db, cfg, hash, id, now);
      CreateSuperadmin(once, cfg, hash, id2, later) == once
  {
  }
}

=== FILE: grouping.dfy ===
/** The `$group` stage of an aggregation: the distinct values of a key, in the order they first
    appear, and how many documents carry each. */
module Grouping {
  import Seqs

  /** The distinct keys of the elements, in order of first appearance. */
  function Keys<T, K(==)>(s: seq<T>, key: T -> K): (ks: seq<K>)
    ensures Seqs.Distinct(ks)
    ensures forall i :: 0 <= i < |s| ==> key(s[i]) in ks
    ensures forall j :: 0 <= j < |ks| ==> exists i :: 0 <= i < |s| && key(s[i]) == ks[j]
    ensures |ks| <= |s|
  {
    if |s| == 0 then []
    else
      var t := s[..|s| - 1];
      var prev := Keys(t, key);
      assert forall i :: 0 <= i < |t| ==> t[i] == s[i];
      if key(s[|s| - 1]) in prev then prev
      else
        assert forall i :: 0 <= i < |prev| ==> prev[i] != key(s[|s| - 1]);
        prev + [key(s[|s| - 1])]
  }

  /** How many elements carry key `k`. */
  function CountKey<T, K(==)>(s: seq<T>, key: T -> K, k: K): (n: nat)
    ensures n <= |s|
    ensures n == 0 <==> forall i :: 0 <= i < |s| ==> key(s[i]) != k
  {
    if |s| == 0 then 0
    else
      var t := s[..|s| - 1];
      assert forall i :: 0 <= i < |t| ==> t[i] == s[i];
      CountKey(t, key, k) + (if key(s[|s| - 1]) == k then 1 else 0)
  }

  /** The counts of the listed keys, added up. */
  function SumCounts<T, K(==)>(s: seq<T>, key: T -> K, ks: seq<K>): nat {
    if |ks| == 0 then 0
    else SumCounts(s, key, ks[..|ks| - 1]) + CountKey(s, key, ks[|ks| - 1])
  }

  /** How often `k` occurs in `ks`. */
  function Occurrences<K(==)>(ks: seq<K>, k: K): nat {
    if |ks| == 0 then 0
    else Occurrences(ks[..|ks| - 1], k) + (if ks[|ks| - 1] == k then 1 else 0)
  }

  lemma {:induction false} OccurrencesDistinct<K>(ks: seq<K>, k: K)
    requires Seqs.Distinct(ks)
    ensures Occurrences(ks, k) == if k in ks then 1 else 0
  {
    if |ks| > 0 {
      var init := ks[..|ks| - 1];
      assert Seqs.Distinct(init) by {
        forall i, j | 0 <= i < j < |init| ensures init[i] != init[j] {
          assert init[i] == ks[i] && init[j] == ks[j];
        }
      }
      OccurrencesDistinct(init, k);
      assert ks == init + [ks[|ks| - 1]];
      if ks[|ks| - 1] == k {
        assert k !in init by {
          forall i | 0 <= i < |init| ensures init[i] != k {
            assert init[i] == ks[i];
          }
        }
      }
    }
  }

  /** One more element raises the total by the number of times its key is listed. */
  lemma {:induction false} SumCountsStep<T, K>(s: seq<T>, key: T -> K, x: T, ks: seq<K>)
    ensures SumCounts(s + [x], key, ks) == SumCounts(s, key, ks) + Occurrences(ks, key(x))
  {
    if |ks| > 0 {
      SumCountsStep(s, key, x, ks[..|ks| - 1]);
      assert (s + [x])[..|s + [x]| - 1] == s;
    }
  }

  /** Every element is counted under exactly one key: the group counts add up to the whole. */
  lemma {:induction false} GroupsPartition<T, K>(s: seq<T>, key: T -> K)
    ensures SumCounts(s, key, Keys(s, key)) == |s|
  {
    if |s| > 0 {
      var t := s[..|s| - 1];
      var x := s[|s| - 1];
      assert s == t + [x];
      var prev := Keys(t, key);
      GroupsPartition(t, key);
      if key(x) in prev {
        SumCountsStep(t, key, x, prev);
        OccurrencesDistinct(prev, key(x));
      } else {
        var ks := prev + [key(x)];
        assert Keys(s, key) == ks;
        assert ks[..|ks| - 1] == prev;
        SumCountsStep(t, key, x, prev);
        OccurrencesDistinct(prev, key(x));
        assert forall i :: 0 <= i < |t| ==> key(t[i]) != key(x);
      }
    }
  }
}

=== FILE: header.dfy ===
/** The page header (frontend/src/components/layout/Header.js): the avatar initials, the breadcrumb
    trail or title, and the unread-notification badge. */
module Header {
  import opened Wrappers
  import opened Records
  import Text
  import Notifications

  /** The first character of every non-empty word, in order; an empty word adds nothing. */
  function FirstLetters(words: seq<string>): (r: string)
    ensures |r| <= |words|
  {
    if |words| == 0 then ""
    else (if |words[0]| > 0 then [words[0][0]] else "") + FirstLetters(words[1..])
  }

  /** `getInitials`: "U" for a missing or empty name; otherwise the first letters of the
      space-separated words, upper-cased, at most two. */
  function Initials(name: string): (r: string)
    ensures name == "" ==> r == "U"
    ensures |r| <= 2
  {
    if name == "" then "U"
    else Text.Prefix(Text.Upper(FirstLetters(Text.Split(name, ' '))), 2)
  }

  /** Two words give their two first letters, upper-cased. */
  lemma TwoWordInitials(first: string, last: string)
    requires |first| > 0 && |last| > 0 && ' ' !in first && ' ' !in last
    ensures Initials(first + " " + last) == [Text.UpperChar(first[0]), Text.UpperChar(last[0])]
  {
    Text.SplitNoSep(last, ' ');
    Text.SplitAfter(first, ' ', last);
    assert first + " " + last == first + [' '] + last;
    var words := Text.Split(first + " " + last, ' ');
    assert words == [first, last];
    assert words[1..] == [last];
    assert FirstLetters(words) == [first[0], last[0]];
  }

  /** Only the first two words count: a third adds nothing. */
  lemma ThirdWordIgnored(a: string, b: string, c: string)
    requires |a| > 0 && |b| > 0 && |c| > 0 && ' ' !in a && ' ' !in b && ' ' !in c
    ensures Initials(a + " " + b + " " + c) == Initials(a + " " + b)
  {
    TwoWordInitials(a, b);
    Text.SplitNoSep(c, ' ');
    Text.SplitAfter(b, ' ', c);
    Text.SplitAfter(a, ' ', b + [' '] + c);
    assert a + " " + b + " " + c == a + [' '] + (b + [' '] + c);
    var words := Text.Split(a + " " + b + " " + c, ' ');
    assert words == [a, b, c];
    assert words[1..] == [b, c];
    assert [b, c][1..] == [c];
    assert FirstLetters([c]) == [c[0]];
    assert FirstLetters([b, c]) == [b[0], c[0]];
    assert FirstLetters(words) == [a[0], b[0], c[0]];
  }

  /** A name of spaces only is not empty, so it does not get "U", yet it has no word: the avatar
      is blank. */
  lemma BlankNameHasNoInitials()
    ensures Initials(" ") == ""
  {
    assert Text.Split(" ", ' ') == ["", ""] by {
      assert Text.Split(" "[1..], ' ') == [""];
    }
    assert FirstLetters(["", ""]) == "";
  }

  /** One breadcrumb; clicking it navigates only when it has a path. */
  datatype Crumb = Crumb(text: string, path: Option<string>)

  /** What the trail renders: crumbs, the last marked current, with a slash between neighbours. */
  datatype NavItem = CrumbItem(caption: string, current: bool) | Slash

  function Trail(cs: seq<Crumb>): (r: seq<NavItem>)
    ensures |cs| > 0 ==> |r| == 2 * |cs| - 1
    ensures |cs| == 0 ==> r == []
    ensures forall k :: 0 <= k < |r| ==> (r[k].Slash? <==> k % 2 == 1)
    ensures forall i :: 0 <= i < |cs| ==> r[2 * i] == CrumbItem(cs[i].text, i == |cs| - 1)
  {
    if |cs| == 0 then []
    else if |cs| == 1 then [CrumbItem(cs[0].text, true)]
    else
      var rest := Trail(cs[1..]);
      var r := [CrumbItem(cs[0].text, false), Slash] + rest;
      assert forall k :: 2 <= k < |r| ==> r[k] == rest[k - 2];
      assert forall i :: 1 <= i < |cs| ==> r[2 * i] == rest[2 * (i - 1)] && cs[i] == cs[1..][i - 1];
      r
  }

  /** How many slashes a rendering holds. */
  function Slashes(items: seq<NavItem>): nat {
    if |items| == 0 then 0 else (if items[0].Slash? then 1 else 0) + Slashes(items[1..])
  }

  /** How many rendered crumbs are marked current. */
  function CurrentCount(items: seq<NavItem>): nat {
    if |items| == 0 then 0 else (if items[0].CrumbItem? && items[0].current then 1 else 0) + CurrentCount(items[1..])
  }

  /** n crumbs are separated by n - 1 slashes, and exactly one of them is current. */
  lemma {:induction false} TrailShape(cs: seq<Crumb>)
    requires |cs| > 0
    ensures Slashes(Trail(cs)) == |cs| - 1
    ensures CurrentCount(Trail(cs)) == 1
  {
    if |cs| > 1 {
      TrailShape(cs[1..]);
      var r := Trail(cs);
      assert r[1..][1..] == Trail(cs[1..]);
    }
  }

  /** The left side of the header: the trail when there is one, the title otherwise. */
  datatype Left = TitleText(title: string) | Nav(items: seq<NavItem>)

  function HeaderLeft(title: string, cs: seq<Crumb>): (l: Left)
    ensures l.TitleText? <==> |cs| == 0
    ensures l.TitleText? ==> l.title == title
    ensures l.Nav? ==> l.items == Trail(cs)
  {
    if |cs| > 0 then Nav(Trail(cs)) else TitleText(title)
  }

  /** The bell's badge: the number of unread notices fetched, shown only when positive. */
  function UnreadBadge(fetched: seq<Notifications.UnreadNotice>): (b: Option<nat>)
    ensures b.Some? <==> |fetched| > 0
    ensures b.Some? ==> b.value == |fetched|
  {
    if |fetched| > 0 then Some(|fetched|) else None
  }

  /** The badge never shows more than ten, however many steps are waiting. */
  lemma BadgeAtMostTen(db: Db, u: CurrentUser)
    ensures var b := UnreadBadge(Notifications.GetUnread(db, u));
      b.Some? ==> 1 <= b.value <= 10
  {
  }
}

=== FILE: http.dfy ===
/** Errors as the services raise them and as the routes answer them. */
module Http {
  import opened Wrappers
  import opened Schemas
  import opened Records

  /** An `HTTPException`: a status code and its `detail` text. */
  datatype HttpError = HttpError(code: int, detail: string)

  const BadRequest: int := 400
  const Unauthorized: int := 401
  const Forbidden: int := 403
  const NotFound: int := 404
  const UnprocessableEntity: int := 422
  const InternalServerError: int := 500

  /** What a service raises: a `ValueError` for a rule the caller broke,
      anything else for a failure of the service itself. */
  datatype ServiceError = ValueError(message: string) | InternalError(message: string)

  /** The caller holds at least one of the listed roles. */
  predicate HasAnyRole(u: CurrentUser, allowed: seq<UserRole>) {
    exists r :: r in allowed && r in u.roles
  }

  /** The `require_role([...])` dependency: callers without any listed role are refused with 403.
      The dependency lives in `core.security`, which is not part of this model; its detail text is a placeholder. */
  function RequireRole(u: CurrentUser, allowed: seq<UserRole>): (r: Option<HttpError>)
    ensures r.None? <==> HasAnyRole(u, allowed)
    ensures r.Some? ==> r.value.code == Forbidden
  {
    if HasAnyRole(u, allowed) then None else Some(HttpError(Forbidden, "Insufficient permissions"))
  }

  /** A query parameter outside its declared range is refused by request validation. */
  function ValidationError(): HttpError {
    HttpError(UnprocessableEntity, "Validation error")
  }
}

=== FILE: my_nfas.dfy ===
/** The requestor's list of their own NFAs (frontend/src/pages/MyNFAs.js): the card title, the
    search box, the status filter and its options, the empty state and the results count. */
module MyNfas {
  import opened Wrappers
  import opened Schemas
  import opened Records
  import Seqs
  import Text

  /** The title of an NFA's card: its number when it has a non-empty one, else "NFA-" and the
      first eight characters of its id. */
  function DisplayName(n: Nfa): (t: string)
    ensures n.nfaNumber.Assigned? && n.nfaNumber.value != "" ==> t == n.nfaNumber.value
    ensures !(n.nfaNumber.Assigned? && n.nfaNumber.value != "") ==> t == "NFA-" + Text.Prefix(n.id, 8)
  {
    if n.nfaNumber.Assigned? && n.nfaNumber.value != "" then n.nfaNumber.value
    else "NFA-" + Text.Prefix(n.id, 8)
  }

  /** An NFA without a number is titled by its id, so two unnumbered NFAs whose ids differ in the
      first eight characters get different titles. */
  lemma UnnumberedTitlesFollowIds(a: Nfa, b: Nfa)
    requires !a.nfaNumber.Assigned? && !b.nfaNumber.Assigned?
    ensures DisplayName(a) == DisplayName(b) <==> Text.Prefix(a.id, 8) == Text.Prefix(b.id, 8)
  {
    if DisplayName(a) == DisplayName(b) {
      assert DisplayName(a)[4..] == Text.Prefix(a.id, 8);
      assert DisplayName(b)[4..] == Text.Prefix(b.id, 8);
    }
  }

  /** A field takes part in the search only when it holds non-empty text. */
  predicate TextMatches(field: Option<string>, term: string) {
    field.Some? && field.value != "" && Text.ContainsIgnoreCase(field.value, term)
  }

  function NumberText(n: NfaNumber): Option<string> {
    if n.Assigned? then Some(n.value) else None
  }

  /** The search box: number, subject or id contains the text, ignoring case. */
  predicate MatchesSearch(n: Nfa, term: string) {
    TextMatches(NumberText(n.nfaNumber), term) || TextMatches(n.section1.subjectItem, term) ||
    TextMatches(Some(n.id), term)
  }

  /** The status drop-down: every status, or one of them. */
  datatype StatusChoice = AllStatuses | Only(status: NfaStatus)

  predicate MatchesStatus(n: Nfa, c: StatusChoice) {
    c.AllStatuses? || n.status == c.status
  }

  /** The choices the drop-down offers: everything, or one of six statuses. */
  const Offered: seq<StatusChoice> := [AllStatuses, Only(Draft), Only(Section1Pending), Only(Section1Approved),
                                       Only(Section2Pending), Only(NfaStatus.Approved), Only(NfaStatus.Rejected)]

  /** A sent-back NFA, and one whose second section is approved, can only be found under "all". */
  lemma SomeStatusesNotOffered(n: Nfa, k: nat)
    requires n.status == NfaStatus.SentBack || n.status == Section2Approved
    requires k < |Offered|
    ensures MatchesStatus(n, Offered[k]) <==> Offered[k] == AllStatuses
  {
  }

  /** `filteredNFAs`: the loaded NFAs that pass both the search and the status filter, in the
      order loaded; an empty search leaves only the status filter. */
  function FilterNfas(ns: seq<Nfa>, term: string, c: StatusChoice): (r: seq<Nfa>)
    ensures |r| <= |ns|
    ensures forall k :: 0 <= k < |r| ==> MatchesSearch(r[k], term) && MatchesStatus(r[k], c) && r[k] in ns
    ensures forall k :: 0 <= k < |ns| && MatchesSearch(ns[k], term) && MatchesStatus(ns[k], c) ==> ns[k] in r
  {
    var r := Seqs.Filter(ns, (n: Nfa) => MatchesSearch(n, term) && MatchesStatus(n, c));
    assert forall k :: 0 <= k < |r| ==> r[k] in multiset(ns);
    r
  }

  /** The empty search matches every NFA whose id is non-empty. */
  lemma EmptySearchMatches(n: Nfa)
    requires n.id != ""
    ensures MatchesSearch(n, "")
  {
    Text.ContainsIgnoreCaseEmpty(n.id);
  }

  /** "Showing X of Y NFAs": shown only when something passes the filters, and X never exceeds Y. */
  function ResultsCount(ns: seq<Nfa>, term: string, c: StatusChoice): (r: Option<(nat, nat)>)
    ensures r.Some? <==> |FilterNfas(ns, term, c)| > 0
    ensures r.Some? ==> r.value.0 <= r.value.1 && r.value.1 == |ns| && r.value.0 > 0
    ensures r.Some? ==> r.value.0 == |FilterNfas(ns, term, c)|
  {
    var shown := FilterNfas(ns, term, c);
    if |shown| > 0 then Some((|shown|, |ns|)) else None
  }

  /** An active search or filter is reported as "nothing found"; otherwise the list is empty
      because nothing was created yet. */
  function EmptyStateTitle(term: string, c: StatusChoice): (t: string)
    ensures t == "No NFAs found" <==> term != "" || c != AllStatuses
    ensures t == "No NFAs created yet" <==> term == "" && c == AllStatuses
  {
    if term != "" || c != AllStatuses then "No NFAs found" else "No NFAs created yet"
  }

  /** With no search and every status, the list is empty only when the requestor has no NFA. */
  lemma EmptyWithoutFilterMeansNoNfas(ns: seq<Nfa>)
    requires forall k :: 0 <= k < |ns| ==> ns[k].id != ""
    ensures FilterNfas(ns, "", AllStatuses) == [] <==> ns == []
  {
    if |ns| > 0 {
      EmptySearchMatches(ns[0]);
    }
  }
}

=== FILE: nfa_routes.dfy ===
/** The guards of the NFA endpoints (backend/api/routes/nfa.py): who may list, read,
    submit, complete and delete an NFA, and which errors each refusal produces. */
module NfaRoutes {
  import opened Wrappers
  import opened Schemas
  import opened Records
  import opened Http
  import NfaService
  import ApprovalSteps
  import Seqs

  predicate IsSuperadmin(u: CurrentUser) {
    Superadmin in u.roles
  }

  /** `POST /`: the requestor's name is read from the user record; a caller whose record is gone
      makes the handler fail with an unhandled error. The NFA is created without a number key,
      the corrected creation of `NfaService.CreateNfa`. */
  function CreateNfaRoute(db: Db, u: CurrentUser, section1: Section1, id: string, now: Time): (r: Result<NfaService.Created, HttpError>)
    ensures r.Failure? <==> FindUserView(db, u.userId).None?
    ensures r.Failure? ==> r.error.code == InternalServerError
    ensures r.Success? ==>
      && r.value.nfa.requestorId == u.userId && r.value.nfa.requestorName == FindUserView(db, u.userId).value.name
      && r.value.nfa.status == Draft && r.value.nfa.section1 == section1 && r.value.nfa.nfaNumber == NoKey
      && r.value.db.nfas == db.nfas + [r.value.nfa]
  {
    match FindUserView(db, u.userId)
    case None => Failure(HttpError(InternalServerError, "Internal Server Error"))
    case Some(user) => Success(NfaService.CreateNfa(db, section1, u.userId, user.name, id, now))
  }

  /** `POST /` as written: the NFA is stored with a null number, so the handler also fails with an
      unhandled duplicate-key error whenever another NFA already holds a null number. */
  function CreateNfaRouteAsWritten(db: Db, u: CurrentUser, section1: Section1, id: string, now: Time): (r: Result<NfaService.Created, HttpError>)
    ensures r.Failure? <==>
      FindUserView(db, u.userId).None? || exists j :: 0 <= j < |db.nfas| && db.nfas[j].nfaNumber == NullNumber
    ensures r.Failure? ==> r.error.code == InternalServerError
    ensures r.Success? ==>
      && r.value.nfa.requestorId == u.userId && r.value.nfa.status == Draft && r.value.nfa.nfaNumber == NullNumber
      && r.value.db.nfas == db.nfas + [r.value.nfa]
  {
    match FindUserView(db, u.userId)
    case None => Failure(HttpError(InternalServerError, "Internal Server Error"))
    case Some(user) =>
      match NfaService.CreateNfaAsWritten(db, section1, u.userId, user.name, id, now)
      case Failure(_) => Failure(HttpError(InternalServerError, "Internal Server Error"))
      case Success(c) => Success(c)
  }

  /** As written, once one NFA exists the endpoint refuses every further creation with a 500. */
  lemma {:induction false} SecondCreateRouteFailsAsWritten(db: Db, u: CurrentUser, s1: Section1, a: string, b: string, t0: Time, t1: Time)
    requires FindUserView(db, u.userId).Some?
    requires CreateNfaRouteAsWritten(db, u, s1, a, t0).Success?
    ensures var first := CreateNfaRouteAsWritten(db, u, s1, a, t0).value.db;
      CreateNfaRouteAsWritten(first, u, s1, b, t1) == Failure(HttpError(InternalServerError, "Internal Server Error"))
  {
    var first := CreateNfaRouteAsWritten(db, u, s1, a, t0).value;
    assert first.db.nfas[|db.nfas|] == first.nfa;
    assert FindUserView(first.db, u.userId) == FindUserView(db, u.userId);
  }

  /** The query `GET /` builds: the status filter when one is given, and the caller's own NFAs unless superadmin. */
  function ListQuery(u: CurrentUser, statusFilter: Option<string>): (q: NfaService.NfaQuery)
    ensures Truthy(statusFilter) ==> q.status == statusFilter
    ensures !Truthy(statusFilter) ==> q.status.None?
    ensures IsSuperadmin(u) <==> q.requestorId.None?
    ensures !IsSuperadmin(u) ==> q.requestorId == Some(u.userId)
  {
    NfaService.NfaQuery(if Truthy(statusFilter) then statusFilter else None,
                        if IsSuperadmin(u) then None else Some(u.userId))
  }

  /** `GET /`: at most `limit` NFAs (1000 at most), newest first. */
  function ListNfas(db: Db, u: CurrentUser, skip: nat, limit: nat, statusFilter: Option<string>): (r: Result<seq<Nfa>, HttpError>)
    ensures r.Failure? <==> limit > 1000
    ensures r.Success? ==> |r.value| <= limit
    ensures r.Success? && !IsSuperadmin(u) ==> forall k :: 0 <= k < |r.value| ==> r.value[k].requestorId == u.userId
    ensures r.Success? && Truthy(statusFilter) ==>
      forall k :: 0 <= k < |r.value| ==> StatusValue(r.value[k].status) == statusFilter.value
    ensures r.Success? ==> forall k :: 0 <= k < |r.value| ==> r.value[k] in db.nfas
    ensures r.Success? ==> r.value == NfaService.GetAllNfas(db, skip, limit, ListQuery(u, statusFilter))
  {
    if limit > 1000 then Failure(ValidationError())
    else Success(NfaService.GetAllNfas(db, skip, limit, ListQuery(u, statusFilter)))
  }

  /** `GET /my-nfas`: the caller's own NFAs, newest first, whatever the caller's roles. */
  function MyNfasRoute(db: Db, u: CurrentUser, skip: nat, limit: nat): (r: Result<seq<Nfa>, HttpError>)
    ensures r.Failure? <==> limit > 1000
    ensures r.Failure? ==> r.error.code == UnprocessableEntity
    ensures r.Success? ==> |r.value| <= limit
    ensures r.Success? ==> forall k :: 0 <= k < |r.value| ==> r.value[k].requestorId == u.userId && r.value[k] in db.nfas
    ensures r.Success? ==> r.value == NfaService.GetNfasByRequestor(db, u.userId, skip, limit)
  {
    if limit > 1000 then Failure(ValidationError())
    else Success(NfaService.GetNfasByRequestor(db, u.userId, skip, limit))
  }

  /** When the caller's matching NFAs fit in one page, the listing shows every one of them:
      all stored NFAs for a superadmin, the caller's own otherwise, narrowed by the status filter. */
  lemma {:induction false} ListNfasIsComplete(db: Db, u: CurrentUser, limit: nat, statusFilter: Option<string>, n: Nfa)
    requires limit <= 1000
    requires |Seqs.Filter(db.nfas, (m: Nfa) => NfaService.Matches(ListQuery(u, statusFilter), m))| <= limit
    requires n in db.nfas && (IsSuperadmin(u) || n.requestorId == u.userId)
    requires !Truthy(statusFilter) || StatusValue(n.status) == statusFilter.value
    ensures n in ListNfas(db, u, 0, limit, statusFilter).value
  {
    NfaService.ListingIsComplete(db, limit, ListQuery(u, statusFilter));
    assert multiset(db.nfas)[n] > 0;
  }

  /** When the caller's NFAs fit in one page, "my NFAs" shows every one of them. */
  lemma {:induction false} MyNfasIsComplete(db: Db, u: CurrentUser, limit: nat, n: Nfa)
    requires limit <= 1000
    requires |Seqs.Filter(db.nfas, (m: Nfa) => NfaService.Matches(NfaService.NfaQuery(None, Some(u.userId)), m))| <= limit
    requires n in db.nfas && n.requestorId == u.userId
    ensures n in MyNfasRoute(db, u, 0, limit).value
  {
    NfaService.ListingIsComplete(db, limit, NfaService.NfaQuery(None, Some(u.userId)));
    assert multiset(db.nfas)[n] > 0;
  }

  /** The caller is the designated approver of at least one step of the NFA. */
  predicate HasStepOn(db: Db, nfaId: string, userId: string) {
    exists k :: 0 <= k < |db.steps| && db.steps[k].nfaId == nfaId && db.steps[k].approverId == userId
  }

  /** Superadmins, the requestor and anyone holding a step of the NFA may read it. */
  predicate MayRead(db: Db, u: CurrentUser, n: Nfa) {
    IsSuperadmin(u) || n.requestorId == u.userId || HasStepOn(db, n.id, u.userId)
  }

  /** `GET /{nfa_id}`. */
  function GetNfa(db: Db, u: CurrentUser, nfaId: string): (r: Result<Nfa, HttpError>)
    ensures FindNfa(db, nfaId).None? ==> r == Failure(HttpError(NotFound, "NFA not found"))
    ensures FindNfa(db, nfaId).Some? && !MayRead(db, u, FindNfa(db, nfaId).value) ==>
      r == Failure(HttpError(Forbidden, "Access denied"))
    ensures r.Success? <==> FindNfa(db, nfaId).Some? && MayRead(db, u, FindNfa(db, nfaId).value)
    ensures r.Success? ==> Some(r.value) == FindNfa(db, nfaId)
  {
    match FindNfa(db, nfaId)
    case None => Failure(HttpError(NotFound, "NFA not found"))
    case Some(n) =>
      if !IsSuperadmin(u) && n.requestorId != u.userId && !HasStepOn(db, nfaId, u.userId) then
        Failure(HttpError(Forbidden, "Access denied"))
      else Success(n)
  }

  /** The store after a submission request, the NFA as re-read or the error answered, and the
      queued e-mails. A failure inside the service leaves in the store what was already written. */
  datatype Submitted = Submitted(db: Db, result: Result<Option<Nfa>, HttpError>, effects: seq<Effect>)

  /** The approver's user record exists (`find_one({"id": approver_data["user_id"]})` finds one). */
  predicate HasAccount(users: seq<User>, a: ApproverEntry) {
    a.userId.Some? && UserIndex(users, a.userId.value).Some?
  }

  /** The approvers whose user record exists, in list order. */
  function FoundApprovers(users: seq<User>, approvers: seq<ApproverEntry>): (r: seq<ApproverEntry>)
    ensures |r| <= |approvers|
    ensures forall k :: 0 <= k < |r| ==> HasAccount(users, r[k])
    ensures forall k :: 0 <= k < |approvers| && HasAccount(users, approvers[k]) ==> approvers[k] in r
  {
    Seqs.Filter(approvers, (a: ApproverEntry) => HasAccount(users, a))
  }

  /** The first approver is kept exactly when it has an account. */
  lemma FoundApproversCons(users: seq<User>, approvers: seq<ApproverEntry>)
    requires |approvers| > 0
    ensures FoundApprovers(users, approvers) ==
      (if HasAccount(users, approvers[0]) then [approvers[0]] else []) + FoundApprovers(users, approvers[1..])
  {
    Seqs.FilterCons(approvers, (a: ApproverEntry) => HasAccount(users, a));
  }

  /** The approval e-mail to the first user record with the approver's id. */
  function MailTo(users: seq<User>, nfaId: string, a: ApproverEntry): (e: Effect)
    requires HasAccount(users, a)
    ensures e.NotifyApprover? && e.nfaId == nfaId
    ensures exists j :: 0 <= j < |users| && users[j].id == a.userId.value && users[j].email == e.email && users[j].name == e.name
  {
    var i := UserIndex(users, a.userId.value).value;
    NotifyApprover(nfaId, users[i].email, users[i].name)
  }

  /** One approval e-mail per listed approver whose user record exists, in list order.
      The loop reads `approver_data["user_id"]`, which every entry has once its steps exist. */
  function ApproverEmails(users: seq<User>, nfaId: string, approvers: seq<ApproverEntry>): (r: seq<Effect>)
    requires forall k :: 0 <= k < |approvers| ==> approvers[k].userId.Some?
    ensures |r| == |FoundApprovers(users, approvers)|
    ensures forall k :: 0 <= k < |r| ==> r[k] == MailTo(users, nfaId, FoundApprovers(users, approvers)[k])
    ensures |r| <= |approvers|
    ensures forall k :: 0 <= k < |r| ==> r[k].NotifyApprover? && r[k].nfaId == nfaId
    ensures forall k :: 0 <= k < |r| ==> exists j :: 0 <= j < |users| && users[j].email == r[k].email && users[j].name == r[k].name
    ensures forall k :: 0 <= k < |approvers| && HasAccount(users, approvers[k]) ==>
      var user := users[UserIndex(users, approvers[k].userId.value).value];
      NotifyApprover(nfaId, user.email, user.name) in r
  {
    if |approvers| == 0 then []
    else
      var rest := ApproverEmails(users, nfaId, approvers[1..]);
      var r := HeadMail(users, nfaId, approvers[0]) + rest;
      EmailsStep(users, nfaId, approvers, rest);
      EmailsReachFoundApprovers(users, nfaId, approvers, r);
      r
  }

  /** The e-mail for one approver: none when its user record is missing. */
  function HeadMail(users: seq<User>, nfaId: string, a: ApproverEntry): (r: seq<Effect>)
    ensures |r| <= 1
    ensures |r| == 1 <==> HasAccount(users, a)
    ensures |r| == 1 ==> r[0] == MailTo(users, nfaId, a)
  {
    if HasAccount(users, a) then [MailTo(users, nfaId, a)] else []
  }

  /** Mailing the first approver, then the found ones among the rest, mails the found approvers. */
  lemma EmailsStep(users: seq<User>, nfaId: string, approvers: seq<ApproverEntry>, rest: seq<Effect>)
    requires |approvers| > 0
    requires |rest| == |FoundApprovers(users, approvers[1..])|
    requires forall k :: 0 <= k < |rest| ==> rest[k] == MailTo(users, nfaId, FoundApprovers(users, approvers[1..])[k])
    ensures var r := HeadMail(users, nfaId, approvers[0]) + rest;
      && |r| == |FoundApprovers(users, approvers)|
      && forall k :: 0 <= k < |r| ==> r[k] == MailTo(users, nfaId, FoundApprovers(users, approvers)[k])
  {
    FoundApproversCons(users, approvers);
    var r := HeadMail(users, nfaId, approvers[0]) + rest;
    var h := |HeadMail(users, nfaId, approvers[0])|;
    assert forall k :: h <= k < |r| ==> r[k] == rest[k - h];
  }

  /** Mailing exactly the approvers with an account, in order, reaches each of them. */
  lemma EmailsReachFoundApprovers(users: seq<User>, nfaId: string, approvers: seq<ApproverEntry>, r: seq<Effect>)
    requires |r| == |FoundApprovers(users, approvers)|
    requires forall k :: 0 <= k < |r| ==> r[k] == MailTo(users, nfaId, FoundApprovers(users, approvers)[k])
    ensures |r| <= |approvers|
    ensures forall k :: 0 <= k < |r| ==> r[k].NotifyApprover? && r[k].nfaId == nfaId
    ensures forall k :: 0 <= k < |r| ==> exists j :: 0 <= j < |users| && users[j].email == r[k].email && users[j].name == r[k].name
    ensures forall k :: 0 <= k < |approvers| && HasAccount(users, approvers[k]) ==>
      var user := users[UserIndex(users, approvers[k].userId.value).value];
      NotifyApprover(nfaId, user.email, user.name) in r
  {
    var found := FoundApprovers(users, approvers);
    forall k | 0 <= k < |r|
      ensures exists j :: 0 <= j < |users| && users[j].email == r[k].email && users[j].name == r[k].name
    {
      assert HasAccount(users, found[k]);
      var e := MailTo(users, nfaId, found[k]);
      assert r[k] == e;
      var j :| 0 <= j < |users| && users[j].id == found[k].userId.value && users[j].email == e.email && users[j].name == e.name;
      assert users[j].email == r[k].email && users[j].name == r[k].name;
    }
    assert forall k :: 0 <= k < |r| ==> exists j :: 0 <= j < |users| && users[j].email == r[k].email && users[j].name == r[k].name;
    forall k | 0 <= k < |approvers| && HasAccount(users, approvers[k])
      ensures var user := users[UserIndex(users, approvers[k].userId.value).value];
              NotifyApprover(nfaId, user.email, user.name) in r
    {
      var m :| 0 <= m < |found| && found[m] == approvers[k];
      assert r[m] == MailTo(users, nfaId, approvers[k]);
    }
  }

  /** Hands an accepted submission to the service: an error the service raises becomes a 500 with
      no e-mail sent; otherwise the re-read NFA is answered and the approvers are e-mailed. */
  function Answer(db: Db, nfaId: string, s: NfaService.Submission, approvers: seq<ApproverEntry>): (r: Submitted)
    ensures r.db == s.db
    ensures s.outcome.Failure? ==> r.result == Failure(HttpError(InternalServerError, "Internal Server Error")) && r.effects == []
    ensures s.outcome.Success? ==> r.result == Success(s.outcome.value)
    ensures s.outcome.Success? && (forall k :: 0 <= k < |approvers| ==> approvers[k].userId.Some?) ==>
      r.effects == ApproverEmails(db.users, nfaId, approvers)
  {
    if s.outcome.Failure? then Submitted(s.db, Failure(HttpError(InternalServerError, "Internal Server Error")), [])
    else if forall k :: 0 <= k < |approvers| ==> approvers[k].userId.Some? then
      Submitted(s.db, Success(s.outcome.value), ApproverEmails(db.users, nfaId, approvers))
    else Submitted(s.db, Success(s.outcome.value), [])
  }

  /** `POST /{nfa_id}/submit-section1`: only the requestor, only from `draft`, and only with approvers.
      Once the guards pass, the status is written even if the approver list then proves malformed. */
  function SubmitSection1Route(db: Db, u: CurrentUser, nfaId: string, ids: nat -> string, now: Time): (r: Submitted)
    ensures FindNfa(db, nfaId).None? ==> r == Submitted(db, Failure(HttpError(NotFound, "NFA not found")), [])
    ensures FindNfa(db, nfaId).Some? ==>
      var n := FindNfa(db, nfaId).value;
      var created := ApprovalSteps.CreateApprovalWorkflows(nfaId, 1, n.section1.approverList, ids, now);
      && (n.requestorId != u.userId ==> r == Submitted(db, Failure(HttpError(Forbidden, "Access denied")), []))
      && (n.requestorId == u.userId && n.status != Draft ==>
            r == Submitted(db, Failure(HttpError(BadRequest, "NFA already submitted")), []))
      && (n.requestorId == u.userId && n.status == Draft && |n.section1.approverList| == 0 ==>
            r == Submitted(db, Failure(HttpError(BadRequest, "No approvers configured")), []))
      && (n.requestorId == u.userId && n.status == Draft && |n.section1.approverList| > 0 ==>
            && FindNfa(r.db, nfaId).Some? && FindNfa(r.db, nfaId).value.status == Section1Pending
            && FindNfa(r.db, nfaId).value.currentStage == "section1_approval"
            && OnlyNfaTouched(db.nfas, r.db.nfas, nfaId)
            && (created.Failure? ==>
                  r.result == Failure(HttpError(InternalServerError, "Internal Server Error"))
                  && r.db.steps == db.steps && r.effects == [])
            && (created.Success? ==>
                  && r.result == Success(FindNfa(r.db, nfaId))
                  && r.db.steps == db.steps + created.value
                  && r.effects == ApproverEmails(db.users, nfaId, n.section1.approverList)))
  {
    match FindNfa(db, nfaId)
    case None => Submitted(db, Failure(HttpError(NotFound, "NFA not found")), [])
    case Some(n) =>
      if n.requestorId != u.userId then Submitted(db, Failure(HttpError(Forbidden, "Access denied")), [])
      else if n.status != Draft then Submitted(db, Failure(HttpError(BadRequest, "NFA already submitted")), [])
      else if |n.section1.approverList| == 0 then Submitted(db, Failure(HttpError(BadRequest, "No approvers configured")), [])
      else
        var saved := NfaService.SubmitSection1(db, nfaId, n.section1.approverList, ids, now);
        Answer(db, nfaId, saved, n.section1.approverList)
  }

  /** `PUT /{nfa_id}/section2`: coordinators only, and only once section 1 is approved. */
  function UpdateSection2Route(db: Db, u: CurrentUser, nfaId: string, section2: Section2, now: Time): (r: Result<NfaService.Saved, HttpError>)
    ensures Coordinator !in u.roles ==> r == Failure(HttpError(Forbidden, "Only coordinators can update Section 2"))
    ensures Coordinator in u.roles && FindNfa(db, nfaId).None? ==> r == Failure(HttpError(NotFound, "NFA not found"))
    ensures Coordinator in u.roles && FindNfa(db, nfaId).Some? && FindNfa(db, nfaId).value.status != Section1Approved ==>
      r == Failure(HttpError(BadRequest, "Section 1 not yet approved"))
    ensures r.Success? <==> Coordinator in u.roles && FindNfa(db, nfaId).Some? && FindNfa(db, nfaId).value.status == Section1Approved
    ensures r.Success? ==>
      && r.value.nfa.Some? && r.value.nfa == FindNfa(r.value.db, nfaId)
      && r.value.nfa.value.section2 == Some(section2) && r.value.nfa.value.status == Section1Approved
      && OnlyNfaTouched(db.nfas, r.value.db.nfas, nfaId) && r.value.db.steps == db.steps
  {
    if Coordinator !in u.roles then Failure(HttpError(Forbidden, "Only coordinators can update Section 2"))
    else match FindNfa(db, nfaId)
      case None => Failure(HttpError(NotFound, "NFA not found"))
      case Some(n) =>
        if n.status != Section1Approved then Failure(HttpError(BadRequest, "Section 1 not yet approved"))
        else Success(NfaService.UpdateSection2(db, nfaId, section2, now))
  }

  /** `POST /{nfa_id}/submit-section2`: coordinators only, with approvers; the NFA's status is not checked.
      Once the guards pass, the status is written even if the approver list then proves malformed. */
  function SubmitSection2Route(db: Db, u: CurrentUser, nfaId: string, ids: nat -> string, now: Time): (r: Submitted)
    ensures Coordinator !in u.roles ==> r == Submitted(db, Failure(HttpError(Forbidden, "Only coordinators can submit Section 2")), [])
    ensures Coordinator in u.roles && FindNfa(db, nfaId).None? ==> r == Submitted(db, Failure(HttpError(NotFound, "NFA not found")), [])
    ensures Coordinator in u.roles && FindNfa(db, nfaId).Some? && |Section2Approvers(FindNfa(db, nfaId).value)| == 0 ==>
      r == Submitted(db, Failure(HttpError(BadRequest, "No approvers configured")), [])
    ensures Coordinator in u.roles && FindNfa(db, nfaId).Some? && |Section2Approvers(FindNfa(db, nfaId).value)| > 0 ==>
      var approvers := Section2Approvers(FindNfa(db, nfaId).value);
      var created := ApprovalSteps.CreateApprovalWorkflows(nfaId, 2, approvers, ids, now);
      && FindNfa(r.db, nfaId).Some? && FindNfa(r.db, nfaId).value.status == Section2Pending
      && FindNfa(r.db, nfaId).value.currentStage == "section2_approval"
      && OnlyNfaTouched(db.nfas, r.db.nfas, nfaId)
      && (created.Failure? ==>
            r.result == Failure(HttpError(InternalServerError, "Internal Server Error"))
            && r.db.steps == db.steps && r.effects == [])
      && (created.Success? ==>
            && r.result == Success(FindNfa(r.db, nfaId))
            && r.db.steps == db.steps + created.value
            && r.effects == ApproverEmails(db.users, nfaId, approvers))
  {
    if Coordinator !in u.roles then Submitted(db, Failure(HttpError(Forbidden, "Only coordinators can submit Section 2")), [])
    else match FindNfa(db, nfaId)
      case None => Submitted(db, Failure(HttpError(NotFound, "NFA not found")), [])
      case Some(n) =>
        var approvers := Section2Approvers(n);
        if |approvers| == 0 then Submitted(db, Failure(HttpError(BadRequest, "No approvers configured")), [])
        else
          var saved := NfaService.SubmitSection2(db, nfaId, approvers, ids, now);
          Answer(db, nfaId, saved, approvers)
  }

  /** An approver entry without `user_id` still moves the NFA out of `draft` but creates no step:
      the requestor gets a 500 and can never submit again, and no approver can act. */
  lemma {:induction false} MalformedApproverStrandsNfa(db: Db, u: CurrentUser, nfaId: string, ids: nat -> string,
                                                       now: Time, later: Time)
    requires FindNfa(db, nfaId).Some?
    requires FindNfa(db, nfaId).value.requestorId == u.userId && FindNfa(db, nfaId).value.status == Draft
    requires |FindNfa(db, nfaId).value.section1.approverList| > 0
    requires FindNfa(db, nfaId).value.section1.approverList[0].userId.None?
    ensures var r := SubmitSection1Route(db, u, nfaId, ids, now);
      && r.result == Failure(HttpError(InternalServerError, "Internal Server Error"))
      && r.db.steps == db.steps
      && FindNfa(r.db, nfaId).value.status == Section1Pending
      && SubmitSection1Route(r.db, u, nfaId, ids, later).result == Failure(HttpError(BadRequest, "NFA already submitted"))
  {
    var n := FindNfa(db, nfaId).value;
    assert !ApprovalSteps.Complete(n.section1.approverList[0]);
    var r := SubmitSection1Route(db, u, nfaId, ids, now);
    assert FindNfa(r.db, nfaId).value.requestorId == u.userId;
  }

  /** The store after a delete request and the error, if any. A 404 comes after the deletion of
      the id's steps and attachments, which therefore happens even for an unknown NFA. */
  datatype DeleteAnswer = DeleteAnswer(db: Db, error: Option<HttpError>)

  /** `DELETE /{nfa_id}`: superadmins only; an unknown id is a 404. */
  function DeleteNfaRoute(db: Db, u: CurrentUser, nfaId: string): (r: DeleteAnswer)
    ensures !IsSuperadmin(u) ==> r == DeleteAnswer(db, Some(HttpError(Forbidden, "Only SuperAdmin can delete NFAs")))
    ensures IsSuperadmin(u) ==> r.db == NfaService.DeleteNfa(db, nfaId).db
    ensures IsSuperadmin(u) ==>
      (r.error.None? <==> exists j :: 0 <= j < |db.nfas| && db.nfas[j].id == nfaId)
    ensures IsSuperadmin(u) && r.error.Some? ==> r.error.value == HttpError(NotFound, "NFA not found")
  {
    if !IsSuperadmin(u) then DeleteAnswer(db, Some(HttpError(Forbidden, "Only SuperAdmin can delete NFAs")))
    else
      var d := NfaService.DeleteNfa(db, nfaId);
      DeleteAnswer(d.db, if d.deleted then None else Some(HttpError(NotFound, "NFA not found")))
  }

  /** A sent-back NFA cannot go through section 1 again: its status is no longer `draft`. */
  lemma SentBackCannotBeResubmitted(db: Db, u: CurrentUser, nfaId: string, ids: nat -> string, now: Time)
    requires FindNfa(db, nfaId).Some? && FindNfa(db, nfaId).value.status == NfaStatus.SentBack
    requires FindNfa(db, nfaId).value.requestorId == u.userId
    ensures SubmitSection1Route(db, u, nfaId, ids, now) == Submitted(db, Failure(HttpError(BadRequest, "NFA already submitted")), [])
  {
  }

  /** Section 2 can be submitted from any status, even `draft`, by a coordinator with approvers listed. */
  lemma Section2SubmissionIgnoresStatus(db: Db, u: CurrentUser, nfaId: string, ids: nat -> string, now: Time)
    requires Coordinator in u.roles
    requires FindNfa(db, nfaId).Some? && |Section2Approvers(FindNfa(db, nfaId).value)| > 0
    ensures FindNfa(SubmitSection2Route(db, u, nfaId, ids, now).db, nfaId).value.status == Section2Pending
  {
  }
}

=== FILE: nfa_service.dfy ===
/** The life cycle of an NFA record (backend/services/nfa_service.py): creation,
    the two submissions, status updates, numbering, finalisation and deletion.
    Every operation works on the first NFA whose id matches, as `update_one` does. */
module NfaService {
  import opened Wrappers
  import opened Schemas
  import opened Records
  import opened Http
  import Text
  import Seqs
  import Sorting
  import ApprovalSteps

  /** A store after an update, and the NFA `find_one` then returns. */
  datatype Saved = Saved(db: Db, nfa: Option<Nfa>)

  /** A store after an insertion, and the inserted document. */
  datatype Created = Created(db: Db, nfa: Nfa)

  /** A store after a deletion, and whether an NFA was removed. */
  datatype Deleted = Deleted(db: Db, deleted: bool)

  /** The fields no status change touches. */
  predicate SameContent(a: Nfa, b: Nfa) {
    && a.id == b.id && a.nfaNumber == b.nfaNumber
    && a.requestorId == b.requestorId && a.requestorName == b.requestorName
    && a.section1 == b.section1 && a.section2 == b.section2
    && a.createdAt == b.createdAt && a.pdfUrl == b.pdfUrl
  }

  /** Writes `n` back at position `i`, where the first NFA with its id sits. */
  function SetNfa(db: Db, i: nat, n: Nfa): (r: Db)
    requires NfaIndex(db.nfas, n.id) == Some(i)
    ensures r.nfas == db.nfas[i := n]
    ensures NfaIndex(r.nfas, n.id) == Some(i)
    ensures FindNfa(r, n.id) == Some(n)
    ensures r.steps == db.steps && OthersUnchanged(r, db)
  {
    var r := db.(nfas := db.nfas[i := n]);
    assert r.nfas[i].id == n.id;
    assert forall j :: 0 <= j < i ==> r.nfas[j].id != n.id;
    r
  }

  // ------------------------------------------------------------- creation

  /** `create_nfa`: a draft without a number, section 2 or PDF, appended to the store.
      The `nfa_number` key is left out rather than set to null: see `CreateNfaAsWritten`. */
  function CreateNfa(db: Db, section1: Section1, requestorId: string, requestorName: string,
                     id: string, now: Time): (r: Created)
    ensures r.nfa.id == id && r.nfa.requestorId == requestorId && r.nfa.requestorName == requestorName
    ensures r.nfa.status == Draft && r.nfa.currentStage == "draft"
    ensures r.nfa.nfaNumber == NoKey && r.nfa.section2.None? && r.nfa.pdfUrl.None?
    ensures r.nfa.section1 == section1 && r.nfa.createdAt == now && r.nfa.updatedAt == now
    ensures r.db.nfas == db.nfas + [r.nfa] && r.db.steps == db.steps && OthersUnchanged(r.db, db)
  {
    var n := Nfa(id, NoKey, requestorId, requestorName, Draft, "draft", section1, None, now, now, None);
    Created(db.(nfas := db.nfas + [n]), n)
  }

  /** The unique sparse index on `nfa_number`: among the documents that carry the key
      (null included), no two hold the same value. Documents without the key are not indexed. */
  predicate NumberIndexHolds(nfas: seq<Nfa>) {
    forall i, j :: 0 <= i < |nfas| && 0 <= j < |nfas| && i != j && nfas[i].nfaNumber != NoKey ==>
      nfas[i].nfaNumber != nfas[j].nfaNumber
  }

  /** `create_nfa` as written: the key is stored with a null value, so the index
      refuses the insert (a duplicate key error) once any other NFA holds a null number. */
  function CreateNfaAsWritten(db: Db, section1: Section1, requestorId: string, requestorName: string,
                              id: string, now: Time): (r: Result<Created, ServiceError>)
    ensures r.Failure? <==> exists j :: 0 <= j < |db.nfas| && db.nfas[j].nfaNumber == NullNumber
    ensures r.Success? ==> r.value.nfa.nfaNumber == NullNumber && r.value.db.nfas == db.nfas + [r.value.nfa]
  {
    var n := Nfa(id, NullNumber, requestorId, requestorName, Draft, "draft", section1, None, now, now, None);
    if exists j :: 0 <= j < |db.nfas| && db.nfas[j].nfaNumber == NullNumber then
      Failure(InternalError("E11000 duplicate key error: nfa_number"))
    else
      Success(Created(db.(nfas := db.nfas + [n]), n))
  }

  /** As written, a second NFA can never be created: the first one's null number blocks it. */
  lemma SecondCreateFailsAsWritten(s1: Section1, requestor: string, name: string, t0: Time, t1: Time)
    ensures var empty := Db([], [], [], [], []);
      var first := CreateNfaAsWritten(empty, s1, requestor, name, "a", t0);
      first.Success? && CreateNfaAsWritten(first.value.db, s1, requestor, name, "b", t1).Failure?
  {
    var empty := Db([], [], [], [], []);
    var first := CreateNfaAsWritten(empty, s1, requestor, name, "a", t0);
    assert first.value.db.nfas[0].nfaNumber == NullNumber;
  }

  /** Leaving the key out keeps the index satisfied whatever the store already holds. */
  lemma {:induction false} CreateKeepsNumberIndex(db: Db, section1: Section1, requestorId: string,
                                                  requestorName: string, id: string, now: Time)
    requires NumberIndexHolds(db.nfas)
    ensures NumberIndexHolds(CreateNfa(db, section1, requestorId, requestorName, id, now).db.nfas)
  {
    var r := CreateNfa(db, section1, requestorId, requestorName, id, now).db.nfas;
    forall i, j | 0 <= i < |r| && 0 <= j < |r| && i != j && r[i].nfaNumber != NoKey
      ensures r[i].nfaNumber != r[j].nfaNumber
    {
      if i < |db.nfas| && j < |db.nfas| {
        assert r[i] == db.nfas[i] && r[j] == db.nfas[j];
      }
    }
  }

  // ------------------------------------------------------- status updates

  /** `update_nfa_status`: the status and `updated_at` always change; the stage changes only
      when a non-empty one is given. A missing NFA leaves the store as it is. */
  function UpdateNfaStatus(db: Db, nfaId: string, status: NfaStatus, stage: Option<string>, now: Time): (r: Saved)
    ensures FindNfa(db, nfaId).None? ==> r.db == db && r.nfa.None?
    ensures FindNfa(db, nfaId).Some? ==>
      var prev := FindNfa(db, nfaId).value;
      && r.nfa.Some? && r.nfa == FindNfa(r.db, nfaId)
      && r.nfa.value.status == status && r.nfa.value.updatedAt == now
      && (Truthy(stage) ==> r.nfa.value.currentStage == stage.value)
      && (!Truthy(stage) ==> r.nfa.value.currentStage == prev.currentStage)
      && SameContent(prev, r.nfa.value)
    ensures OnlyNfaTouched(db.nfas, r.db.nfas, nfaId)
    ensures r.db.steps == db.steps && OthersUnchanged(r.db, db)
  {
    match NfaIndex(db.nfas, nfaId)
    case None => Saved(db, None)
    case Some(i) =>
      var prev := db.nfas[i];
      var n := prev.(status := status, updatedAt := now,
                    currentStage := if Truthy(stage) then stage.value else prev.currentStage);
      Saved(SetNfa(db, i, n), Some(n))
  }

  /** Setting the same status and stage twice is the same as setting them once, apart from `updated_at`. */
  lemma UpdateStatusIdempotent(db: Db, nfaId: string, status: NfaStatus, stage: Option<string>, t1: Time, t2: Time)
    ensures var once := UpdateNfaStatus(db, nfaId, status, stage, t2);
      UpdateNfaStatus(UpdateNfaStatus(db, nfaId, status, stage, t1).db, nfaId, status, stage, t2) == once
  {
  }

  /** A store after a submission, and either the NFA `find_one` then returns or the error raised. */
  datatype Submission = Submission(db: Db, outcome: Result<Option<Nfa>, ServiceError>)

  /** What submitting `section` does. The NFA, when there is one, moves to `status` at `stage` and keeps
      its content, and no other NFA is touched. Then one step per approver is appended. If an approver
      entry lacks `user_id` or `name`, nothing is appended and the error is raised, with the new status
      already written. */
  predicate SubmittedAs(db: Db, r: Submission, nfaId: string, section: int, status: NfaStatus, stage: string,
                        approvers: seq<ApproverEntry>, ids: nat -> string, now: Time) {
    var created := ApprovalSteps.CreateApprovalWorkflows(nfaId, section, approvers, ids, now);
    && OnlyNfaTouched(db.nfas, r.db.nfas, nfaId)
    && (FindNfa(db, nfaId).Some? ==>
          var n := FindNfa(r.db, nfaId);
          && n.Some? && n.value.status == status && n.value.currentStage == stage && n.value.updatedAt == now
          && SameContent(FindNfa(db, nfaId).value, n.value))
    && (created.Failure? ==> r.outcome == Failure(created.error) && r.db.steps == db.steps)
    && (created.Success? ==> r.outcome == Success(FindNfa(r.db, nfaId)) && r.db.steps == db.steps + created.value)
    && OthersUnchanged(r.db, db)
  }

  /** Moves the NFA to `status` at `stage`, then creates the section's steps. */
  function Submit(db: Db, nfaId: string, section: int, status: NfaStatus, stage: string,
                  approvers: seq<ApproverEntry>, ids: nat -> string, now: Time): (r: Submission)
    requires stage != ""
    ensures SubmittedAs(db, r, nfaId, section, status, stage, approvers, ids, now)
  {
    var s := UpdateNfaStatus(db, nfaId, status, Some(stage), now);
    match ApprovalSteps.AddWorkflows(s.db, nfaId, section, approvers, ids, now)
    case Failure(e) => Submission(s.db, Failure(e))
    case Success(db2) => Submission(db2, Success(FindNfa(db2, nfaId)))
  }

  /** `submit_section1`: the NFA moves to `section1_pending` at stage `section1_approval`, and one
      pending section 1 step per approver is added. The steps are added even when no NFA has that id. */
  function SubmitSection1(db: Db, nfaId: string, approvers: seq<ApproverEntry>, ids: nat -> string, now: Time): (r: Submission)
    ensures SubmittedAs(db, r, nfaId, 1, Section1Pending, "section1_approval", approvers, ids, now)
  {
    Submit(db, nfaId, 1, Section1Pending, "section1_approval", approvers, ids, now)
  }

  /** `update_section2`: replaces the section 2 form; the status and stage stay as they are. */
  function UpdateSection2(db: Db, nfaId: string, section2: Section2, now: Time): (r: Saved)
    ensures FindNfa(db, nfaId).None? ==> r.db == db && r.nfa.None?
    ensures FindNfa(db, nfaId).Some? ==>
      var prev := FindNfa(db, nfaId).value;
      && r.nfa.Some? && r.nfa == FindNfa(r.db, nfaId)
      && r.nfa.value.section2 == Some(section2) && r.nfa.value.updatedAt == now
      && r.nfa.value.status == prev.status && r.nfa.value.currentStage == prev.currentStage
      && r.nfa.value.section1 == prev.section1 && r.nfa.value.nfaNumber == prev.nfaNumber
      && r.nfa.value.requestorId == prev.requestorId && r.nfa.value.createdAt == prev.createdAt
      && r.nfa.value.id == prev.id && r.nfa.value.requestorName == prev.requestorName
      && r.nfa.value.pdfUrl == prev.pdfUrl
    ensures OnlyNfaTouched(db.nfas, r.db.nfas, nfaId)
    ensures r.db.steps == db.steps && OthersUnchanged(r.db, db)
  {
    match NfaIndex(db.nfas, nfaId)
    case None => Saved(db, None)
    case Some(i) =>
      var n := db.nfas[i].(section2 := Some(section2), updatedAt := now);
      Saved(SetNfa(db, i, n), Some(n))
  }

  /** Saving the same section 2 form twice leaves the store as saving it once at the later time. */
  lemma {:induction false} UpdateSection2Idempotent(db: Db, nfaId: string, section2: Section2, t1: Time, t2: Time)
    ensures UpdateSection2(UpdateSection2(db, nfaId, section2, t1).db, nfaId, section2, t2) ==
            UpdateSection2(db, nfaId, section2, t2)
  {
    match NfaIndex(db.nfas, nfaId)
    case None =>
    case Some(i) =>
      var once := UpdateSection2(db, nfaId, section2, t1).db;
      assert NfaIndex(once.nfas, nfaId) == Some(i);
      assert once.nfas[i := db.nfas[i].(section2 := Some(section2), updatedAt := t2)]
          == db.nfas[i := db.nfas[i].(section2 := Some(section2), updatedAt := t2)];
  }

  /** `submit_section2`: the NFA moves to `section2_pending` at stage `section2_approval`, and one
      pending section 2 step per approver is added. The current status is not consulted. */
  function SubmitSection2(db: Db, nfaId: string, approvers: seq<ApproverEntry>, ids: nat -> string, now: Time): (r: Submission)
    ensures SubmittedAs(db, r, nfaId, 2, Section2Pending, "section2_approval", approvers, ids, now)
  {
    Submit(db, nfaId, 2, Section2Pending, "section2_approval", approvers, ids, now)
  }

  // --------------------------------------------------------------- queries

  /** Newest first by `created_at`. */
  predicate NewerOrSame(a: Nfa, b: Nfa) {
    a.createdAt >= b.createdAt
  }

  /** `{"status": ..., "requestor_id": ...}` with either key optional. */
  datatype NfaQuery = NfaQuery(status: Option<string>, requestorId: Option<string>)

  predicate Matches(q: NfaQuery, n: Nfa) {
    && (q.status.Some? ==> StatusValue(n.status) == q.status.value)
    && (q.requestorId.Some? ==> n.requestorId == q.requestorId.value)
  }

  /** `find(query).sort("created_at", -1).skip(skip).limit(limit)`. */
  function GetAllNfas(db: Db, skip: nat, limit: nat, query: NfaQuery): (r: seq<Nfa>)
    ensures |r| <= limit
    ensures forall k :: 0 <= k < |r| ==> Matches(query, r[k]) && r[k] in db.nfas
    ensures Sorting.SortedBy(r, NewerOrSame)
  {
    var p := (n: Nfa) => Matches(query, n);
    var matching := Seqs.Filter(db.nfas, p);
    NewerRanks();
    var r := Sorting.SortPage(matching, NewerOrSame, skip, limit);
    forall k | 0 <= k < |r| ensures Matches(query, r[k]) && r[k] in db.nfas {
      Seqs.FilterMember(db.nfas, p, r[k]);
    }
    r
  }

  lemma NewerRanks()
    ensures Sorting.TotalPreorder(NewerOrSame)
  {
  }

  /** `get_nfas_by_requestor`: the requestor's NFAs, newest first. It is the general listing
      restricted to the requestor, so `ListingIsComplete` applies to it. */
  function GetNfasByRequestor(db: Db, requestorId: string, skip: nat, limit: nat): (r: seq<Nfa>)
    ensures r == GetAllNfas(db, skip, limit, NfaQuery(None, Some(requestorId)))
    ensures |r| <= limit
    ensures forall k :: 0 <= k < |r| ==> r[k].requestorId == requestorId && r[k] in db.nfas
    ensures Sorting.SortedBy(r, NewerOrSame)
  {
    GetAllNfas(db, skip, limit, NfaQuery(None, Some(requestorId)))
  }

  /** Without paging cut-off, the listing holds every matching NFA, each exactly as often as stored. */
  lemma {:induction false} ListingIsComplete(db: Db, limit: nat, query: NfaQuery)
    requires |Seqs.Filter(db.nfas, (n: Nfa) => Matches(query, n))| <= limit
    ensures forall n :: n in db.nfas && Matches(query, n) ==>
      multiset(GetAllNfas(db, 0, limit, query))[n] == multiset(db.nfas)[n]
  {
    var p := (n: Nfa) => Matches(query, n);
    var matching := Seqs.Filter(db.nfas, p);
    NewerRanks();
    var sorted := Sorting.Sort(matching, NewerOrSame);
    assert Seqs.Page(sorted, 0, limit) == sorted;
    forall n | n in db.nfas && Matches(query, n)
      ensures multiset(GetAllNfas(db, 0, limit, query))[n] == multiset(db.nfas)[n]
    {
      Seqs.FilterMultiset(db.nfas, p, n);
    }
  }

  // ------------------------------------------------------------ numbering

  /** `NFA/<year>/`, the prefix of every number issued in that year. */
  function YearPrefix(year: nat): (p: string)
    ensures |p| == |Text.NatToString(year)| + 5
  {
    "NFA/" + Text.NatToString(year) + "/"
  }

  /** A number with the year's prefix splits at '/' into "NFA", the year, and then the rest's own parts. */
  lemma YearNumberParts(number: string, year: nat)
    requires Text.IsPrefix(YearPrefix(year), number)
    ensures Text.Split(number, '/') == ["NFA", Text.NatToString(year)] + Text.Split(number[|YearPrefix(year)|..], '/')
  {
    var y := Text.NatToString(year);
    var rest := number[|YearPrefix(year)|..];
    assert number == "NFA" + ['/'] + (y + ['/'] + rest) by {
      assert number == number[..|YearPrefix(year)|] + rest;
    }
    assert '/' !in "NFA";
    Text.SplitAfter("NFA", '/', y + ['/'] + rest);
    assert '/' !in y by {
      forall k | 0 <= k < |y| ensures y[k] != '/' {
        assert Text.IsDigit(y[k]);
      }
    }
    Text.SplitAfter(y, '/', rest);
  }

  /** Element 2 of the number split at '/': the serial part, up to the next '/'. */
  function SerialField(number: string, year: nat): (f: string)
    requires Text.IsPrefix(YearPrefix(year), number)
    ensures '/' !in f
    ensures f == Text.Split(number[|YearPrefix(year)|..], '/')[0]
  {
    YearNumberParts(number, year);
    Text.Split(number, '/')[2]
  }

  /** The NFA holds a number issued in that year (the `$regex: ^NFA/<year>/` match). */
  predicate InYear(n: Nfa, year: nat) {
    n.nfaNumber.Assigned? && Text.IsPrefix(YearPrefix(year), n.nfaNumber.value)
  }

  /** `$toInt` of the serial part: defined on a non-empty run of digits. */
  function Serial(n: Nfa, year: nat): Option<nat>
    requires InYear(n, year)
  {
    Text.ParseNat(SerialField(n.nfaNumber.value, year))
  }

  /** The `$match` and `$project` stages: the serial of every NFA numbered in that year.
      One serial `$toInt` cannot convert makes the whole aggregation fail. */
  function YearSerials(nfas: seq<Nfa>, year: nat): (r: Result<seq<nat>, ServiceError>)
    ensures r.Failure? <==> exists k :: 0 <= k < |nfas| && InYear(nfas[k], year) && Serial(nfas[k], year).None?
    ensures r.Success? ==> forall k :: 0 <= k < |nfas| && InYear(nfas[k], year) ==> Serial(nfas[k], year).value in r.value
    ensures r.Success? ==> forall v :: v in r.value ==>
      exists n :: n in nfas && InYear(n, year) && Serial(n, year) == Some(v)
  {
    if |nfas| == 0 then Success([])
    else
      var rest := YearSerials(nfas[1..], year);
      assert forall k :: 1 <= k < |nfas| ==> nfas[k] == nfas[1..][k - 1];
      if InYear(nfas[0], year) then
        match Serial(nfas[0], year)
        case None => Failure(InternalError("Failed to parse the serial of an NFA number"))
        case Some(v) =>
          if rest.Failure? then rest
          else Success([v] + rest.value)
      else rest
  }

  function MaxOf(s: seq<nat>): (m: nat)
    requires |s| > 0
    ensures m in s
    ensures forall k :: 0 <= k < |s| ==> s[k] <= m
  {
    if |s| == 1 then s[0]
    else
      var m := MaxOf(s[1..]);
      assert forall k :: 1 <= k < |s| ==> s[k] == s[1..][k - 1];
      if s[0] >= m then s[0] else m
  }

  /** The `$sort`/`$limit` stages and the increment: one more than the highest serial of the year, or 1. */
  function NextSerial(nfas: seq<Nfa>, year: nat): (r: Result<nat, ServiceError>)
    ensures r.Success? <==> YearSerials(nfas, year).Success?
    ensures r.Success? ==> r.value >= 1
  {
    match YearSerials(nfas, year)
    case Failure(e) => Failure(e)
    case Success(serials) =>
      if |serials| > 0 then Success(MaxOf(serials) + 1) else Success(1)
  }

  /** The next serial is above every serial of the year and one above an existing one,
      or 1 when the year has no numbered NFA yet. */
  lemma NextSerialIsMaxPlusOne(nfas: seq<Nfa>, year: nat)
    requires NextSerial(nfas, year).Success?
    ensures var n := NextSerial(nfas, year).value;
      && (forall k :: 0 <= k < |nfas| && InYear(nfas[k], year) ==> Serial(nfas[k], year).value < n)
      && (|| (n == 1 && forall k :: 0 <= k < |nfas| ==> !InYear(nfas[k], year))
          || (exists x :: x in nfas && InYear(x, year) && Serial(x, year) == Some(n - 1)))
  {
    var serials := YearSerials(nfas, year).value;
    if |serials| > 0 {
      var m := MaxOf(serials);
      SerialsBelow(nfas, year, serials, m);
      assert m in serials;
    } else {
      assert forall k :: 0 <= k < |nfas| ==> !InYear(nfas[k], year);
    }
  }

  /** An upper bound of the collected serials bounds the serial of every NFA of the year. */
  lemma SerialsBelow(nfas: seq<Nfa>, year: nat, serials: seq<nat>, m: nat)
    requires YearSerials(nfas, year) == Success(serials)
    requires forall j :: 0 <= j < |serials| ==> serials[j] <= m
    ensures forall k :: 0 <= k < |nfas| && InYear(nfas[k], year) ==> Serial(nfas[k], year).value <= m
  {
    forall k | 0 <= k < |nfas| && InYear(nfas[k], year) ensures Serial(nfas[k], year).value <= m {
      var v := Serial(nfas[k], year).value;
      var j :| 0 <= j < |serials| && serials[j] == v;
    }
  }

  /** `NFA/<year>/<n:04d>`. */
  function FormatNumber(year: nat, n: nat): string {
    YearPrefix(year) + Text.ZeroPad(Text.NatToString(n), 4)
  }

  /** `generate_nfa_number`: the year's prefix followed by the next serial, zero-padded to 4 digits. */
  function GenerateNfaNumber(nfas: seq<Nfa>, year: nat): (r: Result<string, ServiceError>)
    ensures r.Success? <==> NextSerial(nfas, year).Success?
    ensures r.Success? ==> Text.IsPrefix(YearPrefix(year), r.value)
  {
    var n :- NextSerial(nfas, year);
    assert Text.IsPrefix(YearPrefix(year), FormatNumber(year, n)) by {
      assert FormatNumber(year, n)[..|YearPrefix(year)|] == YearPrefix(year);
    }
    Success(FormatNumber(year, n))
  }

  /** The serial part of a formatted number reads back as the serial it was made from, padded to at least 4 digits. */
  lemma {:induction false} FormatNumberRoundTrip(year: nat, n: nat)
    ensures Text.IsPrefix(YearPrefix(year), FormatNumber(year, n))
    ensures Text.ParseNat(SerialField(FormatNumber(year, n), year)) == Some(n)
    ensures |SerialField(FormatNumber(year, n), year)| >= 4
  {
    var number := FormatNumber(year, n);
    var padded := Text.ZeroPad(Text.NatToString(n), 4);
    assert number[..|YearPrefix(year)|] == YearPrefix(year);
    assert number[|YearPrefix(year)|..] == padded;
    assert '/' !in padded by {
      var d := Text.NatToString(n);
      forall k | 0 <= k < |padded| ensures padded[k] != '/' {
        if k >= |padded| - |d| {
          assert padded[k] == padded[|padded| - |d|..][k - (|padded| - |d|)];
          assert Text.IsDigit(d[k - (|padded| - |d|)]);
        }
      }
    }
    Text.SplitNoSep(padded, '/');
    Text.PaddedRoundTrip(n, 4);
  }

  /** A generated number is not held by any NFA yet. */
  lemma GeneratedNumberIsFresh(nfas: seq<Nfa>, year: nat)
    requires GenerateNfaNumber(nfas, year).Success?
    ensures forall k :: 0 <= k < |nfas| ==> nfas[k].nfaNumber != Assigned(GenerateNfaNumber(nfas, year).value)
  {
    var n := NextSerial(nfas, year).value;
    NextSerialIsMaxPlusOne(nfas, year);
    FormatNumberRoundTrip(year, n);
    var f := FormatNumber(year, n);
    forall k | 0 <= k < |nfas| ensures nfas[k].nfaNumber != Assigned(f) {
      if InYear(nfas[k], year) {
        assert Serial(nfas[k], year).value < n;
        assert Text.ParseNat(SerialField(nfas[k].nfaNumber.value, year)) != Text.ParseNat(SerialField(f, year));
      }
    }
  }

  // --------------------------------------------------------- finalisation

  /** `finalize_nfa`: a fresh number, status `approved`, stage `completed` and the PDF location.
      A number that cannot be generated makes the call fail before anything is written. */
  function FinalizeNfa(db: Db, nfaId: string, pdfUrl: string, year: nat, now: Time): (r: Result<Saved, ServiceError>)
    ensures r.Failure? <==> GenerateNfaNumber(db.nfas, year).Failure?
    ensures r.Success? && FindNfa(db, nfaId).None? ==> r.value.db == db && r.value.nfa.None?
    ensures r.Success? && FindNfa(db, nfaId).Some? ==>
      var prev := FindNfa(db, nfaId).value;
      && r.value.nfa.Some? && r.value.nfa == FindNfa(r.value.db, nfaId)
      && r.value.nfa.value.nfaNumber == Assigned(GenerateNfaNumber(db.nfas, year).value)
      && r.value.nfa.value.status == NfaStatus.Approved && r.value.nfa.value.currentStage == "completed"
      && r.value.nfa.value.pdfUrl == Some(pdfUrl)
      && r.value.nfa.value.section1 == prev.section1 && r.value.nfa.value.section2 == prev.section2
      && r.value.nfa.value.requestorId == prev.requestorId && r.value.nfa.value.requestorName == prev.requestorName
      && r.value.nfa.value.id == prev.id && r.value.nfa.value.createdAt == prev.createdAt
      && r.value.nfa.value.updatedAt == now
    ensures r.Success? ==> OnlyNfaTouched(db.nfas, r.value.db.nfas, nfaId)
    ensures r.Success? ==> r.value.db.steps == db.steps && OthersUnchanged(r.value.db, db)
  {
    var number :- GenerateNfaNumber(db.nfas, year);
    match NfaIndex(db.nfas, nfaId)
    case None => Success(Saved(db, None))
    case Some(i) =>
      var n := db.nfas[i].(nfaNumber := Assigned(number), status := NfaStatus.Approved,
                           currentStage := "completed", pdfUrl := Some(pdfUrl), updatedAt := now);
      Success(Saved(SetNfa(db, i, n), Some(n)))
  }

  /** Finalising keeps the `nfa_number` index satisfied: the number it writes is fresh. */
  lemma FinalizeKeepsNumberIndex(db: Db, nfaId: string, pdfUrl: string, year: nat, now: Time)
    requires NumberIndexHolds(db.nfas)
    requires FinalizeNfa(db, nfaId, pdfUrl, year, now).Success?
    ensures NumberIndexHolds(FinalizeNfa(db, nfaId, pdfUrl, year, now).value.db.nfas)
  {
    GeneratedNumberIsFresh(db.nfas, year);
    var r := FinalizeNfa(db, nfaId, pdfUrl, year, now).value.db.nfas;
    match NfaIndex(db.nfas, nfaId)
    case None =>
    case Some(w) =>
      forall i, j | 0 <= i < |r| && 0 <= j < |r| && i != j && r[i].nfaNumber != NoKey
        ensures r[i].nfaNumber != r[j].nfaNumber
      {
        if i != w && j != w {
          assert r[i] == db.nfas[i] && r[j] == db.nfas[j];
        }
      }
  }

  // --------------------------------------------------------------- deletion

  /** `delete_nfa`: removes the first NFA with that id and every step and attachment of that id;
      reports whether an NFA was removed. Steps and attachments go even when no NFA matched. */
  function DeleteNfa(db: Db, nfaId: string): (r: Deleted)
    ensures r.deleted <==> exists j :: 0 <= j < |db.nfas| && db.nfas[j].id == nfaId
    ensures !r.deleted ==> r.db.nfas == db.nfas
    ensures r.deleted ==> var i := NfaIndex(db.nfas, nfaId).value; r.db.nfas == db.nfas[..i] + db.nfas[i + 1..]
    ensures forall k :: 0 <= k < |r.db.steps| ==> r.db.steps[k].nfaId != nfaId
    ensures forall k :: 0 <= k < |db.steps| && db.steps[k].nfaId != nfaId ==> db.steps[k] in r.db.steps
    ensures forall s: Step :: multiset(r.db.steps)[s] == if s.nfaId != nfaId then multiset(db.steps)[s] else 0
    ensures forall k :: 0 <= k < |r.db.attachments| ==> r.db.attachments[k].nfaId != nfaId
    ensures forall k :: 0 <= k < |db.attachments| && db.attachments[k].nfaId != nfaId ==> db.attachments[k] in r.db.attachments
    ensures forall a: Attachment :: multiset(r.db.attachments)[a] == if a.nfaId != nfaId then multiset(db.attachments)[a] else 0
    ensures r.db.users == db.users && r.db.vendors == db.vendors
  {
    var steps := Seqs.Filter(db.steps, (s: Step) => s.nfaId != nfaId);
    var attachments := Seqs.Filter(db.attachments, (a: Attachment) => a.nfaId != nfaId);
    Seqs.FilterCounts(db.steps, (s: Step) => s.nfaId != nfaId);
    Seqs.FilterCounts(db.attachments, (a: Attachment) => a.nfaId != nfaId);
    match NfaIndex(db.nfas, nfaId)
    case None => Deleted(db.(steps := steps, attachments := attachments), false)
    case Some(i) =>
      Deleted(db.(nfas := db.nfas[..i] + db.nfas[i + 1..], steps := steps, attachments := attachments), true)
  }

  /** Ids are unique in the store. */
  predicate UniqueIds(nfas: seq<Nfa>) {
    forall i, j :: 0 <= i < j < |nfas| ==> nfas[i].id != nfas[j].id
  }

  /** With unique ids, a deleted NFA can no longer be found. */
  lemma DeleteRemovesTheNfa(db: Db, nfaId: string)
    requires UniqueIds(db.nfas)
    ensures FindNfa(DeleteNfa(db, nfaId).db, nfaId).None?
  {
    var r := DeleteNfa(db, nfaId).db;
    match NfaIndex(db.nfas, nfaId)
    case None =>
    case Some(i) =>
      forall k | 0 <= k < |r.nfas| ensures r.nfas[k].id != nfaId {
        if k < i {
          assert r.nfas[k] == db.nfas[k];
        } else {
          assert r.nfas[k] == db.nfas[k + 1];
        }
      }
  }

  /** Deleting one NFA leaves every other NFA where a lookup finds it. */
  lemma {:induction false} DeleteKeepsOtherNfas(db: Db, nfaId: string, other: string)
    requires UniqueIds(db.nfas)
    requires other != nfaId
    ensures FindNfa(DeleteNfa(db, nfaId).db, other) == FindNfa(db, other)
  {
    match NfaIndex(db.nfas, nfaId)
    case None =>
    case Some(i) =>
      assert DeleteNfa(db, nfaId).db.nfas == db.nfas[..i] + db.nfas[i + 1..];
      KeptLookup(db.nfas, i, other);
  }

  /** The one step of the proof above that looks at positions: in the store without position `i`,
      the NFA with another id is found exactly where it was. */
  lemma KeptLookup(ns: seq<Nfa>, i: nat, other: string)
    requires UniqueIds(ns) && i < |ns| && ns[i].id != other
    ensures var rs := ns[..i] + ns[i + 1..];
      && (NfaIndex(rs, other).Some? <==> NfaIndex(ns, other).Some?)
      && (NfaIndex(rs, other).Some? ==> rs[NfaIndex(rs, other).value] == ns[NfaIndex(ns, other).value])
  {
    var rs := ns[..i] + ns[i + 1..];
    match NfaIndex(ns, other)
    case None =>
      forall k | 0 <= k < |rs| ensures rs[k].id != other {
        if k < i { assert rs[k] == ns[k]; } else { assert rs[k] == ns[k + 1]; }
      }
    case Some(o) =>
      var o' := if o < i then o else o - 1;
      assert rs[o'] == ns[o];
      var a := NfaIndex(rs, other).value;
      if a < i {
        assert rs[a] == ns[a];
      } else {
        assert rs[a] == ns[a + 1];
      }
  }
}

=== FILE: notifications.dfy ===
/** Notifications (backend/api/routes/notifications.py): nothing is stored; each notification is
    derived from one of the caller's approval steps and the NFA it belongs to. */
module Notifications {
  import opened Wrappers
  import opened Schemas
  import opened Records
  import Seqs
  import Sorting
  import Text
  import NfaService
  import ApprovalService

  // --------------------------------------------------------- the NFA label

  /** How `nfa.get('nfa_number', nfa_id[:8])` renders, as written: a key that holds null is
      present, so the fallback is skipped and Python prints `None`. */
  function NumberLabelAsWritten(n: NfaNumber, nfaId: string): (shown: string)
    ensures n == NullNumber ==> shown == "None"
    ensures n == NoKey ==> shown == Text.Prefix(nfaId, 8)
  {
    match n
    case NoKey => Text.Prefix(nfaId, 8)
    case NullNumber => "None"
    case Assigned(v) => v
  }

  /** The label the notifications use: the assigned number, or the first eight characters of
      the NFA id while it has none, whether the key is missing or null. */
  function NumberLabel(n: NfaNumber, nfaId: string): (shown: string)
    ensures n.Assigned? ==> shown == n.value
    ensures !n.Assigned? ==> shown == Text.Prefix(nfaId, 8) && Text.IsPrefix(shown, nfaId)
  {
    match n
    case Assigned(v) => v
    case _ => Text.Prefix(nfaId, 8)
  }

  /** The two renderings differ exactly on a null number: as written it prints `None`, where
      the fallback to the id was meant. */
  lemma NullNumberPrintsNone(n: NfaNumber, nfaId: string)
    requires Text.Prefix(nfaId, 8) != "None"
    ensures NumberLabelAsWritten(n, nfaId) != NumberLabel(n, nfaId) <==> n == NullNumber
    ensures NumberLabel(NullNumber, nfaId) == NumberLabel(NoKey, nfaId)
  {
  }

  /** As written, every NFA the service creates carries a null number, so until it is finalised
      every notification about it names it "NFA None". */
  lemma CreatedNfaLabelledNoneAsWritten(db: Db, s1: Section1, requestorId: string, name: string,
                                        id: string, now: Time)
    requires NfaService.CreateNfaAsWritten(db, s1, requestorId, name, id, now).Success?
    ensures var n := NfaService.CreateNfaAsWritten(db, s1, requestorId, name, id, now).value.nfa;
      NumberLabelAsWritten(n.nfaNumber, n.id) == "None"
  {
  }

  /** With the number left out at creation, a new NFA is labelled by its id. */
  lemma CreatedNfaLabelledById(db: Db, s1: Section1, requestorId: string, name: string, id: string, now: Time)
    ensures var n := NfaService.CreateNfa(db, s1, requestorId, name, id, now).nfa;
      NumberLabel(n.nfaNumber, n.id) == Text.Prefix(id, 8)
  {
  }

  // ------------------------------------------------------- relative time

  datatype TimeUnit = Day | Hour | Minute

  function UnitSeconds(u: TimeUnit): nat {
    match u
    case Day => 86400
    case Hour => 3600
    case Minute => 60
  }

  function UnitWord(u: TimeUnit): string {
    match u
    case Day => "day"
    case Hour => "hour"
    case Minute => "minute"
  }

  /** How long ago, in the largest unit that applies, or just now. */
  datatype Elapsed = JustNow | Ago(count: nat, unit: TimeUnit)

  /** The buckets of a `timedelta` of `delta` seconds: whole days (rounded down) first; only within
      a day, hours when over an hour, then minutes when over a minute. The remainder inside the
      day is always non-negative, so a moment slightly in the future reads as almost a day of hours. */
  function ElapsedSince(delta: int): (e: Elapsed)
    ensures e.Ago? ==> e.count >= 1
    ensures e == JustNow <==> delta / 86400 <= 0 && delta % 86400 <= 60
  {
    var days := delta / 86400;
    var seconds := delta % 86400;
    if days > 0 then Ago(days, Day)
    else if seconds > 3600 then Ago(seconds / 3600, Hour)
    else if seconds > 60 then Ago(seconds / 60, Minute)
    else JustNow
  }

  /** The count is the number of whole units elapsed: whole days when a day has passed, otherwise
      whole hours or minutes of the time of day the difference leaves. */
  lemma ElapsedCountsWholeUnits(delta: int)
    ensures delta >= 86400 ==> ElapsedSince(delta) == Ago(delta / 86400, Day)
    ensures var e := ElapsedSince(delta);
      e.Ago? && e.unit == Day ==> e.count * 86400 <= delta < (e.count + 1) * 86400
    ensures var e := ElapsedSince(delta);
      e.Ago? && e.unit != Day ==>
        delta / 86400 <= 0 && e.count * UnitSeconds(e.unit) <= delta % 86400 < (e.count + 1) * UnitSeconds(e.unit)
  {
  }

  /** "N unit ago", with the plural only for more than one. */
  function TimeText(e: Elapsed): (s: string)
    ensures e == JustNow ==> s == "Just now"
    ensures e.Ago? ==> s == Text.NatToString(e.count) + " " + UnitWord(e.unit) + (if e.count > 1 then "s" else "") + " ago"
  {
    match e
    case JustNow => "Just now"
    case Ago(n, u) => Text.NatToString(n) + " " + UnitWord(u) + (if n > 1 then "s" else "") + " ago"
  }

  /** The count shown can be read back from the text: the part before the first space. */
  lemma TimeTextCountReadsBack(e: Elapsed)
    requires e.Ago?
    ensures Text.ParseNat(Text.Split(TimeText(e), ' ')[0]) == Some(e.count)
  {
    var digits := Text.NatToString(e.count);
    var rest := UnitWord(e.unit) + (if e.count > 1 then "s" else "") + " ago";
    assert ' ' !in digits by {
      forall k | 0 <= k < |digits| ensures digits[k] != ' ' {
        assert Text.IsDigit(digits[k]);
      }
    }
    assert TimeText(e) == digits + [' '] + rest;
    Text.SplitAfter(digits, ' ', rest);
    Text.NatToStringRoundTrip(e.count);
  }

  /** An hour exactly is still counted in minutes, and ten seconds in the future reads as
      "23 hours ago". */
  lemma BoundaryCases()
    ensures ElapsedSince(3600) == Ago(60, Minute)
    ensures ElapsedSince(60) == JustNow
    ensures ElapsedSince(-10) == Ago(23, Hour)
    ensures ElapsedSince(86400) == Ago(1, Day)
  {
  }

  // --------------------------------------------------------- notifications

  /** An entry of `GET /unread`. */
  datatype UnreadNotice = UnreadNotice(title: string, message: string, time: string, kind: string, nfaId: string)

  /** The steps whose NFA still exists; the others are skipped. */
  function Live(db: Db, steps: seq<Step>): (r: seq<Step>)
    ensures |r| <= |steps|
    ensures forall k :: 0 <= k < |r| ==> FindNfa(db, r[k].nfaId).Some? && r[k] in steps
    ensures forall k :: 0 <= k < |steps| && FindNfa(db, steps[k].nfaId).Some? ==> steps[k] in r
  {
    var r := Seqs.Filter(steps, (s: Step) => FindNfa(db, s.nfaId).Some?);
    assert forall k :: 0 <= k < |r| ==> r[k] in multiset(steps);
    r
  }

  /** The entry for a pending step. The message names the NFA by `NumberLabel`. */
  function UnreadFor(s: Step, n: Nfa): (r: UnreadNotice)
    ensures r.nfaId == s.nfaId && r.title == "Approval Required" && r.time == "Just now" && r.kind == "approval"
    ensures r.message == Message(Pending, NumberLabel(n.nfaNumber, n.id))
  {
    UnreadNotice("Approval Required", "NFA " + NumberLabel(n.nfaNumber, n.id) + " needs your approval",
                 "Just now", "approval", s.nfaId)
  }

  predicate PendingFor(s: Step, userId: string) {
    s.approverId == userId && s.status == Pending
  }

  /** The caller's first ten pending steps, in store order; when fewer than ten come back, none
      was cut off. */
  function FirstPending(db: Db, userId: string): (r: seq<Step>)
    ensures |r| <= 10
    ensures forall k :: 0 <= k < |r| ==> r[k] in db.steps && PendingFor(r[k], userId)
    ensures |r| < 10 ==> forall j :: 0 <= j < |db.steps| && PendingFor(db.steps[j], userId) ==> db.steps[j] in r
  {
    var p := (s: Step) => PendingFor(s, userId);
    var pending := Seqs.Filter(db.steps, p);
    var r := Seqs.Take(pending, 10);
    forall k | 0 <= k < |r| ensures r[k] in db.steps && PendingFor(r[k], userId) {
      assert r[k] == pending[k];
      Seqs.FilterMember(db.steps, p, r[k]);
    }
    assert |r| < 10 ==> r == pending;
    r
  }

  /** `GET /unread`: one entry for each of the caller's first ten pending steps whose NFA still
      exists. */
  function GetUnread(db: Db, u: CurrentUser): (r: seq<UnreadNotice>)
    ensures |r| <= 10
    ensures forall k :: 0 <= k < |r| ==> r[k].title == "Approval Required" && r[k].time == "Just now"
    ensures forall k :: 0 <= k < |r| ==> r[k].kind == "approval" && FindNfa(db, r[k].nfaId).Some?
  {
    var live := Live(db, FirstPending(db, u.userId));
    seq(|live|, k requires 0 <= k < |live| => UnreadFor(live[k], FindNfa(db, live[k].nfaId).value))
  }

  /** Every unread entry is the entry of one of the caller's pending steps, worded for that step's
      NFA. */
  lemma UnreadComesFromPending(db: Db, u: CurrentUser, k: nat)
    requires k < |GetUnread(db, u)|
    ensures exists s :: s in db.steps && PendingFor(s, u.userId) && FindNfa(db, s.nfaId).Some? &&
                        GetUnread(db, u)[k] == UnreadFor(s, FindNfa(db, s.nfaId).value)
  {
    var first := FirstPending(db, u.userId);
    var live := Live(db, first);
    var s := live[k];
    var j :| 0 <= j < |first| && first[j] == s;
    assert s in db.steps && PendingFor(s, u.userId) && FindNfa(db, s.nfaId).Some?;
    assert GetUnread(db, u)[k] == UnreadFor(s, FindNfa(db, s.nfaId).value);
  }

  /** With fewer than ten pending steps, every one whose NFA exists has its entry. */
  lemma UnreadIsComplete(db: Db, u: CurrentUser, s: Step)
    requires |FirstPending(db, u.userId)| < 10
    requires s in db.steps && PendingFor(s, u.userId) && FindNfa(db, s.nfaId).Some?
    ensures exists k :: 0 <= k < |GetUnread(db, u)| && GetUnread(db, u)[k] == UnreadFor(s, FindNfa(db, s.nfaId).value)
  {
    var first := FirstPending(db, u.userId);
    var live := Live(db, first);
    var j :| 0 <= j < |db.steps| && db.steps[j] == s;
    assert s in first;
    var i :| 0 <= i < |first| && first[i] == s;
    var k :| 0 <= k < |live| && live[k] == s;
    assert GetUnread(db, u)[k] == UnreadFor(s, FindNfa(db, s.nfaId).value);
  }

  /** An entry of `GET /`. */
  datatype Notice = Notice(id: string, title: string, message: string, time: string, kind: string,
                           nfaId: string, read: bool)

  /** The title for a step's status. */
  function Title(s: ApprovalStatus): (t: string)
    ensures s == Pending <==> t == "Approval Required"
    ensures s == ApprovalStatus.Approved <==> t == "Approval Completed"
    ensures s != Pending && s != ApprovalStatus.Approved <==> t == "Approval Action"
  {
    match s
    case Pending => "Approval Required"
    case Approved => "Approval Completed"
    case _ => "Approval Action"
  }

  /** The message for a step's status: it opens with the NFA's label while the step is pending,
      and ends with it once the step is decided. */
  function Message(s: ApprovalStatus, text: string): (m: string)
    ensures |text| + 4 <= |m|
    ensures s == Pending ==> m[..4] == "NFA " && m[4..4 + |text|] == text
    ensures s != Pending ==> m[|m| - |text|..] == text
  {
    match s
    case Pending => "NFA " + text + " needs your approval"
    case Approved => "You approved NFA " + text
    case _ => "Action taken on NFA " + text
  }

  /** The entry for one step of an existing NFA: read exactly when the step is no longer pending. */
  function NoticeFor(s: Step, n: Nfa, now: Time): (r: Notice)
    ensures r.id == s.id && r.nfaId == s.nfaId && r.kind == "approval"
    ensures r.read <==> s.status != Pending
    ensures r.title == Title(s.status)
    ensures r.time == TimeText(ElapsedSince(now - s.createdAt))
    ensures r.message == Message(s.status, NumberLabel(n.nfaNumber, n.id))
  {
    Notice(s.id, Title(s.status), Message(s.status, NumberLabel(n.nfaNumber, n.id)),
           TimeText(ElapsedSince(now - s.createdAt)), "approval", s.nfaId, s.status != Pending)
  }

  /** A pending step reads the same on both lists: `GET /unread` and `GET /` give it the same
      title and message, and `GET /` shows it unread. */
  lemma UnreadMatchesNotice(s: Step, n: Nfa, now: Time)
    requires s.status == Pending
    ensures UnreadFor(s, n).title == NoticeFor(s, n, now).title
    ensures UnreadFor(s, n).message == NoticeFor(s, n, now).message
    ensures !NoticeFor(s, n, now).read
  {
  }

  /** The caller's steps, newest first, at most `limit`. */
  function RecentSteps(db: Db, userId: string, limit: nat): (r: seq<Step>)
    ensures |r| <= limit
    ensures forall k :: 0 <= k < |r| ==> r[k].approverId == userId && r[k] in db.steps
    ensures Sorting.SortedBy(r, ApprovalService.StepNewerOrSame)
  {
    var p := (s: Step) => s.approverId == userId;
    var mine := Seqs.Filter(db.steps, p);
    ApprovalService.NewerRanks();
    var r := Sorting.SortTake(mine, ApprovalService.StepNewerOrSame, limit);
    forall k | 0 <= k < |r| ensures r[k].approverId == userId && r[k] in db.steps {
      Seqs.FilterMember(db.steps, p, r[k]);
    }
    r
  }

  /** Beyond `limit` steps, the list keeps the newest: a step of the caller left out is no newer
      than any step kept. */
  lemma RecentAreNewest(db: Db, userId: string, limit: nat, s: Step, k: nat)
    requires s in db.steps && s.approverId == userId && s !in RecentSteps(db, userId, limit)
    requires k < |RecentSteps(db, userId, limit)|
    ensures RecentSteps(db, userId, limit)[k].createdAt >= s.createdAt
  {
    var mine := Seqs.Filter(db.steps, (w: Step) => w.approverId == userId);
    ApprovalService.NewerRanks();
    Sorting.TakeKeepsTop(mine, ApprovalService.StepNewerOrSame, limit, s, k);
  }

  /** `GET /`: one entry per recent step of the caller whose NFA still exists, newest first. */
  function GetAll(db: Db, u: CurrentUser, limit: nat, now: Time): (r: seq<Notice>)
    ensures |r| <= limit
    ensures forall k :: 0 <= k < |r| ==> (r[k].read <==> r[k].title != "Approval Required")
  {
    NoticesFor(db, Live(db, RecentSteps(db, u.userId, limit)), now)
  }

  /** Every entry of `GET /` is the entry of one of the caller's stored steps whose NFA exists. */
  lemma EntriesComeFromOwnSteps(db: Db, u: CurrentUser, limit: nat, now: Time, k: nat)
    requires k < |GetAll(db, u, limit, now)|
    ensures exists s :: s in db.steps && s.approverId == u.userId && FindNfa(db, s.nfaId).Some? &&
                        GetAll(db, u, limit, now)[k] == NoticeFor(s, FindNfa(db, s.nfaId).value, now)
  {
    var live := Live(db, RecentSteps(db, u.userId, limit));
    LiveRecent(db, u.userId, limit);
    var s := live[k];
    assert s in db.steps && s.approverId == u.userId && FindNfa(db, s.nfaId).Some?;
    assert GetAll(db, u, limit, now)[k] == NoticeFor(s, FindNfa(db, s.nfaId).value, now);
  }

  /** Up to `limit` steps, every step of the caller whose NFA exists has its entry. */
  lemma {:induction false} GetAllIsComplete(db: Db, u: CurrentUser, limit: nat, now: Time, s: Step)
    requires |Seqs.Filter(db.steps, (w: Step) => w.approverId == u.userId)| <= limit
    requires s in db.steps && s.approverId == u.userId && FindNfa(db, s.nfaId).Some?
    ensures NoticeFor(s, FindNfa(db, s.nfaId).value, now) in GetAll(db, u, limit, now)
  {
    var mine := Seqs.Filter(db.steps, (w: Step) => w.approverId == u.userId);
    ApprovalService.NewerRanks();
    var recent := RecentSteps(db, u.userId, limit);
    assert recent == Sorting.Sort(mine, ApprovalService.StepNewerOrSame);
    var i :| 0 <= i < |db.steps| && db.steps[i] == s;
    assert s in multiset(mine);
    assert s in multiset(recent);
    var j :| 0 <= j < |recent| && recent[j] == s;
    var live := Live(db, recent);
    var k :| 0 <= k < |live| && live[k] == s;
    assert GetAll(db, u, limit, now)[k] == NoticeFor(s, FindNfa(db, s.nfaId).value, now);
  }

  /** One entry per step, each of whose NFAs exists. */
  function NoticesFor(db: Db, steps: seq<Step>, now: Time): (r: seq<Notice>)
    requires forall k :: 0 <= k < |steps| ==> FindNfa(db, steps[k].nfaId).Some?
    ensures |r| == |steps|
    ensures forall k :: 0 <= k < |r| ==> r[k] == NoticeFor(steps[k], FindNfa(db, steps[k].nfaId).value, now)
    ensures forall k :: 0 <= k < |r| ==> (r[k].read <==> r[k].title != "Approval Required")
  {
    seq(|steps|, k requires 0 <= k < |steps| => NoticeFor(steps[k], FindNfa(db, steps[k].nfaId).value, now))
  }

  /** The recent steps whose NFA exists are the caller's and come from the store. */
  lemma LiveRecent(db: Db, userId: string, limit: nat)
    ensures var live := Live(db, RecentSteps(db, userId, limit));
      forall k :: 0 <= k < |live| ==> live[k] in db.steps && live[k].approverId == userId
  {
    var rs := RecentSteps(db, userId, limit);
    var live := Live(db, rs);
    forall k | 0 <= k < |live| ensures live[k] in db.steps && live[k].approverId == userId {
      var j :| 0 <= j < |rs| && rs[j] == live[k];
    }
  }

  /** `POST /{notification_id}/read`: acknowledges without changing anything. */
  function MarkRead(db: Db, notificationId: string): (r: (Db, string))
    ensures r.0 == db && r.1 == "success"
  {
    (db, "success")
  }
}

=== FILE: records.dfy ===
/** The stored documents of the application and the in-memory store that
    holds them: one sequence per collection, in insertion order. Identifiers
    (UUIDs), timestamps and password hashes are supplied from outside. */
module Records {
  import opened Wrappers
  import opened Schemas
  import Seqs

  /** A point in time, in whole seconds (the ISO timestamps of the source compare the same way). */
  type Time = int

  /** One entry of a section's approver list, a free-form object `{user_id, name, sequence?, designation?}`.
      Each field is `None` when its key is missing from the entry. */
  datatype ApproverEntry = ApproverEntry(
    userId: Option<string>,
    name: Option<string>,
    sequence: Option<int>,
    designation: Option<string>)

  /** The fields of section 1 that the workflow reads; the other form fields travel unread. */
  datatype Section1 = Section1(
    subjectItem: Option<string>,
    department: Option<string>,
    currency: Option<Currency>,
    ibmCoordinator: Option<string>,
    approverList: seq<ApproverEntry>)

  /** The fields of section 2 that the workflow reads. */
  datatype Section2 = Section2(
    vendorId: Option<string>,
    approverList: seq<ApproverEntry>)

  /** A section 1 form with the schema defaults: rupees, no approvers. */
  function EmptySection1(): (s: Section1)
    ensures s.currency == Some(DefaultCurrency) && s.approverList == []
  {
    Section1(None, None, Some(DefaultCurrency), None, [])
  }

  /** A section 2 form with the schema defaults: no vendor, no approvers. */
  function EmptySection2(): (s: Section2)
    ensures s.vendorId.None? && s.approverList == []
  {
    Section2(None, [])
  }

  /** `nfa_number` as stored: the key may be missing, hold null, or hold a number. */
  datatype NfaNumber = NoKey | NullNumber | Assigned(value: string)

  datatype Nfa = Nfa(
    id: string,
    nfaNumber: NfaNumber,
    requestorId: string,
    requestorName: string,
    status: NfaStatus,
    currentStage: string,
    section1: Section1,
    section2: Option<Section2>,   // None is the empty document `{}`
    createdAt: Time,
    updatedAt: Time,
    pdfUrl: Option<string>)

  /** The section 2 approver list, empty while section 2 is the empty document. */
  function Section2Approvers(n: Nfa): seq<ApproverEntry> {
    match n.section2
    case None => []
    case Some(s2) => s2.approverList
  }

  /** One approval workflow document: one approver's step in one section of one NFA. */
  datatype Step = Step(
    id: string,
    nfaId: string,
    section: int,
    sequence: int,
    approverId: string,
    approverName: string,
    approverDesignation: string,
    status: ApprovalStatus,
    action: Option<ApprovalAction>,
    comments: Option<string>,
    actionTimestamp: Option<Time>,
    createdAt: Time)

  datatype Attachment = Attachment(id: string, nfaId: string, filename: string)

  datatype User = User(
    id: string,
    username: string,
    email: string,
    passwordHash: string,
    name: string,
    designation: Option<string>,
    department: Option<string>,
    location: Option<string>,
    userFunction: Option<string>,
    roles: seq<UserRole>,
    isActive: Option<bool>,        // None: the key is missing
    plainPassword: Option<string>, // a `password` key written by a user update
    createdAt: Time,
    updatedAt: Time)

  /** A user as the API returns it: every stored field except the password hash. */
  datatype UserView = UserView(
    id: string,
    username: string,
    email: string,
    name: string,
    designation: Option<string>,
    department: Option<string>,
    location: Option<string>,
    userFunction: Option<string>,
    roles: seq<UserRole>,
    isActive: Option<bool>,
    createdAt: Time)

  /** The projection `{"password_hash": 0}`. */
  function View(u: User): (v: UserView)
    ensures v.id == u.id && v.username == u.username && v.email == u.email && v.roles == u.roles
    ensures v.name == u.name && v.isActive == u.isActive
  {
    UserView(u.id, u.username, u.email, u.name, u.designation, u.department, u.location,
             u.userFunction, u.roles, u.isActive, u.createdAt)
  }

  datatype Vendor = Vendor(
    id: string,
    name: string,
    category: Option<string>,
    contactPerson: Option<string>,
    email: Option<string>,
    phone: Option<string>,
    address: Option<string>,
    status: VendorStatus,
    createdAt: Time,
    updatedAt: Time)

  /** The database: one collection per kind of document. */
  datatype Db = Db(
    users: seq<User>,
    nfas: seq<Nfa>,
    steps: seq<Step>,
    attachments: seq<Attachment>,
    vendors: seq<Vendor>)

  /** Work handed to the Celery queue with `.delay(...)`: e-mails and PDF generation.
      What the queued jobs then do is not part of this model. */
  datatype Effect =
    | NotifyCoordinator(nfaId: string, coordinator: string)
    | GeneratePdf(nfaId: string)
    | NotifyApprover(nfaId: string, email: string, name: string)

  /** Python truthiness of an optional text: present and not empty. */
  predicate Truthy(s: Option<string>) {
    s.Some? && s.value != ""
  }

  /** The users, attachments and vendors of two stores are the same. */
  predicate OthersUnchanged(a: Db, b: Db) {
    a.users == b.users && a.attachments == b.attachments && a.vendors == b.vendors
  }

  /** The authenticated caller, as decoded from the access token. */
  datatype CurrentUser = CurrentUser(userId: string, username: Option<string>, roles: seq<UserRole>)

  predicate HasRole(u: CurrentUser, r: UserRole) {
    r in u.roles
  }

  /** Position of the NFA `find_one({"id": id})` returns. */
  function NfaIndex(nfas: seq<Nfa>, id: string): (r: Option<nat>)
    ensures r.Some? ==> r.value < |nfas| && nfas[r.value].id == id
    ensures r.Some? ==> forall j :: 0 <= j < r.value ==> nfas[j].id != id
    ensures r.None? <==> forall j :: 0 <= j < |nfas| ==> nfas[j].id != id
  {
    Seqs.FirstIndex(nfas, (n: Nfa) => n.id == id)
  }

  /** `update_one({"id": id}, ...)` touched at most the document `find_one` sees: the collection
      keeps its length, and every other position keeps its NFA. */
  predicate OnlyNfaTouched(before: seq<Nfa>, after: seq<Nfa>, id: string) {
    && |after| == |before|
    && forall j :: 0 <= j < |before| && NfaIndex(before, id) != Some(j) ==> after[j] == before[j]
  }

  function FindNfa(db: Db, id: string): (r: Option<Nfa>)
    ensures r.Some? <==> exists j :: 0 <= j < |db.nfas| && db.nfas[j].id == id
    ensures r.Some? ==> r.value.id == id && r.value in db.nfas
  {
    match NfaIndex(db.nfas, id)
    case None => None
    case Some(i) => Some(db.nfas[i])
  }

  /** Position of the step `find_one({"id": id})` returns. */
  function StepIndex(steps: seq<Step>, id: string): (r: Option<nat>)
    ensures r.Some? ==> r.value < |steps| && steps[r.value].id == id
    ensures r.Some? ==> forall j :: 0 <= j < r.value ==> steps[j].id != id
    ensures r.None? <==> forall j :: 0 <= j < |steps| ==> steps[j].id != id
  {
    Seqs.FirstIndex(steps, (s: Step) => s.id == id)
  }

  /** The step `find_one({"id": id})` returns. */
  function FindStep(db: Db, id: string): (r: Option<Step>)
    ensures r.Some? <==> exists j :: 0 <= j < |db.steps| && db.steps[j].id == id
    ensures r.Some? ==> r.value.id == id && r.value in db.steps
  {
    match StepIndex(db.steps, id)
    case None => None
    case Some(i) => Some(db.steps[i])
  }

  function UserIndex(users: seq<User>, id: string): (r: Option<nat>)
    ensures r.Some? ==> r.value < |users| && users[r.value].id == id
    ensures r.Some? ==> forall j :: 0 <= j < r.value ==> users[j].id != id
    ensures r.None? <==> forall j :: 0 <= j < |users| ==> users[j].id != id
  {
    Seqs.FirstIndex(users, (u: User) => u.id == id)
  }

  /** `get_user_by_id`: the first user with that id, without its password hash. */
  function FindUserView(db: Db, id: string): (r: Option<UserView>)
    ensures r.Some? <==> exists j :: 0 <= j < |db.users| && db.users[j].id == id
    ensures r.Some? ==> r.value.id == id
    ensures r.Some? ==> r.value == View(db.users[UserIndex(db.users, id).value])
  {
    match UserIndex(db.users, id)
    case None => None
    case Some(i) => Some(View(db.users[i]))
  }

  /** User ids are unique in the store. */
  predicate UniqueUserIds(users: seq<User>) {
    forall i, j :: 0 <= i < j < |users| ==> users[i].id != users[j].id
  }

  /** With unique ids, looking an account up by its id gives that account's view. */
  lemma FoundViewIsThatAccount(db: Db, k: nat)
    requires UniqueUserIds(db.users) && k < |db.users|
    ensures FindUserView(db, db.users[k].id) == Some(View(db.users[k]))
  {
    var i := UserIndex(db.users, db.users[k].id).value;
    assert i == k;
  }

  function VendorIndex(vendors: seq<Vendor>, id: string): (r: Option<nat>)
    ensures r.Some? ==> r.value < |vendors| && vendors[r.value].id == id
    ensures r.Some? ==> forall j :: 0 <= j < r.value ==> vendors[j].id != id
    ensures r.None? <==> forall j :: 0 <= j < |vendors| ==> vendors[j].id != id
  {
    Seqs.FirstIndex(vendors, (v: Vendor) => v.id == id)
  }
}

=== FILE: reports.dfy ===
/** The statistics endpoints (backend/api/routes/reports.py): the role-dependent dashboard, the
    status breakdown over a window of days, approver performance and vendor usage. */
module Reports {
  import opened Wrappers
  import opened Schemas
  import opened Records
  import opened Http
  import Seqs
  import Sorting
  import Grouping
  import ApprovalService

  // -------------------------------------------------------------- dashboard

  datatype RequestorStats = RequestorStats(total: nat, pending: nat, approved: nat)

  datatype AdminTotals = AdminTotals(totalUsers: nat, totalNfas: nat, totalVendors: nat)

  /** The dashboard: a section per role the caller holds. */
  datatype Dashboard = Dashboard(
    name: Option<string>,
    roles: seq<UserRole>,
    requestor: Option<RequestorStats>,
    approver: Option<ApprovalService.Statistics>,
    admin: Option<AdminTotals>)

  /** Still waiting for a section's approvers. */
  predicate AwaitingApproval(n: Nfa) {
    n.status == Section1Pending || n.status == Section2Pending
  }

  predicate IsFinallyApproved(n: Nfa) {
    n.status == NfaStatus.Approved
  }

  predicate Never(n: Nfa) {
    false
  }

  /** The caller's own NFAs counted in total, still in approval, and approved. */
  function RequestorCounts(db: Db, userId: string): (r: RequestorStats)
    ensures r.pending + r.approved <= r.total
    ensures r.total == |Seqs.Filter(db.nfas, (n: Nfa) => n.requestorId == userId)|
    ensures r.pending == |Seqs.Filter(db.nfas, (n: Nfa) => n.requestorId == userId && AwaitingApproval(n))|
    ensures r.approved == |Seqs.Filter(db.nfas, (n: Nfa) => n.requestorId == userId && IsFinallyApproved(n))|
  {
    var mine := (n: Nfa) => n.requestorId == userId;
    var own := Seqs.Filter(db.nfas, mine);
    Seqs.DisjointCounts(own, AwaitingApproval, IsFinallyApproved, Never);
    Seqs.FilterOfFilter(db.nfas, mine, AwaitingApproval, (n: Nfa) => n.requestorId == userId && AwaitingApproval(n));
    Seqs.FilterOfFilter(db.nfas, mine, IsFinallyApproved, (n: Nfa) => n.requestorId == userId && IsFinallyApproved(n));
    RequestorStats(|own|, |Seqs.Filter(own, AwaitingApproval)|, |Seqs.Filter(own, IsFinallyApproved)|)
  }

  /** `GET /dashboard`: requestors and superadmins see their own NFAs, approvers and superadmins
      their step counts, superadmins the collection sizes. */
  function GetDashboard(db: Db, u: CurrentUser): (r: Dashboard)
    ensures r.name == u.username && r.roles == u.roles
    ensures r.requestor.Some? <==> HasRole(u, Requestor) || HasRole(u, Superadmin)
    ensures r.approver.Some? <==> HasRole(u, Approver) || HasRole(u, Superadmin)
    ensures r.admin.Some? <==> HasRole(u, Superadmin)
    ensures r.requestor.Some? ==> r.requestor.value == RequestorCounts(db, u.userId)
    ensures r.approver.Some? ==> r.approver.value == ApprovalService.GetApproverStatistics(db, u.userId)
    ensures r.admin.Some? ==> r.admin.value == AdminTotals(|db.users|, |db.nfas|, |db.vendors|)
  {
    Dashboard(u.username, u.roles,
              if HasRole(u, Requestor) || HasRole(u, Superadmin) then Some(RequestorCounts(db, u.userId)) else None,
              if HasRole(u, Approver) || HasRole(u, Superadmin)
              then Some(ApprovalService.GetApproverStatistics(db, u.userId)) else None,
              if HasRole(u, Superadmin) then Some(AdminTotals(|db.users|, |db.nfas|, |db.vendors|)) else None)
  }

  /** A coordinator who is neither requestor, approver nor superadmin gets an empty dashboard. */
  lemma CoordinatorDashboardIsEmpty(db: Db, u: CurrentUser)
    requires u.roles == [Coordinator]
    ensures var d := GetDashboard(db, u);
      d.requestor.None? && d.approver.None? && d.admin.None?
  {
  }

  // -------------------------------------------------------------- analytics

  const SecondsPerDay: int := 86400

  /** The `days` query parameter: 30 when absent, otherwise 1 to 365. */
  function AnalyticsDays(days: Option<int>): (r: Result<nat, HttpError>)
    ensures days.None? ==> r == Success(30)
    ensures days.Some? ==> (r.Success? <==> 1 <= days.value <= 365)
    ensures r.Success? ==> 1 <= r.value <= 365 && (days.Some? ==> r.value == days.value)
    ensures r.Failure? ==> r.error.code == UnprocessableEntity
  {
    match days
    case None => Success(30)
    case Some(d) => if 1 <= d <= 365 then Success(d) else Failure(ValidationError())
  }

  function StatusOf(n: Nfa): NfaStatus {
    n.status
  }

  /** The department typed into an NFA's section 1 form; a form without one groups under null. */
  function DepartmentOf(n: Nfa): Option<string> {
    n.section1.department
  }

  /** One entry of a `$group` with `$sum: 1`: a key and how many documents carry it. */
  datatype GroupCount<K> = GroupCount(key: K, count: nat)

  datatype NfaAnalytics = NfaAnalytics(periodDays: nat, byStatus: seq<GroupCount<NfaStatus>>,
                                       byDepartment: seq<GroupCount<Option<string>>>)

  /** The NFAs created within the last `days` days. */
  function Window(db: Db, days: nat, now: Time): (w: seq<Nfa>)
    ensures forall k :: 0 <= k < |w| ==> w[k] in db.nfas && w[k].createdAt >= now - days * SecondsPerDay
    ensures forall k :: 0 <= k < |db.nfas| && db.nfas[k].createdAt >= now - days * SecondsPerDay ==> db.nfas[k] in w
  {
    var w := Seqs.Filter(db.nfas, (n: Nfa) => n.createdAt >= now - days * SecondsPerDay);
    assert forall k :: 0 <= k < |w| ==> w[k] in multiset(db.nfas);
    w
  }

  /** The window holds each recent NFA exactly as often as the store does, and no older one. */
  lemma WindowCounts(db: Db, days: nat, now: Time, n: Nfa)
    ensures multiset(Window(db, days, now))[n] ==
      if n.createdAt >= now - days * SecondsPerDay then multiset(db.nfas)[n] else 0
  {
    Seqs.FilterMultiset(db.nfas, (m: Nfa) => m.createdAt >= now - days * SecondsPerDay, n);
  }

  /** The grouping of the window by a key: one count per key present, in order of first appearance. */
  function Breakdown<K(==)>(w: seq<Nfa>, key: Nfa -> K): (r: seq<GroupCount<K>>)
    ensures |r| == |Grouping.Keys(w, key)|
    ensures forall k :: 0 <= k < |r| ==>
      r[k].key == Grouping.Keys(w, key)[k] && r[k].count == Grouping.CountKey(w, key, r[k].key)
    ensures forall j, k :: 0 <= j < k < |r| ==> r[j].key != r[k].key
  {
    var ks := Grouping.Keys(w, key);
    seq(|ks|, k requires 0 <= k < |ks| => GroupCount(ks[k], Grouping.CountKey(w, key, ks[k])))
  }

  /** One count per status present in the window. */
  function StatusBreakdown(w: seq<Nfa>): (r: seq<GroupCount<NfaStatus>>)
    ensures forall k :: 0 <= k < |r| ==> r[k].count == Grouping.CountKey(w, StatusOf, r[k].key) && r[k].count > 0
    ensures forall j, k :: 0 <= j < k < |r| ==> r[j].key != r[k].key
    ensures forall k :: 0 <= k < |w| ==> exists j :: 0 <= j < |r| && r[j].key == w[k].status
  {
    var r := Breakdown(w, StatusOf);
    assert forall k :: 0 <= k < |w| ==> StatusOf(w[k]) in Grouping.Keys(w, StatusOf);
    r
  }

  /** One count per department named in the window, read with a cap of 100 groups. */
  function DepartmentBreakdown(w: seq<Nfa>): (r: seq<GroupCount<Option<string>>>)
    ensures |r| == Seqs.Min(100, |Grouping.Keys(w, DepartmentOf)|)
    ensures forall k :: 0 <= k < |r| ==> r[k].count == Grouping.CountKey(w, DepartmentOf, r[k].key) && r[k].count > 0
    ensures forall j, k :: 0 <= j < k < |r| ==> r[j].key != r[k].key
  {
    Seqs.Take(Breakdown(w, DepartmentOf), 100)
  }

  /** The counts of a breakdown, added up. */
  function TotalCount<K>(r: seq<GroupCount<K>>): nat {
    if |r| == 0 then 0 else TotalCount(r[..|r| - 1]) + r[|r| - 1].count
  }

  /** The counts of a grouping add up to the number of grouped NFAs. */
  lemma {:induction false} BreakdownCovers<K>(w: seq<Nfa>, key: Nfa -> K)
    ensures TotalCount(Breakdown(w, key)) == |w|
  {
    var ks := Grouping.Keys(w, key);
    SumMatches(w, key, ks, Breakdown(w, key));
    Grouping.GroupsPartition(w, key);
  }

  lemma {:induction false} SumMatches<K>(w: seq<Nfa>, key: Nfa -> K, ks: seq<K>, r: seq<GroupCount<K>>)
    requires |r| == |ks|
    requires forall k :: 0 <= k < |r| ==> r[k].count == Grouping.CountKey(w, key, ks[k])
    ensures TotalCount(r) == Grouping.SumCounts(w, key, ks)
  {
    if |r| > 0 {
      SumMatches(w, key, ks[..|ks| - 1], r[..|r| - 1]);
    }
  }

  /** The status counts add up to the number of NFAs in the window. */
  lemma BreakdownCoversWindow(w: seq<Nfa>)
    ensures TotalCount(StatusBreakdown(w)) == |w|
  {
    BreakdownCovers(w, StatusOf);
  }

  /** Every key that occurs in the grouped NFAs has an entry. */
  lemma BreakdownListsEveryKey<K>(w: seq<Nfa>, key: Nfa -> K, k: nat)
    requires k < |w|
    ensures exists j :: 0 <= j < |Breakdown(w, key)| && Breakdown(w, key)[j].key == key(w[k])
  {
    var ks := Grouping.Keys(w, key);
    var j :| 0 <= j < |ks| && ks[j] == key(w[k]);
    assert Breakdown(w, key)[j].key == ks[j];
  }

  /** While the window names at most 100 departments, none is cut and their counts add up to the
      number of NFAs in the window; every department of the window is listed. */
  lemma DepartmentsCoverWindow(w: seq<Nfa>)
    requires |Grouping.Keys(w, DepartmentOf)| <= 100
    ensures TotalCount(DepartmentBreakdown(w)) == |w|
    ensures forall k :: 0 <= k < |w| ==>
      exists j :: 0 <= j < |DepartmentBreakdown(w)| && DepartmentBreakdown(w)[j].key == DepartmentOf(w[k])
  {
    var b := Breakdown(w, DepartmentOf);
    assert DepartmentBreakdown(w) == b;
    BreakdownCovers(w, DepartmentOf);
    forall k | 0 <= k < |w|
      ensures exists j :: 0 <= j < |b| && b[j].key == DepartmentOf(w[k])
    {
      BreakdownListsEveryKey(w, DepartmentOf, k);
    }
  }

  /** `GET /nfa-analytics`: superadmins only; the status and department breakdowns over the window. */
  function GetNfaAnalytics(db: Db, u: CurrentUser, days: Option<int>, now: Time): (r: Result<NfaAnalytics, HttpError>)
    ensures !HasRole(u, Superadmin) ==> r.Failure? && r.error.code == Forbidden
    ensures HasRole(u, Superadmin) ==> (r.Success? <==> AnalyticsDays(days).Success?)
    ensures r.Success? ==>
      && r.value.periodDays == AnalyticsDays(days).value
      && r.value.byStatus == StatusBreakdown(Window(db, r.value.periodDays, now))
      && r.value.byDepartment == DepartmentBreakdown(Window(db, r.value.periodDays, now))
  {
    match RequireRole(u, [Superadmin])
    case Some(e) => Failure(e)
    case None =>
      match AnalyticsDays(days)
      case Failure(e) => Failure(e)
      case Success(d) =>
        var w := Window(db, d, now);
        Success(NfaAnalytics(d, StatusBreakdown(w), DepartmentBreakdown(w)))
  }

  // ---------------------------------------------------- approver performance

  datatype ApproverRow = ApproverRow(approverId: string, approverName: string, total: nat,
                                     approved: nat, rejected: nat, pending: nat)

  function ApproverOf(s: Step): string {
    s.approverId
  }

  /** The name on the approver's first step in store order (`$first`). */
  function FirstName(steps: seq<Step>, approverId: string): (name: string)
    ensures (exists k :: 0 <= k < |steps| && steps[k].approverId == approverId) ==>
      exists k :: 0 <= k < |steps| && steps[k].approverId == approverId && steps[k].approverName == name
  {
    match Seqs.FirstIndex(steps, (s: Step) => s.approverId == approverId)
    case None => ""
    case Some(i) => steps[i].approverName
  }

  /** One approver's group: all their steps, and those approved, rejected and pending. */
  function RowFor(steps: seq<Step>, approverId: string): (r: ApproverRow)
    ensures r.approverId == approverId
    ensures r.total >= r.approved + r.rejected + r.pending
    ensures r.total == Grouping.CountKey(steps, ApproverOf, approverId)
    ensures r.total == ApprovalService.CountSteps(steps, approverId, None)
    ensures r.approved == ApprovalService.CountSteps(steps, approverId, Some(ApprovalStatus.Approved))
    ensures r.rejected == ApprovalService.CountSteps(steps, approverId, Some(ApprovalStatus.Rejected))
    ensures r.pending == ApprovalService.CountSteps(steps, approverId, Some(Pending))
  {
    ApprovalService.CountsPartition(steps, approverId);
    CountStepsIsGroupCount(steps, approverId);
    ApproverRow(approverId, FirstName(steps, approverId),
                ApprovalService.CountSteps(steps, approverId, None),
                ApprovalService.CountSteps(steps, approverId, Some(ApprovalStatus.Approved)),
                ApprovalService.CountSteps(steps, approverId, Some(ApprovalStatus.Rejected)),
                ApprovalService.CountSteps(steps, approverId, Some(Pending)))
  }

  lemma {:induction false} CountStepsAppend(t: seq<Step>, x: Step, approverId: string, status: Option<ApprovalStatus>)
    ensures ApprovalService.CountSteps(t + [x], approverId, status) ==
      ApprovalService.CountSteps(t, approverId, status)
      + (if ApprovalService.Counted(x, approverId, status) then 1 else 0)
  {
    if |t| > 0 {
      assert (t + [x])[1..] == t[1..] + [x];
      CountStepsAppend(t[1..], x, approverId, status);
    }
  }

  /** The approver's step count is the size of their group. */
  lemma {:induction false} CountStepsIsGroupCount(steps: seq<Step>, approverId: string)
    ensures ApprovalService.CountSteps(steps, approverId, None) == Grouping.CountKey(steps, ApproverOf, approverId)
  {
    if |steps| > 0 {
      var t := steps[..|steps| - 1];
      assert steps == t + [steps[|steps| - 1]];
      CountStepsIsGroupCount(t, approverId);
      CountStepsAppend(t, steps[|steps| - 1], approverId, None);
    }
  }

  /** One row per approver holding a step, in order of first appearance. */
  function AllRows(steps: seq<Step>): (r: seq<ApproverRow>)
    ensures |r| == |Grouping.Keys(steps, ApproverOf)|
    ensures forall k :: 0 <= k < |r| ==> r[k] == RowFor(steps, Grouping.Keys(steps, ApproverOf)[k])
  {
    var ks := Grouping.Keys(steps, ApproverOf);
    seq(|ks|, k requires 0 <= k < |ks| => RowFor(steps, ks[k]))
  }

  function RowTotals(r: seq<ApproverRow>): nat {
    if |r| == 0 then 0 else RowTotals(r[..|r| - 1]) + r[|r| - 1].total
  }

  /** Every step is in exactly one approver's group: the totals add up to the number of steps. */
  lemma {:induction false} RowsCoverAllSteps(steps: seq<Step>)
    ensures RowTotals(AllRows(steps)) == |steps|
  {
    var ks := Grouping.Keys(steps, ApproverOf);
    RowTotalsMatch(steps, ks, AllRows(steps));
    Grouping.GroupsPartition(steps, ApproverOf);
  }

  lemma {:induction false} RowTotalsMatch(steps: seq<Step>, ks: seq<string>, r: seq<ApproverRow>)
    requires |r| == |ks|
    requires forall k :: 0 <= k < |r| ==> r[k].total == Grouping.CountKey(steps, ApproverOf, ks[k])
    ensures RowTotals(r) == Grouping.SumCounts(steps, ApproverOf, ks)
  {
    if |r| > 0 {
      RowTotalsMatch(steps, ks[..|ks| - 1], r[..|r| - 1]);
    }
  }

  predicate MoreSteps(a: ApproverRow, b: ApproverRow) {
    a.total >= b.total
  }

  lemma MoreStepsRanks()
    ensures Sorting.TotalPreorder(MoreSteps)
  {
  }

  /** `GET /approval-performance`: superadmins only; the 20 busiest approvers, busiest first. */
  function GetApprovalPerformance(db: Db, u: CurrentUser): (r: Result<seq<ApproverRow>, HttpError>)
    ensures r.Failure? <==> !HasRole(u, Superadmin)
    ensures r.Failure? ==> r.error.code == Forbidden
    ensures r.Success? ==> |r.value| <= 20 && Sorting.SortedBy(r.value, MoreSteps)
    ensures r.Success? ==> forall k :: 0 <= k < |r.value| ==>
      && r.value[k] == RowFor(db.steps, r.value[k].approverId)
      && r.value[k].total >= r.value[k].approved + r.value[k].rejected + r.value[k].pending
      && r.value[k].approverId in Grouping.Keys(db.steps, ApproverOf)
    ensures r.Success? ==> r.value == TopApprovers(db.steps)
  {
    match RequireRole(u, [Superadmin])
    case Some(e) => Failure(e)
    case None => Success(TopApprovers(db.steps))
  }

  function TopApprovers(steps: seq<Step>): (r: seq<ApproverRow>)
    ensures |r| <= 20 && Sorting.SortedBy(r, MoreSteps)
    ensures forall k :: 0 <= k < |r| ==> r[k] in AllRows(steps)
    ensures forall k :: 0 <= k < |r| ==>
      r[k] == RowFor(steps, r[k].approverId) && r[k].approverId in Grouping.Keys(steps, ApproverOf)
    ensures r == Sorting.SortTake(AllRows(steps), MoreSteps, 20)
  {
    MoreStepsRanks();
    var all := AllRows(steps);
    var r := Sorting.SortTake(all, MoreSteps, 20);
    forall k | 0 <= k < |r|
      ensures r[k] == RowFor(steps, r[k].approverId) && r[k].approverId in Grouping.Keys(steps, ApproverOf)
    {
      var j :| 0 <= j < |all| && all[j] == r[k];
    }
    r
  }

  /** Beyond 20 approvers, the table keeps the busiest: an approver left out holds no more steps
      than any approver listed. */
  lemma TopApproversAreBusiest(steps: seq<Step>, j: nat, k: nat)
    requires j < |steps| && RowFor(steps, steps[j].approverId) !in TopApprovers(steps)
    requires k < |TopApprovers(steps)|
    ensures TopApprovers(steps)[k].total >= RowFor(steps, steps[j].approverId).total
  {
    RowInAll(steps, j);
    Sorting.TakeKeepsTop(AllRows(steps), MoreSteps, 20, RowFor(steps, steps[j].approverId), k);
  }

  /** With at most 20 approvers, every approver holding a step gets a row. */
  lemma EveryApproverListed(steps: seq<Step>, k: nat)
    requires |Grouping.Keys(steps, ApproverOf)| <= 20
    requires k < |steps|
    ensures RowFor(steps, steps[k].approverId) in TopApprovers(steps)
  {
    var row := RowFor(steps, steps[k].approverId);
    RowInAll(steps, k);
    MoreStepsRanks();
    assert row in multiset(AllRows(steps));
    assert TopApprovers(steps) == Sorting.Sort(AllRows(steps), MoreSteps);
  }

  /** Every approver holding a step has a row among all rows. */
  lemma RowInAll(steps: seq<Step>, k: nat)
    requires k < |steps|
    ensures RowFor(steps, steps[k].approverId) in AllRows(steps)
  {
    var all := AllRows(steps);
    var ks := Grouping.Keys(steps, ApproverOf);
    assert ApproverOf(steps[k]) in ks;
    var j :| 0 <= j < |ks| && ks[j] == steps[k].approverId;
    assert all[j] == RowFor(steps, ks[j]);
  }

  // ------------------------------------------------------------ vendor usage

  datatype VendorUsage = VendorUsage(vendorId: string, count: nat, vendorName: string)

  /** The vendor ids the NFAs name in section 2, one per NFA that names one. */
  function UsedVendorIds(nfas: seq<Nfa>): (ids: seq<string>)
    ensures |ids| <= |nfas|
  {
    if |nfas| == 0 then []
    else
      var last := nfas[|nfas| - 1];
      UsedVendorIds(nfas[..|nfas| - 1])
        + (if last.section2.Some? && last.section2.value.vendorId.Some? then [last.section2.value.vendorId.value] else [])
  }

  function Same(x: string): string {
    x
  }

  /** The vendor's name, or "Unknown" when no vendor has that id. */
  function VendorName(db: Db, id: string): (name: string)
    ensures (forall k :: 0 <= k < |db.vendors| ==> db.vendors[k].id != id) ==> name == "Unknown"
    ensures (exists k :: 0 <= k < |db.vendors| && db.vendors[k].id == id) ==>
      exists k :: 0 <= k < |db.vendors| && db.vendors[k].id == id && db.vendors[k].name == name
  {
    match VendorIndex(db.vendors, id)
    case None => "Unknown"
    case Some(i) => db.vendors[i].name
  }

  predicate MoreUses(a: VendorUsage, b: VendorUsage) {
    a.count >= b.count
  }

  lemma MoreUsesRanks()
    ensures Sorting.TotalPreorder(MoreUses)
  {
  }

  /** The usage row of one vendor id: how many NFAs name it, and the vendor's name. */
  function Usage(db: Db, id: string): VendorUsage {
    VendorUsage(id, Grouping.CountKey(UsedVendorIds(db.nfas), Same, id), VendorName(db, id))
  }

  /** One usage row per vendor named by some NFA, in order of first appearance. */
  function AllUsages(db: Db): (r: seq<VendorUsage>)
    ensures forall k :: 0 <= k < |r| ==>
      && r[k].vendorId in UsedVendorIds(db.nfas)
      && r[k].count == Grouping.CountKey(UsedVendorIds(db.nfas), Same, r[k].vendorId)
      && r[k].vendorName == VendorName(db, r[k].vendorId)
    ensures forall id :: id in UsedVendorIds(db.nfas) ==> Usage(db, id) in r
    ensures forall j, k :: 0 <= j < k < |r| ==> r[j].vendorId != r[k].vendorId
  {
    var ids := UsedVendorIds(db.nfas);
    var ks := Grouping.Keys(ids, Same);
    var r := seq(|ks|, k requires 0 <= k < |ks| => Usage(db, ks[k]));
    forall id | id in ids ensures Usage(db, id) in r {
      var i :| 0 <= i < |ids| && ids[i] == id;
      assert Same(ids[i]) in ks;
      var k :| 0 <= k < |ks| && ks[k] == id;
      assert r[k] == Usage(db, id);
    }
    forall k | 0 <= k < |r| ensures r[k].vendorId in ids {
      var i :| 0 <= i < |ids| && Same(ids[i]) == ks[k];
    }
    r
  }

  /** The ten most used, most used first. */
  function TopVendors(db: Db): (r: seq<VendorUsage>)
    ensures |r| <= 10 && Sorting.SortedBy(r, MoreUses)
    ensures forall k :: 0 <= k < |r| ==> r[k] in AllUsages(db)
    ensures r == Sorting.SortTake(AllUsages(db), MoreUses, 10)
  {
    MoreUsesRanks();
    Sorting.SortTake(AllUsages(db), MoreUses, 10)
  }

  /** Beyond ten vendors, the list keeps the most used: a vendor left out is named by no more NFAs
      than any vendor listed. */
  lemma TopVendorsAreMostUsed(db: Db, id: string, k: nat)
    requires id in UsedVendorIds(db.nfas)
    requires forall m :: 0 <= m < |TopVendors(db)| ==> TopVendors(db)[m].vendorId != id
    requires k < |TopVendors(db)|
    ensures TopVendors(db)[k].count >= Grouping.CountKey(UsedVendorIds(db.nfas), Same, id)
  {
    assert Usage(db, id) in AllUsages(db);
    Sorting.TakeKeepsTop(AllUsages(db), MoreUses, 10, Usage(db, id), k);
  }

  /** With at most ten vendors in use, every vendor some NFA names is listed. */
  lemma EveryUsedVendorListed(db: Db, id: string)
    requires |Grouping.Keys(UsedVendorIds(db.nfas), Same)| <= 10
    requires id in UsedVendorIds(db.nfas)
    ensures Usage(db, id) in TopVendors(db)
  {
    var all := AllUsages(db);
    MoreUsesRanks();
    assert Usage(db, id) in multiset(all);
    assert TopVendors(db) == Sorting.Sort(all, MoreUses);
  }

  /** `GET /vendor-analytics`: superadmins and coordinators; the ten most used vendors, most used first. */
  function GetVendorAnalytics(db: Db, u: CurrentUser): (r: Result<seq<VendorUsage>, HttpError>)
    ensures r.Failure? <==> !HasAnyRole(u, [Superadmin, Coordinator])
    ensures r.Success? ==> |r.value| <= 10 && Sorting.SortedBy(r.value, MoreUses)
    ensures r.Success? ==> forall k :: 0 <= k < |r.value| ==>
      && r.value[k].vendorId in UsedVendorIds(db.nfas)
      && r.value[k].count == Grouping.CountKey(UsedVendorIds(db.nfas), Same, r.value[k].vendorId)
      && r.value[k].vendorName == VendorName(db, r.value[k].vendorId)
    ensures r.Success? ==> r.value == TopVendors(db)
  {
    match RequireRole(u, [Superadmin, Coordinator])
    case Some(e) => Failure(e)
    case None => Success(TopVendors(db))
  }

  /** The performance row of an approver agrees with that approver's own statistics. */
  lemma RowMatchesStatistics(db: Db, approverId: string)
    ensures
      var row := RowFor(db.steps, approverId);
      var stats := ApprovalService.GetApproverStatistics(db, approverId);
      row.total == stats.total && row.approved == stats.approved
      && row.rejected == stats.rejected && row.pending == stats.pending
  {
  }
}

=== FILE: schemas.dfy ===
/** The enumerations of the data model and the defaults the workflow relies on
    (backend/models/schemas.py). Each enumeration is stored as its string value. */
module Schemas {
  import opened Wrappers

  datatype UserRole = Requestor | Approver | Coordinator | CentralReviewer | Superadmin

  function RoleValue(r: UserRole): string {
    match r
    case Requestor => "requestor"
    case Approver => "approver"
    case Coordinator => "coordinator"
    case CentralReviewer => "central_reviewer"
    case Superadmin => "superadmin"
  }

  /** Reads a stored role value back; unknown text is not a role. */
  function ParseRole(s: string): (r: Option<UserRole>)
    ensures r.Some? ==> RoleValue(r.value) == s
  {
    if s == "requestor" then Some(Requestor)
    else if s == "approver" then Some(Approver)
    else if s == "coordinator" then Some(Coordinator)
    else if s == "central_reviewer" then Some(CentralReviewer)
    else if s == "superadmin" then Some(Superadmin)
    else None
  }

  lemma RoleRoundTrip(r: UserRole)
    ensures ParseRole(RoleValue(r)) == Some(r)
  {
  }

  /** A user created without explicit roles is a requestor. */
  const DefaultRoles: seq<UserRole> := [Requestor]

  datatype NfaStatus =
    | Draft
    | Section1Pending
    | Section1Approved
    | Section2Pending
    | Section2Approved
    | Approved
    | Rejected
    | SentBack

  function StatusValue(s: NfaStatus): string {
    match s
    case Draft => "draft"
    case Section1Pending => "section1_pending"
    case Section1Approved => "section1_approved"
    case Section2Pending => "section2_pending"
    case Section2Approved => "section2_approved"
    case Approved => "approved"
    case Rejected => "rejected"
    case SentBack => "sent_back"
  }

  /** Reads a stored status value back. */
  function ParseStatus(s: string): (r: Option<NfaStatus>)
    ensures r.Some? ==> StatusValue(r.value) == s
  {
    if s == "draft" then Some(Draft)
    else if s == "section1_pending" then Some(Section1Pending)
    else if s == "section1_approved" then Some(Section1Approved)
    else if s == "section2_pending" then Some(Section2Pending)
    else if s == "section2_approved" then Some(Section2Approved)
    else if s == "approved" then Some(NfaStatus.Approved)
    else if s == "rejected" then Some(NfaStatus.Rejected)
    else if s == "sent_back" then Some(NfaStatus.SentBack)
    else None
  }

  /** Every status is listed once, in declaration order. */
  const AllStatuses: seq<NfaStatus> :=
    [Draft, Section1Pending, Section1Approved, Section2Pending, Section2Approved,
     NfaStatus.Approved, NfaStatus.Rejected, NfaStatus.SentBack]

  /** There are exactly eight statuses, their values are distinct and they all read back. */
  lemma StatusesComplete(s: NfaStatus)
    ensures s in AllStatuses
    ensures |AllStatuses| == 8
    ensures ParseStatus(StatusValue(s)) == Some(s)
    ensures forall t :: StatusValue(t) == StatusValue(s) ==> t == s
  {
  }

  datatype ApprovalAction = Approve | Reject | SendBack

  function ActionValue(a: ApprovalAction): string {
    match a
    case Approve => "approve"
    case Reject => "reject"
    case SendBack => "send_back"
  }

  datatype ApprovalStatus = Pending | Approved | Rejected | SentBack

  function ApprovalStatusValue(s: ApprovalStatus): string {
    match s
    case Pending => "pending"
    case Approved => "approved"
    case Rejected => "rejected"
    case SentBack => "sent_back"
  }

  /** The step status an action leaves behind: approve gives approved, reject gives rejected,
      send back gives sent back, and no action leaves a step pending. */
  function StepStatusAfter(a: ApprovalAction): (s: ApprovalStatus)
    ensures s != Pending
    ensures a == Approve <==> s == ApprovalStatus.Approved
    ensures a == Reject <==> s == ApprovalStatus.Rejected
    ensures a == SendBack <==> s == ApprovalStatus.SentBack
  {
    match a
    case Approve => ApprovalStatus.Approved
    case Reject => ApprovalStatus.Rejected
    case SendBack => ApprovalStatus.SentBack
  }

  /** The action that leads to a decided step status. */
  function ActionFor(s: ApprovalStatus): (a: ApprovalAction)
    requires s != Pending
  {
    match s
    case Approved => Approve
    case Rejected => Reject
    case SentBack => SendBack
  }

  /** Actions and decided step statuses correspond one to one. */
  lemma ActionsMatchStatuses(a: ApprovalAction, s: ApprovalStatus)
    ensures ActionFor(StepStatusAfter(a)) == a
    ensures s != Pending ==> StepStatusAfter(ActionFor(s)) == s
  {
  }

  datatype VendorStatus = Active | Inactive

  function VendorStatusValue(s: VendorStatus): string {
    match s
    case Active => "active"
    case Inactive => "inactive"
  }

  datatype Currency = INR | USD | YEN

  /** Section 1 amounts are in rupees unless stated otherwise. */
  const DefaultCurrency: Currency := INR

  /** A vendor record that does not say otherwise is active. */
  const DefaultVendorStatus: VendorStatus := Active
}

=== FILE: seqs.dfy ===
/** Sequence helpers that mirror how the document store answers queries:
    `find_one` sees the first match in insertion order, `find` keeps the
    matches in order, `limit`/`skip` cut the cursor. */
module Seqs {
  import opened Wrappers

  function Min(a: int, b: int): int {
    if a <= b then a else b
  }

  /** The position of the first element that satisfies `p`. */
  function FirstIndex<T>(s: seq<T>, p: T -> bool): (r: Option<nat>)
    ensures r.Some? ==> r.value < |s| && p(s[r.value])
    ensures r.Some? ==> forall j :: 0 <= j < r.value ==> !p(s[j])
    ensures r.None? <==> forall j :: 0 <= j < |s| ==> !p(s[j])
  {
    if |s| == 0 then None
    else if p(s[0]) then Some(0)
    else
      match FirstIndex(s[1..], p)
      case None => None
      case Some(k) => Some(k + 1)
  }

  /** The elements that satisfy `p`, in their original order. */
  function Filter<T>(s: seq<T>, p: T -> bool): (r: seq<T>)
    ensures |r| <= |s|
    ensures forall k :: 0 <= k < |r| ==> p(r[k])
    ensures forall k :: 0 <= k < |s| && p(s[k]) ==> s[k] in r
    ensures multiset(r) <= multiset(s)
  {
    if |s| == 0 then []
    else
      assert s == [s[0]] + s[1..];
      (if p(s[0]) then [s[0]] else []) + Filter(s[1..], p)
  }

  /** Filtering keeps exactly the occurrences that satisfy the predicate. */
  lemma {:induction false} FilterMultiset<T>(s: seq<T>, p: T -> bool, x: T)
    ensures multiset(Filter(s, p))[x] == if p(x) then multiset(s)[x] else 0
  {
    if |s| > 0 {
      FilterMultiset(s[1..], p, x);
      assert s == [s[0]] + s[1..];
      assert multiset(s) == multiset{s[0]} + multiset(s[1..]);
      var head := if p(s[0]) then [s[0]] else [];
      assert Filter(s, p) == head + Filter(s[1..], p);
      assert multiset(Filter(s, p)) == multiset(head) + multiset(Filter(s[1..], p));
    }
  }

  /** Filtering a non-empty sequence decides its head, then filters the rest. */
  lemma FilterCons<T>(s: seq<T>, p: T -> bool)
    requires |s| > 0
    ensures Filter(s, p) == (if p(s[0]) then [s[0]] else []) + Filter(s[1..], p)
  {
  }

  /** `FilterMultiset` for every element at once. */
  lemma FilterCounts<T>(s: seq<T>, p: T -> bool)
    ensures forall x :: multiset(Filter(s, p))[x] == if p(x) then multiset(s)[x] else 0
  {
    forall x ensures multiset(Filter(s, p))[x] == if p(x) then multiset(s)[x] else 0 {
      FilterMultiset(s, p, x);
    }
  }

  /** What a filter keeps comes from the input and satisfies the predicate. */
  lemma FilterMember<T>(s: seq<T>, p: T -> bool, x: T)
    requires x in Filter(s, p)
    ensures p(x) && x in s
  {
    var r := Filter(s, p);
    var k :| 0 <= k < |r| && r[k] == x;
    assert x in multiset(r);
  }

  /** Every element satisfies `p`, so filtering keeps everything. */
  lemma {:induction false} FilterAll<T>(s: seq<T>, p: T -> bool)
    requires forall k :: 0 <= k < |s| ==> p(s[k])
    ensures Filter(s, p) == s
  {
    if |s| > 0 {
      FilterAll(s[1..], p);
    }
  }

  /** Three predicates no element satisfies two of at once count at most the whole sequence. */
  lemma {:induction false} DisjointCounts<T>(s: seq<T>, p: T -> bool, q: T -> bool, r: T -> bool)
    requires forall x :: !(p(x) && q(x)) && !(p(x) && r(x)) && !(q(x) && r(x))
    ensures |Filter(s, p)| + |Filter(s, q)| + |Filter(s, r)| <= |s|
  {
    if |s| > 0 {
      DisjointCounts(s[1..], p, q, r);
    }
  }

  /** Replacing one element by another that the predicate treats alike keeps the filtered length. */
  lemma {:induction false} FilterUpdateLength<T>(s: seq<T>, p: T -> bool, i: nat, x: T)
    requires i < |s| && p(x) == p(s[i])
    ensures |Filter(s[i := x], p)| == |Filter(s, p)|
  {
    if i > 0 {
      FilterUpdateLength(s[1..], p, i - 1, x);
      assert s[i := x][1..] == s[1..][i - 1 := x];
    }
  }

  lemma {:induction false} FilterConcat<T>(a: seq<T>, b: seq<T>, p: T -> bool)
    ensures Filter(a + b, p) == Filter(a, p) + Filter(b, p)
  {
    if |a| > 0 {
      assert (a + b)[1..] == a[1..] + b;
      FilterConcat(a[1..], b, p);
    } else {
      assert a + b == b;
    }
  }

  /** Filtering twice is filtering once by both conditions. */
  lemma {:induction false} FilterOfFilter<T>(s: seq<T>, p: T -> bool, q: T -> bool, both: T -> bool)
    requires forall x :: both(x) == (p(x) && q(x))
    ensures Filter(Filter(s, p), q) == Filter(s, both)
  {
    if |s| > 0 {
      FilterOfFilter(s[1..], p, q, both);
      var head := if p(s[0]) then [s[0]] else [];
      FilterConcat(head, Filter(s[1..], p), q);
      if p(s[0]) {
        assert Filter(head, q) == (if q(s[0]) then [s[0]] else []) by {
          assert head[1..] == [];
        }
      }
    }
  }

  /** The first `n` elements (a cursor's `limit(n)` or `to_list(n)`). */
  function Take<T>(s: seq<T>, n: nat): (r: seq<T>)
    ensures |r| == Min(n, |s|)
    ensures r == s[..|r|]
  {
    if |s| <= n then s else s[..n]
  }

  /** `skip(skip).limit(limit)`: the window of at most `limit` elements after the first `skip`. */
  function Page<T>(s: seq<T>, skip: nat, limit: nat): (r: seq<T>)
    ensures |r| <= limit
    ensures skip >= |s| ==> r == []
    ensures skip < |s| ==> |r| == Min(limit, |s| - skip)
    ensures forall k :: 0 <= k < |r| ==> skip + k < |s| && r[k] == s[skip + k]
  {
    if skip >= |s| then [] else Take(s[skip..], limit)
  }

  /** `list.remove(x)`: drops the first occurrence of `x`, if there is one. */
  function RemoveFirst<T(==)>(s: seq<T>, x: T): (r: seq<T>)
    ensures x !in s ==> r == s
    ensures x in s ==> |r| == |s| - 1
    ensures multiset(r) == multiset(s) - multiset{x}
  {
    if |s| == 0 then []
    else
      assert s == [s[0]] + s[1..];
      if s[0] == x then s[1..]
      else [s[0]] + RemoveFirst(s[1..], x)
  }

  /** Removing from a sequence without repetitions removes every occurrence. */
  lemma {:induction false} RemoveFirstDistinct<T>(s: seq<T>, x: T)
    requires Distinct(s)
    ensures forall y :: y in RemoveFirst(s, x) <==> y in s && y != x
    ensures Distinct(RemoveFirst(s, x))
  {
    if |s| > 0 {
      var t := s[1..];
      assert Distinct(t) by {
        forall i, j | 0 <= i < j < |t| ensures t[i] != t[j] {
          assert t[i] == s[i + 1] && t[j] == s[j + 1];
        }
      }
      assert s[0] !in t by {
        forall j | 0 <= j < |t| ensures t[j] != s[0] {
          assert t[j] == s[j + 1];
        }
      }
      RemoveFirstDistinct(t, x);
      if s[0] != x {
        ConsDistinct(s[0], RemoveFirst(t, x));
      }
    }
  }

  lemma ConsDistinct<T>(a: T, t: seq<T>)
    requires a !in t && Distinct(t)
    ensures Distinct([a] + t)
  {
    var u := [a] + t;
    forall i, j | 0 <= i < j < |u| ensures u[i] != u[j] {
      assert u[j] == t[j - 1];
      if i > 0 {
        assert u[i] == t[i - 1];
      }
    }
  }

  /** No element occurs twice. */
  predicate Distinct<T(==)>(s: seq<T>) {
    forall i, j :: 0 <= i < j < |s| ==> s[i] != s[j]
  }
}

=== FILE: sidebar.dfy ===
/** The navigation sidebar (frontend/src/components/layout/Sidebar.js): which entries a user sees,
    which one is highlighted for the current address, and when the admin sub-menu opens. */
module Sidebar {
  import opened Wrappers
  import opened Schemas
  import opened Records
  import Text

  datatype SubItem = SubItem(title: string, path: string)

  /** A menu entry; `roles` is `None` when the entry lists no roles at all. */
  datatype Entry =
    | Link(title: string, path: string, roles: Option<seq<UserRole>>, subItems: seq<SubItem>)
    | Divider(roles: Option<seq<UserRole>>)

  const Everyone: seq<UserRole> := [Requestor, Approver, Coordinator, CentralReviewer, Superadmin]

  const AdminLink := Link("Admin", "/admin", Some([Superadmin]),
                          [SubItem("Users", "/admin/users"), SubItem("Vendors", "/admin/vendors"),
                           SubItem("Settings", "/admin/settings")])

  const Menu: seq<Entry> := [
    Link("Dashboard", "/", Some(Everyone), []),
    Link("My NFAs", "/my-nfas", Some(Everyone), []),
    Link("Create NFA", "/nfa/create", Some([Requestor, Superadmin]), []),
    Link("Approvals", "/approvals", Some([Approver, CentralReviewer, Superadmin]), []),
    Link("Coordinator Tasks", "/coordinator", Some([Coordinator, Superadmin]), []),
    Link("Reports", "/reports", Some([Approver, Coordinator, CentralReviewer, Superadmin]), []),
    Divider(Some([Superadmin])),
    AdminLink
  ]

  /** `isActive`: the dashboard only on its exact address, any other entry on every address that
      starts with its path. */
  predicate IsActive(path: string, pathname: string) {
    if path == "/" then pathname == path else Text.IsPrefix(path, pathname)
  }

  /** `canAccessItem`: an entry without a role list is open to all; otherwise the user needs one
      of the listed roles (so an empty list closes the entry). */
  predicate CanAccess(e: Entry, u: CurrentUser) {
    e.roles.None? || exists k :: 0 <= k < |e.roles.value| && HasRole(u, e.roles.value[k])
  }

  /** The entries rendered for the user, in menu order. */
  function Visible(u: CurrentUser): (r: seq<Entry>)
    ensures forall k :: 0 <= k < |r| ==> r[k] in Menu && CanAccess(r[k], u)
    ensures forall k :: 0 <= k < |Menu| && CanAccess(Menu[k], u) ==> Menu[k] in r
  {
    VisibleOf(Menu, u)
  }

  function VisibleOf(es: seq<Entry>, u: CurrentUser): (r: seq<Entry>)
    ensures forall k :: 0 <= k < |r| ==> r[k] in es && CanAccess(r[k], u)
    ensures forall k :: 0 <= k < |es| && CanAccess(es[k], u) ==> es[k] in r
    ensures (forall k :: 0 <= k < |es| ==> !CanAccess(es[k], u)) ==> r == []
  {
    if |es| == 0 then []
    else
      var rest := VisibleOf(es[1..], u);
      assert forall k :: 1 <= k < |es| ==> es[k] == es[1..][k - 1];
      if CanAccess(es[0], u) then [es[0]] + rest else rest
  }

  /** The divider and the admin entry appear exactly for superadmins. */
  lemma AdminPartOnlyForSuperadmin(u: CurrentUser)
    ensures Divider(Some([Superadmin])) in Visible(u) <==> HasRole(u, Superadmin)
    ensures AdminLink in Visible(u) <==> HasRole(u, Superadmin)
  {
    assert Menu[6] == Divider(Some([Superadmin]));
    assert Menu[7] == AdminLink;
    if HasRole(u, Superadmin) {
      assert Menu[6].roles.value[0] == Superadmin && Menu[7].roles.value[0] == Superadmin;
    }
  }

  /** A user with any role sees the dashboard and their own NFAs. */
  lemma EveryRoleSeesDashboard(u: CurrentUser, role: UserRole)
    requires HasRole(u, role)
    ensures Menu[0] in Visible(u) && Menu[1] in Visible(u)
  {
    assert Everyone[match role
      case Requestor => 0 case Approver => 1 case Coordinator => 2 case CentralReviewer => 3 case Superadmin => 4] == role;
  }

  /** A user without any role sees nothing at all. */
  lemma NoRoleNoMenu(u: CurrentUser)
    requires u.roles == []
    ensures Visible(u) == []
  {
    forall k | 0 <= k < |Menu| ensures !CanAccess(Menu[k], u) {
      assert Menu[k].roles.Some?;
    }
  }

  /** `!collapsed && item.subItems && active`: the admin sub-menu opens under an admin address
      when the sidebar is expanded. */
  predicate ShowsSubItems(collapsed: bool, e: Entry, pathname: string) {
    !collapsed && e.Link? && |e.subItems| > 0 && IsActive(e.path, pathname)
  }

  /** Only the admin entry has a sub-menu, and it opens on every address under "/admin" while the
      sidebar is expanded. */
  lemma OnlyAdminOpensSubMenu(collapsed: bool, k: nat, pathname: string)
    requires k < |Menu|
    ensures ShowsSubItems(collapsed, Menu[k], pathname) <==>
      k == 7 && !collapsed && Text.IsPrefix("/admin", pathname)
  {
  }

  /** Prefixes of one text are ordered: the shorter is a prefix of the longer. */
  lemma PrefixesNest(a: string, b: string, s: string)
    requires Text.IsPrefix(a, s) && Text.IsPrefix(b, s) && |a| <= |b|
    ensures Text.IsPrefix(a, b)
  {
    assert b[..|a|] == s[..|b|][..|a|] == s[..|a|];
  }

  /** No two paths of the menu are prefixes of one another, the dashboard's excepted. */
  predicate Unnested(p: string, q: string) {
    !Text.IsPrefix(p, q) && !Text.IsPrefix(q, p)
  }

  /** At most one link is highlighted, wherever the user is. */
  lemma AtMostOneActive(pathname: string, i: nat, j: nat)
    requires i < |Menu| && j < |Menu| && Menu[i].Link? && Menu[j].Link?
    requires IsActive(Menu[i].path, pathname) && IsActive(Menu[j].path, pathname)
    ensures i == j
  {
    var p, q := Menu[i].path, Menu[j].path;
    if i != j && p != "/" && q != "/" {
      PathsUnnested(i, j);
      if |p| <= |q| { PrefixesNest(p, q, pathname); } else { PrefixesNest(q, p, pathname); }
    }
  }

  /** The paths of distinct links, other than the dashboard's, are never nested. */
  lemma PathsUnnested(i: nat, j: nat)
    requires 1 <= i < |Menu| && 1 <= j < |Menu| && i != j && Menu[i].Link? && Menu[j].Link?
    ensures Unnested(Menu[i].path, Menu[j].path)
  {
    var p, q := Menu[i].path, Menu[j].path;
    assert p[1] != q[1] || p[2] != q[2];
  }
}

=== FILE: sorting.dfy ===
/** Sorting as a cursor's `sort(...)` does it, over any total preorder.
    The sort is not stable: elements that compare equal come out in reverse
    store order (the store itself promises no order for ties). */
module Sorting {
  import Seqs

  /** `le` is total and transitive, so it ranks every pair of elements. */
  ghost predicate TotalPreorder<T(!new)>(le: (T, T) -> bool) {
    && (forall a, b :: le(a, b) || le(b, a))
    && (forall a, b, c :: le(a, b) && le(b, c) ==> le(a, c))
  }

  predicate SortedBy<T>(s: seq<T>, le: (T, T) -> bool) {
    forall i, j :: 0 <= i < j < |s| ==> le(s[i], s[j])
  }

  /** Puts `x` into an already sorted sequence, after every element ranked at most `x`. */
  function Insert<T(!new)>(x: T, s: seq<T>, le: (T, T) -> bool): (r: seq<T>)
    requires TotalPreorder(le)
    requires SortedBy(s, le)
    ensures SortedBy(r, le)
    ensures multiset(r) == multiset(s) + multiset{x}
    ensures |r| == |s| + 1
  {
    if |s| == 0 then [x]
    else if le(x, s[0]) && !le(s[0], x) then
      assert forall j :: 0 < j < |s| ==> le(s[0], s[j]);
      [x] + s
    else
      var rest := Insert(x, s[1..], le);
      assert s == [s[0]] + s[1..];
      assert forall j :: 0 <= j < |rest| ==> le(s[0], rest[j]) by {
        forall j | 0 <= j < |rest| ensures le(s[0], rest[j]) {
          assert rest[j] in multiset(rest);
          if rest[j] != x {
            assert rest[j] in multiset(s[1..]);
            var k :| 0 <= k < |s[1..]| && s[1..][k] == rest[j];
            assert s[k + 1] == rest[j];
          }
        }
      }
      [s[0]] + rest
  }

  /** A prefix of a sorted sequence is sorted. */
  lemma PrefixSorted<T>(s: seq<T>, le: (T, T) -> bool, n: nat)
    requires SortedBy(s, le) && n <= |s|
    ensures SortedBy(s[..n], le)
  {
    forall i, j | 0 <= i < j < n ensures le(s[..n][i], s[..n][j]) {
      assert s[..n][i] == s[i] && s[..n][j] == s[j];
    }
  }

  /** Insertion sort: a permutation of `s` ordered by `le`. */
  function Sort<T(!new)>(s: seq<T>, le: (T, T) -> bool): (r: seq<T>)
    requires TotalPreorder(le)
    ensures SortedBy(r, le)
    ensures multiset(r) == multiset(s)
    ensures |r| == |s|
  {
    if |s| == 0 then []
    else
      assert s == [s[0]] + s[1..];
      Insert(s[0], Sort(s[1..], le), le)
  }

  /** A sorted sequence holds the same elements as the input, so membership is unchanged. */
  lemma SortKeepsMembers<T(!new)>(s: seq<T>, le: (T, T) -> bool, x: T)
    requires TotalPreorder(le)
    ensures x in Sort(s, le) <==> x in s
  {
    var r := Sort(s, le);
    assert x in r <==> x in multiset(r);
    assert x in s <==> x in multiset(s);
  }

  /** `sort(...).limit(n)`: the first `n` elements of the sorted sequence, all of them when there
      are at most `n`. */
  function SortTake<T(!new)>(s: seq<T>, le: (T, T) -> bool, n: nat): (r: seq<T>)
    requires TotalPreorder(le)
    ensures |r| <= n && |r| <= |s| && (|s| <= n ==> |r| == |s|) && (n <= |s| ==> |r| == n)
    ensures SortedBy(r, le)
    ensures forall k :: 0 <= k < |r| ==> r[k] in s
    ensures r == Sort(s, le)[..|r|]
    ensures |s| <= n ==> r == Sort(s, le)
  {
    var sorted := Sort(s, le);
    var m := if |s| <= n then |s| else n;
    PrefixSorted(sorted, le, m);
    forall k | 0 <= k < m ensures sorted[..m][k] in s {
      assert sorted[k] in multiset(sorted);
    }
    assert sorted[..|s|] == sorted;
    sorted[..m]
  }

  /** `sort(...).skip(skip).limit(limit)`: a window of the sorted sequence. */
  function SortPage<T(!new)>(s: seq<T>, le: (T, T) -> bool, skip: nat, limit: nat): (r: seq<T>)
    requires TotalPreorder(le)
    ensures |r| <= limit
    ensures |r| == if skip >= |s| then 0 else Seqs.Min(limit, |s| - skip)
    ensures SortedBy(r, le)
    ensures forall k :: 0 <= k < |r| ==> r[k] in s
    ensures r == Seqs.Page(Sort(s, le), skip, limit)
  {
    var sorted := Sort(s, le);
    var r := Seqs.Page(sorted, skip, limit);
    forall i, j | 0 <= i < j < |r| ensures le(r[i], r[j]) {
      assert r[i] == sorted[skip + i] && r[j] == sorted[skip + j];
    }
    forall k | 0 <= k < |r| ensures r[k] in s {
      assert sorted[skip + k] in multiset(sorted);
    }
    r
  }

  /** Nothing left out of a sorted cut ranks ahead of what it kept: every kept element precedes
      every element of `s` that did not make the cut. */
  lemma TakeKeepsTop<T(!new)>(s: seq<T>, le: (T, T) -> bool, n: nat, x: T, k: nat)
    requires TotalPreorder(le)
    requires x in s && x !in SortTake(s, le, n)
    requires k < |SortTake(s, le, n)|
    ensures le(SortTake(s, le, n)[k], x)
  {
    var sorted := Sort(s, le);
    var r := SortTake(s, le, n);
    assert x in multiset(s);
    var i :| 0 <= i < |sorted| && sorted[i] == x;
    assert i >= |r|;
    assert r[k] == sorted[k];
  }
}

=== FILE: status_badge.dfy ===
/** The status pill shown next to an NFA (frontend/src/components/common/StatusBadge.js): one label
    and colour per status, and the draft look for anything it does not know. */
module StatusBadge {
  import opened Wrappers
  import opened Schemas

  datatype Look = Look(caption: string, colour: string)

  /** The table entry of each status. */
  function LookOf(s: NfaStatus): Look {
    match s
    case Draft => Look("Draft", "bg-gray-100 text-gray-800 border-gray-200")
    case Section1Pending => Look("Section 1 Pending", "bg-orange-100 text-orange-800 border-orange-200")
    case Section1Approved => Look("Section 1 Approved", "bg-blue-100 text-blue-800 border-blue-200")
    case Section2Pending => Look("Section 2 Pending", "bg-amber-100 text-amber-800 border-amber-200")
    case Section2Approved => Look("Section 2 Approved", "bg-cyan-100 text-cyan-800 border-cyan-200")
    case Approved => Look("Approved", "bg-green-100 text-green-800 border-green-200")
    case Rejected => Look("Rejected", "bg-red-100 text-red-800 border-red-200")
    case SentBack => Look("Sent Back", "bg-yellow-100 text-yellow-800 border-yellow-200")
  }

  /** `statusConfig[status] || statusConfig.draft`, for the status text as the server sends it. */
  function LookFor(status: string): (l: Look)
    ensures ParseStatus(status).Some? ==> l == LookOf(ParseStatus(status).value)
    ensures ParseStatus(status).None? ==> l == LookOf(Draft)
  {
    match ParseStatus(status)
    case Some(s) => LookOf(s)
    case None => LookOf(Draft)
  }

  /** Every status the server can send has its own entry. */
  lemma EveryStatusHasEntry(s: NfaStatus)
    ensures LookFor(StatusValue(s)) == LookOf(s)
  {
    StatusesComplete(s);
  }

  /** Reads a pill's caption back as the status it stands for. */
  function CaptionStatus(c: string): Option<NfaStatus> {
    if c == "Draft" then Some(Draft)
    else if c == "Section 1 Pending" then Some(Section1Pending)
    else if c == "Section 1 Approved" then Some(Section1Approved)
    else if c == "Section 2 Pending" then Some(Section2Pending)
    else if c == "Section 2 Approved" then Some(Section2Approved)
    else if c == "Approved" then Some(NfaStatus.Approved)
    else if c == "Rejected" then Some(NfaStatus.Rejected)
    else if c == "Sent Back" then Some(NfaStatus.SentBack)
    else None
  }

  /** Every caption names its status back. */
  lemma CaptionReadsBack(s: NfaStatus)
    ensures CaptionStatus(LookOf(s).caption) == Some(s)
  {
  }

  /** No two statuses share a caption, so the pill identifies the status. */
  lemma CaptionsDistinct(s: NfaStatus, t: NfaStatus)
    ensures LookOf(s).caption == LookOf(t).caption <==> s == t
  {
    CaptionReadsBack(s);
    CaptionReadsBack(t);
  }

  /** A text that is no status looks exactly like a draft. */
  lemma UnknownLooksLikeDraft(status: string)
    requires forall s :: StatusValue(s) != status
    ensures LookFor(status) == LookFor("draft")
  {
  }

  /** The rendered pill: the shared classes, the status colour, then the caller's classes. The
      class list is kept as `cn(...)` receives it; `cn` itself is not part of this model, so when it
      merges conflicting utility classes, an extra class that sets a colour replaces the status
      colour rather than following it. */
  datatype Pill = Pill(classes: seq<string>, text: string)

  const BaseClasses := "inline-flex items-center px-2.5 py-0.5 rounded-full text-xs font-medium border"

  function Render(status: string, extra: Option<string>): (p: Pill)
    ensures p.text == LookFor(status).caption
    ensures |p.classes| >= 2
    ensures p.classes[..2] == [BaseClasses, LookFor(status).colour]
    ensures extra.Some? && extra.value != "" <==> |p.classes| == 3
    ensures |p.classes| == 3 ==> p.classes[2] == extra.value
  {
    var l := LookFor(status);
    Pill([BaseClasses, l.colour] + (if extra.Some? && extra.value != "" then [extra.value] else []), l.caption)
  }
}

=== FILE: text.dfy ===
/** Text helpers shared by the backend and the frontend: decimal digits,
    zero padding, splitting and joining, trimming and case folding. */
module Text {
  import opened Wrappers

  // ---------------------------------------------------------------- digits

  predicate IsDigit(c: char) {
    '0' <= c <= '9'
  }

  predicate AllDigits(s: string) {
    forall k :: 0 <= k < |s| ==> IsDigit(s[k])
  }

  function DigitChar(d: nat): (c: char)
    requires d < 10
    ensures IsDigit(c)
    ensures c as int - '0' as int == d
  {
    ('0' as int + d) as char
  }

  function DigitValue(c: char): (d: nat)
    requires IsDigit(c)
    ensures d < 10
    ensures DigitChar(d) == c
  {
    c as int - '0' as int
  }

  /** Decimal notation of `n` without leading zeros (Python's `str(n)`). */
  function NatToString(n: nat): (s: string)
    ensures |s| >= 1
    ensures AllDigits(s)
    ensures n >= 10 <==> |s| >= 2
    ensures s[0] == '0' ==> n == 0
  {
    if n < 10 then [DigitChar(n)]
    else NatToString(n / 10) + [DigitChar(n % 10)]
  }

  /** The number a string of decimal digits denotes. */
  function DigitsValue(s: string): nat
    requires AllDigits(s)
  {
    if |s| == 0 then 0
    else DigitsValue(s[..|s| - 1]) * 10 + DigitValue(s[|s| - 1])
  }

  /** A non-empty run of decimal digits read as a number; anything else does not convert. */
  function ParseNat(s: string): (r: Option<nat>)
    ensures r.Some? <==> |s| > 0 && AllDigits(s)
  {
    if |s| > 0 && AllDigits(s) then Some(DigitsValue(s)) else None
  }

  /** Reading back the decimal notation of `n` gives `n`. */
  lemma {:induction false} NatToStringRoundTrip(n: nat)
    ensures ParseNat(NatToString(n)) == Some(n)
  {
    var s := NatToString(n);
    if n >= 10 {
      NatToStringRoundTrip(n / 10);
      assert s[..|s| - 1] == NatToString(n / 10);
      assert DigitValue(s[|s| - 1]) == n % 10;
    } else {
      assert s == [DigitChar(n)];
      assert s[..|s| - 1] == "";
      assert DigitsValue(s) == DigitsValue(s[..|s| - 1]) * 10 + DigitValue(s[|s| - 1]);
    }
  }

  /** `count` copies of '0'. */
  function Zeros(count: nat): (r: string)
    ensures |r| == count
    ensures forall k :: 0 <= k < count ==> r[k] == '0'
  {
    if count == 0 then "" else "0" + Zeros(count - 1)
  }

  /** Python's `{n:0Wd}` on the digits of a non-negative number: left-pad with zeros to `width`. */
  function ZeroPad(digits: string, width: nat): (r: string)
    ensures |r| == if |digits| >= width then |digits| else width
    ensures r[|r| - |digits|..] == digits
    ensures forall k :: 0 <= k < |r| - |digits| ==> r[k] == '0'
  {
    if |digits| >= width then digits else Zeros(width - |digits|) + digits
  }

  /** Leading zeros do not change the value of a digit string. */
  lemma {:induction false} LeadingZeroValue(s: string)
    requires AllDigits(s)
    ensures AllDigits("0" + s)
    ensures DigitsValue("0" + s) == DigitsValue(s)
  {
    var t := "0" + s;
    if |s| > 0 {
      assert t[..|t| - 1] == "0" + s[..|s| - 1];
      LeadingZeroValue(s[..|s| - 1]);
    }
  }

  lemma {:induction false} ZerosValue(count: nat, s: string)
    requires AllDigits(s)
    ensures AllDigits(Zeros(count) + s)
    ensures DigitsValue(Zeros(count) + s) == DigitsValue(s)
  {
    if count > 0 {
      ZerosValue(count - 1, s);
      var t := Zeros(count - 1) + s;
      assert Zeros(count) + s == "0" + t;
      LeadingZeroValue(t);
    } else {
      assert Zeros(count) + s == s;
    }
  }

  /** Zero-padded decimal notation reads back as the same number. */
  lemma PaddedRoundTrip(n: nat, width: nat)
    ensures ParseNat(ZeroPad(NatToString(n), width)) == Some(n)
  {
    NatToStringRoundTrip(n);
    var d := NatToString(n);
    if |d| < width {
      ZerosValue(width - |d|, d);
    }
  }

  // ------------------------------------------------------- split and join

  /** `s.split(sep)` in Python and JavaScript: the pieces between separators, empty ones included. */
  function Split(s: string, sep: char): (parts: seq<string>)
    ensures |parts| >= 1
    ensures forall k :: 0 <= k < |parts| ==> sep !in parts[k]
  {
    if |s| == 0 then [""]
    else
      var rest := Split(s[1..], sep);
      if s[0] == sep then [""] + rest
      else [[s[0]] + rest[0]] + rest[1..]
  }

  /** `sep.join(parts)`. */
  function Join(parts: seq<string>, sep: char): string
    requires |parts| >= 1
  {
    if |parts| == 1 then parts[0]
    else parts[0] + [sep] + Join(parts[1..], sep)
  }

  /** Joining the pieces of a split restores the original text. */
  lemma {:induction false} JoinSplit(s: string, sep: char)
    ensures Join(Split(s, sep), sep) == s
  {
    if |s| > 0 {
      var rest := Split(s[1..], sep);
      JoinSplit(s[1..], sep);
      if s[0] == sep {
        assert Split(s, sep)[1..] == rest;
      } else {
        var parts := Split(s, sep);
        assert parts[1..] == rest[1..];
        if |rest| > 1 {
          assert Join(rest, sep) == rest[0] + [sep] + Join(rest[1..], sep);
        }
      }
    }
  }

  /** Text without a separator splits into itself alone. */
  lemma {:induction false} SplitNoSep(s: string, sep: char)
    requires sep !in s
    ensures Split(s, sep) == [s]
  {
    if |s| > 0 {
      assert sep !in s[1..] by {
        forall k | 0 <= k < |s[1..]| ensures s[1..][k] != sep {
          assert s[1..][k] == s[k + 1];
        }
      }
      SplitNoSep(s[1..], sep);
      assert [s[0]] + s[1..] == s;
    }
  }

  /** A separator-free piece followed by a separator splits off as the first part. */
  lemma {:induction false} SplitAfter(a: string, sep: char, b: string)
    requires sep !in a
    ensures Split(a + [sep] + b, sep) == [a] + Split(b, sep)
  {
    var s := a + [sep] + b;
    if |a| == 0 {
      assert s == [sep] + b;
      assert s[1..] == b;
    } else {
      assert s[1..] == a[1..] + [sep] + b;
      assert sep !in a[1..] by {
        forall k | 0 <= k < |a[1..]| ensures a[1..][k] != sep {
          assert a[1..][k] == a[k + 1];
        }
      }
      SplitAfter(a[1..], sep, b);
      assert [a[0]] + a[1..] == a;
    }
  }

  // ------------------------------------------------------------- prefixes

  predicate IsPrefix(p: string, s: string) {
    |p| <= |s| && s[..|p|] == p
  }

  /** `s.substring(0, n)` / `s[:n]`: at most the first `n` characters. */
  function Prefix(s: string, n: nat): (r: string)
    ensures |r| == if |s| <= n then |s| else n
    ensures IsPrefix(r, s)
  {
    if |s| <= n then s else s[..n]
  }

  /** `s.includes(needle)` / `needle in s`: some window of `s` equals `needle`. */
  ghost predicate Contains(s: string, needle: string) {
    exists i :: 0 <= i && MatchAt(s, needle, i)
  }

  /** `needle` occurs in `s` starting at position `i`. */
  predicate MatchAt(s: string, needle: string, i: nat) {
    i + |needle| <= |s| && s[i..i + |needle|] == needle
  }

  /** A scanning decision procedure for `Contains`. */
  function ContainsAt(s: string, needle: string, from: nat): (r: bool)
    requires from <= |s|
    ensures r <==> exists i :: from <= i && MatchAt(s, needle, i)
    decreases |s| - from
  {
    if |s| - from < |needle| then false
    else if MatchAt(s, needle, from) then true
    else ContainsAt(s, needle, from + 1)
  }

  /** Every text contains the empty text. */
  lemma ContainsEmpty(s: string)
    ensures Contains(s, "")
  {
    assert MatchAt(s, "", 0);
  }

  // ---------------------------------------------------------- case folding

  function LowerChar(c: char): (r: char)
    ensures !('A' <= r <= 'Z')
  {
    if 'A' <= c <= 'Z' then (c as int + 32) as char else c
  }

  function UpperChar(c: char): (r: char)
    ensures !('a' <= r <= 'z')
  {
    if 'a' <= c <= 'z' then (c as int - 32) as char else c
  }

  /** `s.toLowerCase()`, over the ASCII letters. */
  function Lower(s: string): (r: string)
    ensures |r| == |s|
    ensures forall k :: 0 <= k < |s| ==> r[k] == LowerChar(s[k])
  {
    seq(|s|, k requires 0 <= k < |s| => LowerChar(s[k]))
  }

  /** `s.toUpperCase()`, over the ASCII letters. */
  function Upper(s: string): (r: string)
    ensures |r| == |s|
    ensures forall k :: 0 <= k < |s| ==> r[k] == UpperChar(s[k])
  {
    seq(|s|, k requires 0 <= k < |s| => UpperChar(s[k]))
  }

  /** Case-insensitive containment: both sides lower-cased before comparing. */
  predicate ContainsIgnoreCase(s: string, needle: string)
  {
    ContainsAt(Lower(s), Lower(needle), 0)
  }

  /** The scan decides containment. */
  lemma ContainsIgnoreCaseMeaning(s: string, needle: string)
    ensures ContainsIgnoreCase(s, needle) <==> Contains(Lower(s), Lower(needle))
  {
  }

  /** The empty search matches everything. */
  lemma ContainsIgnoreCaseEmpty(s: string)
    ensures ContainsIgnoreCase(s, "")
  {
    assert Lower(s)[0..0] == Lower("");
  }

  // -------------------------------------------------------------- trimming

  /** The code points JavaScript's `String.prototype.trim` removes: white space and line terminators. */
  predicate IsJsSpace(c: char) {
    || c == '\t' || c == '\n' || c == '\U{000B}' || c == '\U{000C}' || c == '\r' || c == ' '
    || c == '\U{00A0}' || c == '\U{1680}' || ('\U{2000}' <= c <= '\U{200A}')
    || c == '\U{2028}' || c == '\U{2029}' || c == '\U{202F}' || c == '\U{205F}'
    || c == '\U{3000}' || c == '\U{FEFF}'
  }

  predicate IsBlank(s: string) {
    forall k :: 0 <= k < |s| ==> IsJsSpace(s[k])
  }

  /** Drops leading white space: the result is a suffix that starts with a non-space, and only spaces were dropped. */
  function TrimStart(s: string): (r: string)
    ensures |r| <= |s|
    ensures r == s[|s| - |r|..]
    ensures IsBlank(s[..|s| - |r|])
    ensures r == [] || !IsJsSpace(r[0])
    ensures IsBlank(s) ==> r == []
  {
    if |s| > 0 && IsJsSpace(s[0]) then
      var r := TrimStart(s[1..]);
      assert s[..|s| - |r|] == [s[0]] + s[1..][..|s| - 1 - |r|];
      r
    else s
  }

  /** Drops trailing white space: the result is a prefix that ends with a non-space, and only spaces were dropped. */
  function TrimEnd(s: string): (r: string)
    ensures |r| <= |s|
    ensures r == s[..|r|]
    ensures IsBlank(s[|r|..])
    ensures r == [] || !IsJsSpace(r[|r| - 1])
  {
    if |s| > 0 && IsJsSpace(s[|s| - 1]) then
      var r := TrimEnd(s[..|s| - 1]);
      assert s[|r|..] == s[..|s| - 1][|r|..] + [s[|s| - 1]];
      r
    else s
  }

  /** `s.trim()`. */
  function Trim(s: string): (r: string)
    ensures |r| <= |s|
    ensures r == [] || (!IsJsSpace(r[0]) && !IsJsSpace(r[|r| - 1]))
  {
    TrimEnd(TrimStart(s))
  }

  /** Trimming leaves nothing exactly when the text is all white space. */
  lemma TrimEmptyIffBlank(s: string)
    ensures Trim(s) == "" <==> IsBlank(s)
  {
    var a := TrimStart(s);
    var b := TrimEnd(a);
    assert |b| <= |a| && IsBlank(a[|b|..]);
    assert IsBlank(s[..|s| - |a|]) && a == s[|s| - |a|..];
    if b == "" {
      assert a[|b|..] == a;
      BlankJoin(s, |s| - |a|);
    }
  }

  /** A text whose two halves are blank is blank. */
  lemma BlankJoin(s: string, i: nat)
    requires i <= |s| && IsBlank(s[..i]) && IsBlank(s[i..])
    ensures IsBlank(s)
  {
    forall k | 0 <= k < |s| ensures IsJsSpace(s[k]) {
      if k < i { assert s[..i][k] == s[k]; } else { assert s[i..][k - i] == s[k]; }
    }
  }

  /** Trimming a trimmed text changes nothing. */
  lemma TrimIdempotent(s: string)
    ensures Trim(Trim(s)) == Trim(s)
  {
    var t := Trim(s);
    assert TrimStart(t) == t;
    assert TrimEnd(t) == t;
  }

  // -------------------------------------------------------------- ordering

  /** Code-point order on texts, the order a string sort key ascends in. */
  predicate LexLe(a: string, b: string) {
    if |a| == 0 then true
    else if |b| == 0 then false
    else a[0] < b[0] || (a[0] == b[0] && LexLe(a[1..], b[1..]))
  }

  /** Any two texts are ordered one way or the other. */
  lemma {:induction false} LexLeTotal(a: string, b: string)
    ensures LexLe(a, b) || LexLe(b, a)
  {
    if |a| > 0 && |b| > 0 && a[0] == b[0] {
      LexLeTotal(a[1..], b[1..]);
    }
  }

  lemma {:induction false} LexLeTransitive(a: string, b: string, c: string)
    requires LexLe(a, b) && LexLe(b, c)
    ensures LexLe(a, c)
  {
    if |a| > 0 && |b| > 0 && |c| > 0 && a[0] == b[0] && b[0] == c[0] {
      LexLeTransitive(a[1..], b[1..], c[1..]);
    }
  }

  /** Texts ranked both ways are equal, so the order is antisymmetric. */
  lemma {:induction false} LexLeAntisymmetric(a: string, b: string)
    requires LexLe(a, b) && LexLe(b, a)
    ensures a == b
  {
    if |a| > 0 && |b| > 0 {
      LexLeAntisymmetric(a[1..], b[1..]);
      assert a == [a[0]] + a[1..] && b == [b[0]] + b[1..];
    }
  }
}

=== FILE: user_routes.dfy ===
/** The user administration endpoints (backend/api/routes/users.py): who may list, change and
    delete accounts, how an update is merged into the stored account, and the user search. */
module UserRoutes {
  import opened Wrappers
  import opened Schemas
  import opened Records
  import opened Http
  import Seqs
  import Text

  /** Every account of the sequence, without its hash. */
  function Views(users: seq<User>): (r: seq<UserView>)
    ensures |r| == |users|
    ensures forall k :: 0 <= k < |r| ==> r[k] == View(users[k])
  {
    seq(|users|, k requires 0 <= k < |users| => View(users[k]))
  }

  /** `GET /`: superadmins and approvers only, a page of accounts in store order. */
  function ListUsers(db: Db, u: CurrentUser, skip: nat, limit: nat): (r: Result<seq<UserView>, HttpError>)
    ensures !HasAnyRole(u, [Superadmin, Approver]) ==> r.Failure? && r.error.code == Forbidden
    ensures HasAnyRole(u, [Superadmin, Approver]) ==> (r.Failure? <==> limit > 1000)
    ensures r.Success? ==> |r.value| <= limit
    ensures r.Success? ==> |r.value| == if skip >= |db.users| then 0 else Seqs.Min(limit, |db.users| - skip)
    ensures r.Success? ==> forall k :: 0 <= k < |r.value| ==> skip + k < |db.users| && r.value[k] == View(db.users[skip + k])
  {
    match RequireRole(u, [Superadmin, Approver])
    case Some(e) => Failure(e)
    case None =>
      if limit > 1000 then Failure(ValidationError())
      else Success(Views(Seqs.Page(db.users, skip, limit)))
  }

  /** An allowed caller sees every account of the window: the account `skip + k` is the page's
      entry `k` whenever it exists and `k` is below the limit. */
  lemma {:induction false} ListUsersIsComplete(db: Db, u: CurrentUser, skip: nat, limit: nat, k: nat)
    requires HasAnyRole(u, [Superadmin, Approver]) && limit <= 1000
    requires k < limit && skip + k < |db.users|
    ensures ListUsers(db, u, skip, limit).Success?
    ensures k < |ListUsers(db, u, skip, limit).value|
    ensures ListUsers(db, u, skip, limit).value[k] == View(db.users[skip + k])
  {
    var r := ListUsers(db, u, skip, limit);
    assert |r.value| == Seqs.Min(limit, |db.users| - skip);
  }

  /** `GET /{user_id}`: any caller may read any account. */
  function GetUser(db: Db, id: string): (r: Result<UserView, HttpError>)
    ensures r.Failure? <==> forall k :: 0 <= k < |db.users| ==> db.users[k].id != id
    ensures r.Failure? ==> r.error == HttpError(NotFound, "User not found")
    ensures r.Success? ==> r.value.id == id && r.value == FindUserView(db, id).value
  {
    match FindUserView(db, id)
    case None => Failure(HttpError(NotFound, "User not found"))
    case Some(v) => Success(v)
  }

  /** The fields of `PUT /{user_id}`; `None` leaves a field as it is. */
  datatype UserUpdate = UserUpdate(
    email: Option<string>,
    name: Option<string>,
    designation: Option<string>,
    department: Option<string>,
    location: Option<string>,
    userFunction: Option<string>,
    roles: Option<seq<UserRole>>,
    password: Option<string>)

  /** The `$set` of an update. A non-empty password is stored only as its hash; an empty one is
      not hashed and is written under the `password` key as it came. */
  function ApplyUserUpdate(u: User, d: UserUpdate, hash: string -> string, now: Time): (r: User)
    ensures r.id == u.id && r.username == u.username && r.isActive == u.isActive && r.createdAt == u.createdAt
    ensures r.updatedAt == now
    ensures d.email.Some? ==> r.email == d.email.value
    ensures d.email.None? ==> r.email == u.email
    ensures d.name.Some? ==> r.name == d.name.value
    ensures d.name.None? ==> r.name == u.name
    ensures d.designation.Some? ==> r.designation == d.designation
    ensures d.designation.None? ==> r.designation == u.designation
    ensures d.department.Some? ==> r.department == d.department
    ensures d.department.None? ==> r.department == u.department
    ensures d.location.Some? ==> r.location == d.location
    ensures d.location.None? ==> r.location == u.location
    ensures d.userFunction.Some? ==> r.userFunction == d.userFunction
    ensures d.userFunction.None? ==> r.userFunction == u.userFunction
    ensures d.roles.Some? ==> r.roles == d.roles.value
    ensures d.roles.None? ==> r.roles == u.roles
    ensures d.password.Some? && d.password.value != "" ==>
      r.passwordHash == hash(d.password.value) && r.plainPassword == u.plainPassword
    ensures d.password.None? ==> r.passwordHash == u.passwordHash && r.plainPassword == u.plainPassword
    ensures d.password == Some("") ==> r.passwordHash == u.passwordHash && r.plainPassword == Some("")
  {
    Secret(Profile(u, d), d.password, hash).(updatedAt := now)
  }

  /** The profile part of an update: each given field replaces the stored one. */
  function Profile(u: User, d: UserUpdate): (r: User)
    ensures r == u.(email := r.email, name := r.name, designation := r.designation, department := r.department,
                    location := r.location, userFunction := r.userFunction, roles := r.roles)
    ensures r.email == d.email.GetOr(u.email) && r.name == d.name.GetOr(u.name) && r.roles == d.roles.GetOr(u.roles)
    ensures r.designation == (if d.designation.Some? then d.designation else u.designation)
    ensures r.department == (if d.department.Some? then d.department else u.department)
    ensures r.location == (if d.location.Some? then d.location else u.location)
    ensures r.userFunction == (if d.userFunction.Some? then d.userFunction else u.userFunction)
  {
    u.(email := d.email.GetOr(u.email),
       name := d.name.GetOr(u.name),
       designation := if d.designation.Some? then d.designation else u.designation,
       department := if d.department.Some? then d.department else u.department,
       location := if d.location.Some? then d.location else u.location,
       userFunction := if d.userFunction.Some? then d.userFunction else u.userFunction,
       roles := d.roles.GetOr(u.roles))
  }

  /** The password part of an update: a non-empty password is stored as its hash, an empty one as it came. */
  function Secret(u: User, password: Option<string>, hash: string -> string): (r: User)
    ensures r == u.(passwordHash := r.passwordHash, plainPassword := r.plainPassword)
    ensures password.Some? && password.value != "" ==> r.passwordHash == hash(password.value) && r.plainPassword == u.plainPassword
    ensures password.None? ==> r == u
    ensures password == Some("") ==> r.passwordHash == u.passwordHash && r.plainPassword == Some("")
  {
    if password.None? then u
    else if password.value != "" then u.(passwordHash := hash(password.value))
    else u.(plainPassword := password)
  }

  /** No stored account holds a non-empty password in the clear. */
  predicate NoClearPasswords(users: seq<User>) {
    forall k :: 0 <= k < |users| ==> users[k].plainPassword.None? || users[k].plainPassword.value == ""
  }

  /** An update never stores a usable password in the clear. */
  lemma UpdateStoresNoClearPassword(u: User, d: UserUpdate, hash: string -> string, now: Time)
    requires u.plainPassword.None? || u.plainPassword.value == ""
    ensures var r := ApplyUserUpdate(u, d, hash, now);
      r.plainPassword.None? || r.plainPassword.value == ""
  {
  }

  /** An update without a password leaves the sign-in secret as it was. */
  lemma UpdateWithoutPasswordKeepsSecret(u: User, d: UserUpdate, hash: string -> string, now: Time)
    requires d.password.None?
    ensures ApplyUserUpdate(u, d, hash, now).passwordHash == u.passwordHash
    ensures ApplyUserUpdate(u, d, hash, now).plainPassword == u.plainPassword
  {
  }

  datatype UserUpdated = UserUpdated(db: Db, user: UserView)

  /** May the caller change that account: their own, or any if superadmin. */
  predicate MayUpdate(u: CurrentUser, id: string) {
    u.userId == id || HasRole(u, Superadmin)
  }

  /** `PUT /{user_id}`: the first account with that id is merged with the update and re-read.
      For an unknown id nothing is written and the empty answer fails response validation (500). */
  function UpdateUserRoute(db: Db, u: CurrentUser, id: string, d: UserUpdate, hash: string -> string, now: Time)
    : (r: Result<UserUpdated, HttpError>)
    ensures !MayUpdate(u, id) ==> r == Failure(HttpError(Forbidden, "Insufficient permissions"))
    ensures MayUpdate(u, id) && UserIndex(db.users, id).None? ==> r.Failure? && r.error.code == InternalServerError
    ensures r.Success? <==> MayUpdate(u, id) && UserIndex(db.users, id).Some?
    ensures r.Success? ==>
      var i := UserIndex(db.users, id).value;
      var n := ApplyUserUpdate(db.users[i], d, hash, now);
      && r.value.db == db.(users := db.users[i := n])
      && r.value.user == View(n)
  {
    if !(u.userId == id || HasRole(u, Superadmin)) then Failure(HttpError(Forbidden, "Insufficient permissions"))
    else
      match UserIndex(db.users, id)
      case None => Failure(HttpError(InternalServerError, "Internal Server Error"))
      case Some(i) =>
        var n := ApplyUserUpdate(db.users[i], d, hash, now);
        Success(UserUpdated(db.(users := db.users[i := n]), View(n)))
  }

  /** Updates through the endpoint keep every stored account free of a usable clear-text password. */
  lemma UpdateKeepsNoClearPasswords(db: Db, u: CurrentUser, id: string, d: UserUpdate, hash: string -> string, now: Time)
    requires NoClearPasswords(db.users)
    requires UpdateUserRoute(db, u, id, d, hash, now).Success?
    ensures NoClearPasswords(UpdateUserRoute(db, u, id, d, hash, now).value.db.users)
  {
    var i := UserIndex(db.users, id).value;
    UpdateStoresNoClearPassword(db.users[i], d, hash, now);
  }

  /** The self-or-superadmin rule does not look at the fields: any account may change its own
      roles, up to and including superadmin. */
  lemma SelfServiceRoleChange(db: Db, u: CurrentUser, d: UserUpdate, hash: string -> string, now: Time)
    requires UserIndex(db.users, u.userId).Some?
    requires d.roles == Some([Superadmin])
    ensures UpdateUserRoute(db, u, u.userId, d, hash, now).Success?
    ensures UpdateUserRoute(db, u, u.userId, d, hash, now).value.user.roles == [Superadmin]
  {
  }

  /** `DELETE /{user_id}`: superadmins only; nothing deleted is a 404. */
  function DeleteUserRoute(db: Db, u: CurrentUser, id: string): (r: Result<Db, HttpError>)
    ensures !HasRole(u, Superadmin) ==> r.Failure? && r.error.code == Forbidden
    ensures HasRole(u, Superadmin) ==> (r.Failure? <==> UserIndex(db.users, id).None?)
    ensures HasRole(u, Superadmin) && r.Failure? ==> r.error == HttpError(NotFound, "User not found")
    ensures r.Success? ==>
      var i := UserIndex(db.users, id).value;
      r.value == db.(users := db.users[..i] + db.users[i + 1..])
  {
    match RequireRole(u, [Superadmin])
    case Some(e) => Failure(e)
    case None =>
      match UserIndex(db.users, id)
      case None => Failure(HttpError(NotFound, "User not found"))
      case Some(i) => Success(db.(users := db.users[..i] + db.users[i + 1..]))
  }

  /** With unique ids, a deleted account can no longer be found. */
  lemma {:induction false} DeleteRemovesTheUser(db: Db, u: CurrentUser, id: string)
    requires UniqueUserIds(db.users)
    requires DeleteUserRoute(db, u, id).Success?
    ensures FindUserView(DeleteUserRoute(db, u, id).value, id).None?
  {
    var i := UserIndex(db.users, id).value;
    var rs := DeleteUserRoute(db, u, id).value.users;
    forall k | 0 <= k < |rs| ensures rs[k].id != id {
      if k < i { assert rs[k] == db.users[k]; } else { assert rs[k] == db.users[k + 1]; }
    }
  }

  /** With unique ids, deleting one account leaves every other account's lookup as it was. */
  lemma {:induction false} DeleteKeepsOtherUsers(db: Db, u: CurrentUser, id: string, other: string)
    requires UniqueUserIds(db.users)
    requires DeleteUserRoute(db, u, id).Success?
    requires other != id
    ensures FindUserView(DeleteUserRoute(db, u, id).value, other) == FindUserView(db, other)
  {
    var i := UserIndex(db.users, id).value;
    assert DeleteUserRoute(db, u, id).value.users == db.users[..i] + db.users[i + 1..];
    KeptLookup(db.users, i, other);
  }

  /** In the store without position `i`, the account with another id is found exactly where it was. */
  lemma KeptLookup(us: seq<User>, i: nat, other: string)
    requires UniqueUserIds(us) && i < |us| && us[i].id != other
    ensures var rs := us[..i] + us[i + 1..];
      && (UserIndex(rs, other).Some? <==> UserIndex(us, other).Some?)
      && (UserIndex(rs, other).Some? ==> rs[UserIndex(rs, other).value] == us[UserIndex(us, other).value])
  {
    var rs := us[..i] + us[i + 1..];
    match UserIndex(us, other)
    case None =>
      forall k | 0 <= k < |rs| ensures rs[k].id != other {
        if k < i { assert rs[k] == us[k]; } else { assert rs[k] == us[k + 1]; }
      }
    case Some(o) =>
      var o' := if o < i then o else o - 1;
      assert rs[o'] == us[o];
      var a := UserIndex(rs, other).value;
      if a < i {
        assert rs[a] == us[a];
      } else {
        assert rs[a] == us[a + 1];
      }
  }

  /** The search filter: name, e-mail or username contains the query, ignoring case. */
  predicate SearchMatch(q: string, u: User) {
    Text.ContainsIgnoreCase(u.name, q) || Text.ContainsIgnoreCase(u.email, q) || Text.ContainsIgnoreCase(u.username, q)
  }

  /** `GET /search/`: any caller; the query needs two characters and the limit may not pass 100. */
  function SearchUsers(db: Db, q: string, limit: nat): (r: Result<seq<UserView>, HttpError>)
    ensures r.Failure? <==> |q| < 2 || limit > 100
    ensures r.Failure? ==> r.error.code == UnprocessableEntity
    ensures r.Success? ==> |r.value| <= limit
    ensures r.Success? ==> forall k :: 0 <= k < |r.value| ==>
      exists w :: w in db.users && SearchMatch(q, w) && r.value[k] == View(w)
    ensures r.Success? && |r.value| < limit ==>
      forall k :: 0 <= k < |db.users| && SearchMatch(q, db.users[k]) ==> View(db.users[k]) in r.value
  {
    if |q| < 2 || limit > 100 then Failure(ValidationError())
    else
      var found := Found(db, q, limit);
      var views := Views(found);
      assert forall k :: 0 <= k < |views| ==> views[k] == View(found[k]) && found[k] in db.users;
      Success(views)
  }

  /** The first `limit` accounts the search matches. */
  function Found(db: Db, q: string, limit: nat): (r: seq<User>)
    ensures |r| <= limit
    ensures forall k :: 0 <= k < |r| ==> SearchMatch(q, r[k]) && r[k] in db.users
    ensures |r| < limit ==> forall k :: 0 <= k < |db.users| && SearchMatch(q, db.users[k]) ==> db.users[k] in r
  {
    var p := (w: User) => SearchMatch(q, w);
    var matching := Seqs.Filter(db.users, p);
    var r := Seqs.Take(matching, limit);
    forall k | 0 <= k < |r| ensures SearchMatch(q, r[k]) && r[k] in db.users {
      assert r[k] == matching[k];
      Seqs.FilterMember(db.users, p, r[k]);
    }
    assert |r| < limit ==> r == matching;
    r
  }
}

=== FILE: vendor_routes.dfy ===
/** The vendor endpoints (backend/api/routes/vendors.py): role gates, query bounds and
    the 400/404 answers around the vendor directory. */
module VendorRoutes {
  import opened Wrappers
  import opened Schemas
  import opened Records
  import opened Http
  import Text
  import VendorService

  /** Who may create and update vendors. */
  const Editors: seq<UserRole> := [Superadmin, Coordinator]

  /** The body's `email`, an `Optional[EmailStr]`: absent or null passes; a given address needs
      at least an `@`, so the empty text is refused. */
  predicate EmailAccepted(email: Option<string>) {
    email.None? || '@' in email.value
  }

  /** `POST /`: editors only; a body whose e-mail fails validation is a 422, and a duplicate name
      a 400. The role check runs before the body is validated. */
  function CreateVendorRoute(db: Db, u: CurrentUser, data: VendorService.VendorCreate, id: string, now: Time)
    : (r: Result<VendorService.VendorSaved, HttpError>)
    ensures !HasAnyRole(u, Editors) ==> r.Failure? && r.error.code == Forbidden
    ensures HasAnyRole(u, Editors) && !EmailAccepted(data.email) ==> r == Failure(ValidationError())
    ensures HasAnyRole(u, Editors) && EmailAccepted(data.email) && VendorService.NameTaken(db, data.name) ==>
      r == Failure(HttpError(BadRequest, "Vendor with this name already exists"))
    ensures r.Success? <==>
      HasAnyRole(u, Editors) && EmailAccepted(data.email) && !VendorService.NameTaken(db, data.name)
    ensures r.Success? ==> r.value == VendorService.CreateVendor(db, data, id, now).value
  {
    match RequireRole(u, Editors)
    case Some(e) => Failure(e)
    case None =>
      if !EmailAccepted(data.email) then Failure(ValidationError())
      else
        match VendorService.CreateVendor(db, data, id, now)
        case Failure(e) => Failure(HttpError(BadRequest, e.message))
        case Success(s) => Success(s)
  }

  /** `GET /`: any caller; `skip` is a natural number and `limit` at most 1000. */
  function ListVendorsRoute(db: Db, skip: nat, limit: nat, statusFilter: Option<string>): (r: Result<seq<Vendor>, HttpError>)
    ensures r.Failure? <==> limit > 1000
    ensures r.Failure? ==> r.error.code == UnprocessableEntity
    ensures r.Success? ==> r.value == VendorService.GetAllVendors(db, skip, limit, statusFilter)
  {
    if limit > 1000 then Failure(ValidationError())
    else Success(VendorService.GetAllVendors(db, skip, limit, statusFilter))
  }

  /** `GET /search`: the query needs two characters and the limit may not pass 100. */
  function SearchVendorsRoute(db: Db, q: string, limit: nat): (r: Result<seq<Vendor>, HttpError>)
    ensures r.Failure? <==> |q| < 2 || limit > 100
    ensures r.Failure? ==> r.error.code == UnprocessableEntity
    ensures r.Success? ==> |r.value| <= limit
    ensures r.Success? ==> forall k :: 0 <= k < |r.value| ==>
      r.value[k].status == Active && Text.ContainsIgnoreCase(r.value[k].name, q)
    ensures r.Success? ==> r.value == VendorService.SearchVendors(db, q, limit)
  {
    if |q| < 2 || limit > 100 then Failure(ValidationError())
    else Success(VendorService.SearchVendors(db, q, limit))
  }

  /** `GET /{vendor_id}`. */
  function GetVendorRoute(db: Db, id: string): (r: Result<Vendor, HttpError>)
    ensures r.Failure? <==> forall k :: 0 <= k < |db.vendors| ==> db.vendors[k].id != id
    ensures r.Failure? ==> r.error == HttpError(NotFound, "Vendor not found")
    ensures r.Success? ==> r.value.id == id && r.value in db.vendors
  {
    match VendorService.GetVendorById(db, id)
    case None => Failure(HttpError(NotFound, "Vendor not found"))
    case Some(v) => Success(v)
  }

  /** `PUT /{vendor_id}`: editors only; a body whose e-mail fails validation is a 422, and an
      unknown id a 404; neither changes anything. */
  function UpdateVendorRoute(db: Db, u: CurrentUser, id: string, data: VendorService.VendorUpdate, now: Time)
    : (r: Result<VendorService.VendorSaved, HttpError>)
    ensures !HasAnyRole(u, Editors) ==> r.Failure? && r.error.code == Forbidden
    ensures HasAnyRole(u, Editors) && !EmailAccepted(data.email) ==> r == Failure(ValidationError())
    ensures HasAnyRole(u, Editors) && EmailAccepted(data.email) ==>
      (r.Failure? <==> forall k :: 0 <= k < |db.vendors| ==> db.vendors[k].id != id)
    ensures HasAnyRole(u, Editors) && EmailAccepted(data.email) && r.Failure? ==>
      r.error == HttpError(NotFound, "Vendor not found")
    ensures r.Success? ==> r.value.vendor.id == id && r.value.db.users == db.users && r.value.db.nfas == db.nfas
    ensures r.Success? ==>
      var i := VendorIndex(db.vendors, id).value;
      && r.value.vendor == VendorService.ApplyUpdate(db.vendors[i], data, now)
      && r.value.db.vendors == db.vendors[i := r.value.vendor]
  {
    match RequireRole(u, Editors)
    case Some(e) => Failure(e)
    case None =>
      if !EmailAccepted(data.email) then Failure(ValidationError())
      else
        var up := VendorService.UpdateVendor(db, id, data, now);
        match up.vendor
        case None => Failure(HttpError(NotFound, "Vendor not found"))
        case Some(v) => Success(VendorService.VendorSaved(up.db, v))
  }

  /** `DELETE /{vendor_id}`: superadmins only; an unknown id is a 404. */
  function DeleteVendorRoute(db: Db, u: CurrentUser, id: string): (r: Result<Db, HttpError>)
    ensures !HasRole(u, Superadmin) ==> r == Failure(RequireRole(u, [Superadmin]).value)
    ensures HasRole(u, Superadmin) ==>
      (r.Failure? <==> forall k :: 0 <= k < |db.vendors| ==> db.vendors[k].id != id)
    ensures r.Failure? && HasRole(u, Superadmin) ==> r.error == HttpError(NotFound, "Vendor not found")
    ensures r.Success? ==> |r.value.vendors| == |db.vendors| - 1 && r.value.users == db.users
    ensures r.Success? ==> r.value == VendorService.DeleteVendor(db, id).db
  {
    match RequireRole(u, [Superadmin])
    case Some(e) => Failure(e)
    case None =>
      var d := VendorService.DeleteVendor(db, id);
      if d.deleted then Success(d.db) else Failure(HttpError(NotFound, "Vendor not found"))
  }

  /** A coordinator may create and edit vendors but never delete one. */
  lemma CoordinatorsCannotDelete(db: Db, u: CurrentUser, id: string)
    requires u.roles == [Coordinator]
    ensures DeleteVendorRoute(db, u, id).Failure? && DeleteVendorRoute(db, u, id).error.code == Forbidden
    ensures HasAnyRole(u, Editors)
  {
    assert Coordinator in Editors;
  }
}

=== FILE: vendor_service.dfy ===
/** The vendor directory (backend/services/vendor_service.py): unique names on creation,
    a name-ordered listing, field-wise updates, deletion and an active-only name search. */
module VendorService {
  import opened Wrappers
  import opened Schemas
  import opened Records
  import opened Http
  import Seqs
  import Sorting
  import Text

  /** The fields a client supplies for a new vendor. */
  datatype VendorCreate = VendorCreate(
    name: string,
    category: Option<string>,
    contactPerson: Option<string>,
    email: Option<string>,
    phone: Option<string>,
    address: Option<string>)

  /** The fields a client may change; `None` leaves a field as it is. */
  datatype VendorUpdate = VendorUpdate(
    name: Option<string>,
    category: Option<string>,
    contactPerson: Option<string>,
    email: Option<string>,
    phone: Option<string>,
    address: Option<string>,
    status: Option<VendorStatus>)

  datatype VendorSaved = VendorSaved(db: Db, vendor: Vendor)

  /** The store holds a vendor of that exact name. */
  predicate NameTaken(db: Db, name: string) {
    exists k :: 0 <= k < |db.vendors| && db.vendors[k].name == name
  }

  /** `create_vendor`: refuses a name already in use; otherwise appends an active vendor. */
  function CreateVendor(db: Db, data: VendorCreate, id: string, now: Time): (r: Result<VendorSaved, ServiceError>)
    ensures r.Failure? <==> NameTaken(db, data.name)
    ensures r.Failure? ==> r.error == ValueError("Vendor with this name already exists")
    ensures r.Success? ==>
      var v := r.value.vendor;
      && v.id == id && v.name == data.name && v.category == data.category
      && v.contactPerson == data.contactPerson && v.email == data.email
      && v.phone == data.phone && v.address == data.address
      && v.status == DefaultVendorStatus && v.createdAt == now && v.updatedAt == now
      && r.value.db == db.(vendors := db.vendors + [v])
  {
    if exists k :: 0 <= k < |db.vendors| && db.vendors[k].name == data.name then
      Failure(ValueError("Vendor with this name already exists"))
    else
      var v := Vendor(id, data.name, data.category, data.contactPerson, data.email, data.phone,
                      data.address, DefaultVendorStatus, now, now);
      Success(VendorSaved(db.(vendors := db.vendors + [v]), v))
  }

  /** No two vendors share a name. */
  predicate UniqueNames(vendors: seq<Vendor>) {
    forall i, j :: 0 <= i < j < |vendors| ==> vendors[i].name != vendors[j].name
  }

  /** Creation keeps vendor names unique. */
  lemma CreateKeepsNamesUnique(db: Db, data: VendorCreate, id: string, now: Time)
    requires UniqueNames(db.vendors)
    requires CreateVendor(db, data, id, now).Success?
    ensures UniqueNames(CreateVendor(db, data, id, now).value.db.vendors)
  {
    var vs := CreateVendor(db, data, id, now).value.db.vendors;
    forall i, j | 0 <= i < j < |vs| ensures vs[i].name != vs[j].name {
      if j == |db.vendors| {
        assert vs[i] == db.vendors[i];
      }
    }
  }

  /** `get_vendor_by_id`. */
  function GetVendorById(db: Db, id: string): (r: Option<Vendor>)
    ensures r.Some? <==> exists k :: 0 <= k < |db.vendors| && db.vendors[k].id == id
    ensures r.Some? ==> r.value.id == id && r.value in db.vendors
  {
    match VendorIndex(db.vendors, id)
    case None => None
    case Some(i) => Some(db.vendors[i])
  }

  /** Ascending by name. */
  predicate NameOrder(a: Vendor, b: Vendor) {
    Text.LexLe(a.name, b.name)
  }

  lemma NameOrderIsTotalPreorder()
    ensures Sorting.TotalPreorder(NameOrder)
  {
    forall a: Vendor, b: Vendor ensures NameOrder(a, b) || NameOrder(b, a) {
      Text.LexLeTotal(a.name, b.name);
    }
    forall a: Vendor, b: Vendor, c: Vendor | NameOrder(a, b) && NameOrder(b, c) ensures NameOrder(a, c) {
      Text.LexLeTransitive(a.name, b.name, c.name);
    }
  }

  /** The status filter applies only when a non-empty status is given. */
  predicate InStatus(status: Option<string>, v: Vendor) {
    Truthy(status) ==> VendorStatusValue(v.status) == status.value
  }

  /** `find(query)`: the stored vendors of the status, in store order. */
  function Matching(db: Db, status: Option<string>): (r: seq<Vendor>)
    ensures forall k :: 0 <= k < |r| ==> InStatus(status, r[k]) && r[k] in db.vendors
    ensures forall v :: multiset(r)[v] == if InStatus(status, v) then multiset(db.vendors)[v] else 0
  {
    var p := (v: Vendor) => InStatus(status, v);
    var r := Seqs.Filter(db.vendors, p);
    forall k | 0 <= k < |r| ensures InStatus(status, r[k]) && r[k] in db.vendors {
      Seqs.FilterMember(db.vendors, p, r[k]);
    }
    Seqs.FilterCounts(db.vendors, p);
    r
  }

  /** `get_all_vendors`: `find(query).sort("name", 1).skip(skip).limit(limit)`. */
  function GetAllVendors(db: Db, skip: nat, limit: nat, status: Option<string>): (r: seq<Vendor>)
    ensures |r| <= limit
    ensures |r| == if skip >= |Matching(db, status)| then 0 else Seqs.Min(limit, |Matching(db, status)| - skip)
    ensures forall k :: 0 <= k < |r| ==> InStatus(status, r[k]) && r[k] in db.vendors
    ensures Sorting.SortedBy(r, NameOrder)
  {
    NameOrderIsTotalPreorder();
    Sorting.SortPage(Matching(db, status), NameOrder, skip, limit)
  }

  /** Without skip or cut-off, the listing holds every vendor of the status (every vendor when no
      status is given), each exactly as often as stored. */
  lemma {:induction false} ListingIsComplete(db: Db, limit: nat, status: Option<string>)
    requires |Matching(db, status)| <= limit
    ensures forall v :: v in db.vendors && InStatus(status, v) ==>
      multiset(GetAllVendors(db, 0, limit, status))[v] == multiset(db.vendors)[v]
    ensures forall v :: !InStatus(status, v) ==> multiset(GetAllVendors(db, 0, limit, status))[v] == 0
  {
    NameOrderIsTotalPreorder();
    var sorted := Sorting.Sort(Matching(db, status), NameOrder);
    assert Seqs.Page(sorted, 0, limit) == sorted;
  }

  /** With no status and at most 100 vendors, the default listing is every vendor. */
  lemma DefaultListingIsEveryVendor(db: Db)
    requires |db.vendors| <= 100
    ensures multiset(GetAllVendors(db, 0, 100, None)) == multiset(db.vendors)
  {
    ListingIsComplete(db, 100, None);
    assert multiset(Matching(db, None)) == multiset(db.vendors);
  }

  /** The `$set` of an update: each supplied field replaces the stored one, and `updated_at` is refreshed. */
  function ApplyUpdate(v: Vendor, u: VendorUpdate, now: Time): (r: Vendor)
    ensures r.id == v.id && r.createdAt == v.createdAt && r.updatedAt == now
    ensures u.name.None? ==> r.name == v.name
    ensures u.name.Some? ==> r.name == u.name.value
    ensures u.category.None? ==> r.category == v.category
    ensures u.category.Some? ==> r.category == u.category
    ensures u.contactPerson.None? ==> r.contactPerson == v.contactPerson
    ensures u.contactPerson.Some? ==> r.contactPerson == u.contactPerson
    ensures u.email.None? ==> r.email == v.email
    ensures u.email.Some? ==> r.email == u.email
    ensures u.phone.None? ==> r.phone == v.phone
    ensures u.phone.Some? ==> r.phone == u.phone
    ensures u.address.None? ==> r.address == v.address
    ensures u.address.Some? ==> r.address == u.address
    ensures u.status.None? ==> r.status == v.status
    ensures u.status.Some? ==> r.status == u.status.value
  {
    Vendor(v.id,
           u.name.GetOr(v.name),
           if u.category.Some? then u.category else v.category,
           if u.contactPerson.Some? then u.contactPerson else v.contactPerson,
           if u.email.Some? then u.email else v.email,
           if u.phone.Some? then u.phone else v.phone,
           if u.address.Some? then u.address else v.address,
           u.status.GetOr(v.status),
           v.createdAt, now)
  }

  /** An update with no fields only refreshes `updated_at`. */
  lemma EmptyUpdateOnlyTouchesTime(v: Vendor, now: Time)
    ensures ApplyUpdate(v, VendorUpdate(None, None, None, None, None, None, None), now) == v.(updatedAt := now)
  {
  }

  /** Applying the same update twice is the same as applying it once. */
  lemma UpdateIdempotent(v: Vendor, u: VendorUpdate, now: Time)
    ensures ApplyUpdate(ApplyUpdate(v, u, now), u, now) == ApplyUpdate(v, u, now)
  {
  }

  /** A field left out of an update cannot be cleared: an optional field once set stays set. */
  lemma UpdateNeverClears(v: Vendor, u: VendorUpdate, now: Time)
    ensures v.category.Some? ==> ApplyUpdate(v, u, now).category.Some?
    ensures v.address.Some? ==> ApplyUpdate(v, u, now).address.Some?
    ensures v.contactPerson.Some? ==> ApplyUpdate(v, u, now).contactPerson.Some?
    ensures v.email.Some? ==> ApplyUpdate(v, u, now).email.Some?
    ensures v.phone.Some? ==> ApplyUpdate(v, u, now).phone.Some?
  {
  }

  datatype VendorUpdated = VendorUpdated(db: Db, vendor: Option<Vendor>)

  /** `update_vendor`: updates the first vendor with that id and returns it re-read; an unknown id changes nothing. */
  function UpdateVendor(db: Db, id: string, u: VendorUpdate, now: Time): (r: VendorUpdated)
    ensures VendorIndex(db.vendors, id).None? ==> r.db == db && r.vendor.None?
    ensures VendorIndex(db.vendors, id).Some? ==>
      var i := VendorIndex(db.vendors, id).value;
      && r.db == db.(vendors := db.vendors[i := ApplyUpdate(db.vendors[i], u, now)])
      && r.vendor == Some(ApplyUpdate(db.vendors[i], u, now))
    ensures r.vendor.Some? ==> r.vendor.value.id == id && r.vendor == GetVendorById(r.db, id)
  {
    match VendorIndex(db.vendors, id)
    case None => VendorUpdated(db, None)
    case Some(i) =>
      var v := ApplyUpdate(db.vendors[i], u, now);
      var vs := db.vendors[i := v];
      assert vs[i].id == id;
      assert forall j :: 0 <= j < i ==> vs[j].id != id;
      VendorUpdated(db.(vendors := vs), Some(v))
  }

  datatype VendorDeleted = VendorDeleted(db: Db, deleted: bool)

  /** `delete_vendor`: removes the first vendor with that id and reports whether one was removed. */
  function DeleteVendor(db: Db, id: string): (r: VendorDeleted)
    ensures r.deleted <==> exists k :: 0 <= k < |db.vendors| && db.vendors[k].id == id
    ensures !r.deleted ==> r.db == db
    ensures r.deleted ==>
      var i := VendorIndex(db.vendors, id).value;
      r.db == db.(vendors := db.vendors[..i] + db.vendors[i + 1..])
    ensures |r.db.vendors| == |db.vendors| - (if r.deleted then 1 else 0)
  {
    match VendorIndex(db.vendors, id)
    case None => VendorDeleted(db, false)
    case Some(i) => VendorDeleted(db.(vendors := db.vendors[..i] + db.vendors[i + 1..]), true)
  }

  /** Vendor ids are unique in the store. */
  predicate UniqueIds(vendors: seq<Vendor>) {
    forall i, j :: 0 <= i < j < |vendors| ==> vendors[i].id != vendors[j].id
  }

  /** With unique ids, a deleted vendor can no longer be found. */
  lemma {:induction false} DeleteRemovesTheVendor(db: Db, id: string)
    requires UniqueIds(db.vendors)
    ensures GetVendorById(DeleteVendor(db, id).db, id).None?
  {
    var r := DeleteVendor(db, id).db;
    match VendorIndex(db.vendors, id)
    case None =>
    case Some(i) =>
      forall k | 0 <= k < |r.vendors| ensures r.vendors[k].id != id {
        if k < i {
          assert r.vendors[k] == db.vendors[k];
        } else {
          assert r.vendors[k] == db.vendors[k + 1];
        }
      }
  }

  /** With unique ids, deleting one vendor leaves every other vendor's lookup as it was. */
  lemma {:induction false} DeleteKeepsOtherVendors(db: Db, id: string, other: string)
    requires UniqueIds(db.vendors)
    requires other != id
    ensures GetVendorById(DeleteVendor(db, id).db, other) == GetVendorById(db, other)
  {
    match VendorIndex(db.vendors, id)
    case None =>
    case Some(i) =>
      var vs := db.vendors;
      var rs := vs[..i] + vs[i + 1..];
      assert DeleteVendor(db, id).db.vendors == rs;
      KeptLookup(vs, i, other);
  }

  /** The one step of the proof above that looks at positions: in the store without position `i`,
      the vendor with another id is found exactly where it was. */
  lemma KeptLookup(vs: seq<Vendor>, i: nat, other: string)
    requires UniqueIds(vs) && i < |vs| && vs[i].id != other
    ensures var rs := vs[..i] + vs[i + 1..];
      && (VendorIndex(rs, other).Some? <==> VendorIndex(vs, other).Some?)
      && (VendorIndex(rs, other).Some? ==> rs[VendorIndex(rs, other).value] == vs[VendorIndex(vs, other).value])
  {
    var rs := vs[..i] + vs[i + 1..];
    match VendorIndex(vs, other)
    case None =>
      forall k | 0 <= k < |rs| ensures rs[k].id != other {
        if k < i { assert rs[k] == vs[k]; } else { assert rs[k] == vs[k + 1]; }
      }
    case Some(o) =>
      var o' := if o < i then o else o - 1;
      assert rs[o'] == vs[o];
      var a := VendorIndex(rs, other).value;
      if a < i {
        assert rs[a] == vs[a];
      } else {
        assert rs[a] == vs[a + 1];
      }
  }

  /** The search filter: an active vendor whose name contains the term, ignoring case. */
  predicate SearchMatch(term: string, v: Vendor) {
    v.status == Active && Text.ContainsIgnoreCase(v.name, term)
  }

  /** `search_vendors`: the first `limit` matching vendors in store order. */
  function SearchVendors(db: Db, term: string, limit: nat): (r: seq<Vendor>)
    ensures |r| <= limit
    ensures forall k :: 0 <= k < |r| ==> r[k].status == Active && Text.ContainsIgnoreCase(r[k].name, term)
    ensures forall k :: 0 <= k < |r| ==> r[k] in db.vendors
  {
    var matching := Seqs.Filter(db.vendors, (v: Vendor) => SearchMatch(term, v));
    var r := Seqs.Take(matching, limit);
    assert forall k :: 0 <= k < |r| ==> r[k] == matching[k] && matching[k] in multiset(db.vendors);
    r
  }

  /** Under the limit, the search finds every active vendor whose name matches. */
  lemma {:induction false} SearchIsComplete(db: Db, term: string, limit: nat, v: Vendor)
    requires |Seqs.Filter(db.vendors, (w: Vendor) => SearchMatch(term, w))| <= limit
    requires v in db.vendors && v.status == Active && Text.ContainsIgnoreCase(v.name, term)
    ensures v in SearchVendors(db, term, limit)
  {
    var p := (w: Vendor) => SearchMatch(term, w);
    Seqs.FilterMultiset(db.vendors, p, v);
    var matching := Seqs.Filter(db.vendors, p);
    assert v in multiset(matching);
    assert Seqs.Take(matching, limit) == matching;
  }
}

=== FILE: websocket.dfy ===
/** The live-notification connection registry (backend/api/routes/websocket.py): which sockets are
    open, which belong to which user, and what a broadcast does with the sockets it cannot reach.
    A socket is represented by an identity; accepting, sending and receiving are left to the transport. */
module Websocket {
  import opened Wrappers
  import Seqs

  /** The identity of an accepted socket. */
  type Conn = nat

  /** Every open socket (in order of connection), and each signed-in user's sockets. */
  datatype Registry = Registry(active: seq<Conn>, byUser: map<string, seq<Conn>>)

  const Empty := Registry([], map[])

  /** The registry never keeps a user whose list of sockets has become empty. */
  predicate NoEmptyLists(r: Registry) {
    forall u :: u in r.byUser ==> |r.byUser[u]| > 0
  }

  /** A user id is used only when it is present and non-empty. */
  predicate Named(userId: Option<string>) {
    userId.Some? && userId.value != ""
  }

  /** The sockets a user has open, none when the user has no entry. */
  function SocketsOf(r: Registry, u: string): seq<Conn> {
    if u in r.byUser then r.byUser[u] else []
  }

  /** `connect`: the socket joins the open list and, for a named user, the end of that user's list. */
  function Connect(r: Registry, c: Conn, userId: Option<string>): (r': Registry)
    ensures r'.active == r.active + [c]
    ensures Named(userId) ==> SocketsOf(r', userId.value) == SocketsOf(r, userId.value) + [c]
    ensures forall u :: u in r'.byUser && (!Named(userId) || u != userId.value) ==>
      u in r.byUser && r'.byUser[u] == r.byUser[u]
    ensures forall u :: u in r.byUser ==> u in r'.byUser
    ensures NoEmptyLists(r) ==> NoEmptyLists(r')
  {
    if Named(userId) then
      var u := userId.value;
      Registry(r.active + [c], r.byUser[u := SocketsOf(r, u) + [c]])
    else
      Registry(r.active + [c], r.byUser)
  }

  /** One socket fewer in a user's list; a user left with none is dropped. */
  function DropSocket(m: map<string, seq<Conn>>, u: string, c: Conn): (m': map<string, seq<Conn>>)
    requires u in m
    ensures u in m' <==> |Seqs.RemoveFirst(m[u], c)| > 0
    ensures u in m' ==> m'[u] == Seqs.RemoveFirst(m[u], c)
    ensures forall v :: v != u ==> (v in m' <==> v in m)
    ensures forall v :: v in m' && v != u ==> m'[v] == m[v]
  {
    var rest := Seqs.RemoveFirst(m[u], c);
    if |rest| == 0 then m - {u} else m[u := rest]
  }

  /** `disconnect`: the socket leaves the open list and the named user's list; a user left with
      no socket is dropped. */
  function Disconnect(r: Registry, c: Conn, userId: Option<string>): (r': Registry)
    ensures multiset(r'.active) == multiset(r.active) - multiset{c}
    ensures Named(userId) && userId.value in r.byUser ==>
      multiset(SocketsOf(r', userId.value)) == multiset(SocketsOf(r, userId.value)) - multiset{c}
    ensures forall u :: u in r.byUser && (!Named(userId) || u != userId.value) ==>
      u in r'.byUser && r'.byUser[u] == r.byUser[u]
    ensures forall u :: u in r'.byUser ==> u in r.byUser
    ensures NoEmptyLists(r) ==> NoEmptyLists(r')
  {
    var active := Seqs.RemoveFirst(r.active, c);
    if Named(userId) && userId.value in r.byUser then Registry(active, DropSocket(r.byUser, userId.value, c))
    else Registry(active, r.byUser)
  }

  /** Removing the last element, which occurs nowhere before it, gives back the rest. */
  lemma {:induction false} RemoveFirstLast<T>(s: seq<T>, c: T)
    requires c !in s
    ensures Seqs.RemoveFirst(s + [c], c) == s
  {
    if |s| > 0 {
      var sc := s + [c];
      assert sc[0] == s[0] != c;
      assert sc[1..] == s[1..] + [c];
      RemoveFirstLast(s[1..], c);
      assert Seqs.RemoveFirst(sc, c) == [s[0]] + Seqs.RemoveFirst(sc[1..], c);
      assert [s[0]] + s[1..] == s;
    }
  }

  /** Disconnecting a socket that was just connected, under the same user, undoes the connect. */
  lemma ConnectThenDisconnect(r: Registry, c: Conn, userId: Option<string>)
    requires NoEmptyLists(r)
    requires c !in r.active
    requires Named(userId) ==> c !in SocketsOf(r, userId.value)
    ensures Disconnect(Connect(r, c, userId), c, userId) == r
  {
    RemoveFirstLast(r.active, c);
    if Named(userId) {
      var u := userId.value;
      AddThenDrop(r.byUser, u, c);
      assert Connect(r, c, userId).byUser == r.byUser[u := SocketsOf(r, u) + [c]];
    }
  }

  /** The map half of the round trip: a socket added at the end of a user's list and dropped again. */
  lemma AddThenDrop(m: map<string, seq<Conn>>, u: string, c: Conn)
    requires u in m ==> |m[u]| > 0 && c !in m[u]
    ensures var before := if u in m then m[u] else [];
      DropSocket(m[u := before + [c]], u, c) == m
  {
    if u in m {
      RemoveFirstLast(m[u], c);
      DropRestores(m, u, c);
    } else {
      assert Seqs.RemoveFirst([c], c) == [];
      DropRemoves(m, u, c);
    }
  }

  lemma DropRestores(m: map<string, seq<Conn>>, u: string, c: Conn)
    requires u in m && |m[u]| > 0 && Seqs.RemoveFirst(m[u] + [c], c) == m[u]
    ensures DropSocket(m[u := m[u] + [c]], u, c) == m
  {
    var d := DropSocket(m[u := m[u] + [c]], u, c);
    assert u in d && d[u] == m[u];
  }

  lemma DropRemoves(m: map<string, seq<Conn>>, u: string, c: Conn)
    requires u !in m && Seqs.RemoveFirst([c], c) == []
    ensures DropSocket(m[u := [c]], u, c) == m
  {
    var d := DropSocket(m[u := [c]], u, c);
    assert u !in d;
  }

  /** The clean-up loop of `broadcast`: each listed socket removes one occurrence, if any is left. */
  function RemoveEach(s: seq<Conn>, ds: seq<Conn>): (r: seq<Conn>)
    ensures |r| <= |s|
    decreases |ds|
  {
    if |ds| == 0 then s else RemoveEach(Seqs.RemoveFirst(s, ds[0]), ds[1..])
  }

  /** The sockets whose send did not fail. */
  function Survivors(s: seq<Conn>, failed: Conn -> bool): seq<Conn> {
    Seqs.Filter(s, (c: Conn) => !failed(c))
  }

  /** Removing sockets that are not at the head leaves the head in place. */
  lemma {:induction false} RemoveEachSkips(s: seq<Conn>, ds: seq<Conn>)
    requires |s| > 0 && s[0] !in ds
    ensures RemoveEach(s, ds) == [s[0]] + RemoveEach(s[1..], ds)
    decreases |ds|
  {
    if |ds| > 0 {
      var s' := Seqs.RemoveFirst(s, ds[0]);
      assert s'[0] == s[0] && s'[1..] == Seqs.RemoveFirst(s[1..], ds[0]);
      RemoveEachSkips(s', ds[1..]);
    }
  }

  /** Removing one occurrence of every failed socket removes exactly the failed ones. */
  lemma {:induction false} RemoveFailed(s: seq<Conn>, failed: Conn -> bool)
    ensures RemoveEach(s, Seqs.Filter(s, failed)) == Survivors(s, failed)
  {
    if |s| > 0 {
      RemoveFailed(s[1..], failed);
      if failed(s[0]) {
        FailedHead(s, failed);
      } else {
        LiveHead(s, failed);
      }
    }
  }

  /** A failed socket at the head is removed first, and the rest is handled as before. */
  lemma FailedHead(s: seq<Conn>, failed: Conn -> bool)
    requires |s| > 0 && failed(s[0])
    requires RemoveEach(s[1..], Seqs.Filter(s[1..], failed)) == Survivors(s[1..], failed)
    ensures RemoveEach(s, Seqs.Filter(s, failed)) == Survivors(s, failed)
  {
    var x, t := s[0], s[1..];
    var ds := Seqs.Filter(t, failed);
    assert Seqs.Filter(s, failed) == [x] + ds;
    assert ([x] + ds)[0] == x && ([x] + ds)[1..] == ds;
    assert Seqs.RemoveFirst(s, x) == t;
    assert Survivors(s, failed) == Survivors(t, failed);
  }

  /** A surviving socket at the head stays at the head. */
  lemma LiveHead(s: seq<Conn>, failed: Conn -> bool)
    requires |s| > 0 && !failed(s[0])
    requires RemoveEach(s[1..], Seqs.Filter(s[1..], failed)) == Survivors(s[1..], failed)
    ensures RemoveEach(s, Seqs.Filter(s, failed)) == Survivors(s, failed)
  {
    var ds := Seqs.Filter(s[1..], failed);
    assert Seqs.Filter(s, failed) == ds;
    assert s[0] !in ds;
    RemoveEachSkips(s, ds);
    assert Survivors(s, failed) == [s[0]] + Survivors(s[1..], failed);
  }

  /** What a broadcast did: the sockets it tried, in order, and the registry afterwards. */
  datatype Broadcasted = Broadcasted(attempted: seq<Conn>, registry: Registry)

  /** `broadcast`: the message goes to every open socket; those whose send failed leave the open
      list, and only that list (the per-user lists keep them until their own disconnect). */
  function Broadcast(r: Registry, failed: Conn -> bool): (b: Broadcasted)
    ensures b.attempted == r.active
    ensures b.registry.active == Survivors(r.active, failed)
    ensures b.registry.byUser == r.byUser
  {
    var disconnected := Seqs.Filter(r.active, failed);
    RemoveFailed(r.active, failed);
    Broadcasted(r.active, Registry(RemoveEach(r.active, disconnected), r.byUser))
  }

  /** After a broadcast no failed socket is open, and every socket that took the message still is. */
  lemma BroadcastKeepsExactlyReachable(r: Registry, failed: Conn -> bool, c: Conn)
    requires c in r.active
    ensures c in Broadcast(r, failed).registry.active <==> !failed(c)
  {
    var after := Broadcast(r, failed).registry.active;
    if c in after {
      var k :| 0 <= k < |after| && after[k] == c;
    }
  }

  datatype BroadcastReply = BroadcastReply(status: string, connections: nat)

  /** `POST /broadcast`: the reply's count is the number of sockets still open afterwards. */
  function BroadcastRoute(r: Registry, failed: Conn -> bool): (res: BroadcastReply)
    ensures res.status == "broadcasted"
    ensures res.connections == |r.active| - |Seqs.Filter(r.active, failed)|
  {
    var after := Broadcast(r, failed).registry.active;
    SurvivorsCount(r.active, failed);
    BroadcastReply("broadcasted", |after|)
  }

  /** Every socket either failed or survived. */
  lemma {:induction false} SurvivorsCount(s: seq<Conn>, failed: Conn -> bool)
    ensures |Survivors(s, failed)| + |Seqs.Filter(s, failed)| == |s|
  {
    if |s| > 0 {
      assert s == [s[0]] + s[1..];
      SurvivorsCount(s[1..], failed);
    }
  }

  /** A message from a client: its `type` field, if any, and the rest as received. */
  datatype ClientMessage = ClientMessage(kind: Option<string>, body: string)

  datatype Reply = Pong | Echo(data: ClientMessage)

  /** The keep-alive answer: "pong" to a ping, anything else is sent back as it came. */
  function Answer(m: ClientMessage): (a: Reply)
    ensures a == Pong <==> m.kind == Some("ping")
    ensures a.Echo? ==> a.data == m
  {
    if m.kind == Some("ping") then Pong else Echo(m)
  }

  /** One turn of the receive loop: what `receive_text` delivered. Either a JSON object (its `type`
      and the rest), or text that `json.loads` refuses or that decodes to a value without `.get`
      (an array, a string, a number), or the client's close. */
  datatype Incoming = Object(m: ClientMessage) | Unreadable | Closed

  /** After one turn: the registry, the reply sent (if any), and whether the loop goes on. */
  datatype Received = Received(registry: Registry, reply: Option<Reply>, open: bool)

  /** One turn of the endpoint's loop for socket `c` of `userId`. An object is answered; a close,
      an unreadable message, or a reply that cannot be sent ends the loop through `disconnect`
      (the `except WebSocketDisconnect` and `except Exception` branches alike). */
  function Receive(r: Registry, c: Conn, userId: Option<string>, msg: Incoming, replyFailed: bool): (o: Received)
    ensures o.open <==> msg.Object? && !replyFailed
    ensures o.open ==> o.registry == r
    ensures !o.open ==> o.registry == Disconnect(r, c, userId)
    ensures msg.Object? ==> o.reply == Some(Answer(msg.m))
    ensures !msg.Object? ==> o.reply.None?
  {
    match msg
    case Object(m) =>
      if replyFailed then Received(Disconnect(r, c, userId), Some(Answer(m)), false)
      else Received(r, Some(Answer(m)), true)
    case Unreadable => Received(Disconnect(r, c, userId), None, false)
    case Closed => Received(Disconnect(r, c, userId), None, false)
  }

  /** `send_personal_message`: the user's sockets, in the order they connected. */
  function PersonalRecipients(r: Registry, u: string): (cs: seq<Conn>)
    ensures u !in r.byUser ==> cs == []
    ensures u in r.byUser ==> cs == r.byUser[u]
    ensures forall c :: c in cs <==> u in r.byUser && c in r.byUser[u]
    ensures NoEmptyLists(r) && u in r.byUser ==> |cs| > 0
  {
    SocketsOf(r, u)
  }

  /** Connecting or disconnecting a socket of another user leaves `u`'s recipients as they were. */
  lemma OtherUsersLeaveRecipients(r: Registry, c: Conn, v: string, u: string)
    requires v != u
    ensures PersonalRecipients(Connect(r, c, Some(v)), u) == PersonalRecipients(r, u)
    ensures PersonalRecipients(Disconnect(r, c, Some(v)), u) == PersonalRecipients(r, u)
  {
  }

  /** Once its user disconnects it, a socket registered once is no longer sent personal messages. */
  lemma DisconnectStopsDelivery(r: Registry, c: Conn, u: string)
    requires u != ""
    requires multiset(SocketsOf(r, u))[c] <= 1
    ensures c !in PersonalRecipients(Disconnect(r, c, Some(u)), u)
  {
  }

  /** An unreadable message ends the socket's session: it is no longer open, nor sent personal
      messages, when it was registered once. */
  lemma UnreadableMessageDisconnects(r: Registry, c: Conn, u: string, replyFailed: bool)
    requires u != ""
    requires multiset(r.active)[c] <= 1 && multiset(SocketsOf(r, u))[c] <= 1
    ensures var o := Receive(r, c, Some(u), Unreadable, replyFailed);
      && !o.open && c !in o.registry.active && c !in PersonalRecipients(o.registry, u)
  {
    var o := Receive(r, c, Some(u), Unreadable, replyFailed);
    DisconnectStopsDelivery(r, c, u);
  }

  /** A socket connected under a non-empty user id is among that user's recipients. */
  lemma ConnectRegistersNamedUser(r: Registry, c: Conn, u: string)
    ensures c in PersonalRecipients(Connect(r, c, Some(u)), u) <==> u != "" || c in PersonalRecipients(r, u)
  {
  }
}

=== FILE: wrappers.dfy ===
/** Optional values and results that carry either a value or an error.
    Both are failure-compatible, so `:-` can be used with them. */
module Wrappers {

  /** A value that may be missing: Python's `None` / JavaScript's `null`. */
  datatype Option<+T> = None | Some(value: T) {

    predicate IsFailure() {
      None?
    }

    function PropagateFailure<U>(): Option<U>
      requires None?
    {
      None
    }

    function Extract(): T
      requires Some?
    {
      value
    }

    /** The wrapped value, or `default` when there is none. */
    function GetOr(default: T): T {
      match this
      case Some(v) => v
      case None => default
    }
  }

  /** The outcome of an operation that either succeeds with a value or fails with an error. */
  datatype Result<+T, +E> = Success(value: T) | Failure(error: E) {

    predicate IsFailure() {
      Failure?
    }

    function PropagateFailure<U>(): Result<U, E>
      requires Failure?
    {
      Failure(error)
    }

    function Extract(): T
      requires Success?
    {
      value
    }
  }
}
